=== FILE: README.md ===
# node-XMLHttpRequest core, modelled in Dafny

This project models the core of `lib/XMLHttpRequest.js`, the XMLHttpRequest
object of node-XMLHttpRequest, as pure Dafny functions over an immutable
state record. It proves what the object promises about that state. The
modelled core covers:

- the header and method deny-lists;
- the `data:` URI decoder and its base64 re-encoding check;
- request preparation in `send`: the `Host`, Basic `Authorization` and
  content headers;
- the asynchronous redirect resolver and its per-object budget;
- the two response assemblers;
- the ready-state machine: `open`, `setRequestHeader`, `send`,
  `handleError`, `abort` and `setState`;
- event listeners and the order and timing of `dispatchEvent`;
- the response and request header accessors;
- the classifier that reads the synchronous worker's result.

Every transition returns a `Step` holding four things:

- the new state;
- the events it dispatched, in order;
- the message it threw, if any;
- the I/O it started: an HTTP request, a file read or the synchronous worker.

Asynchronous transport callbacks (`response`, `data`, `end`, `error`, the
file-read callback) are transition functions of their own, applied to the
state that `send` left behind.

The runtime primitives are fields of a `Runtime` value and so are parameters
of the model. They are:

- the WHATWG URL parser;
- `decodeURIComponent`;
- Node's lenient base64 decoder;
- the UTF-8 `toString`;
- `JSON.parse` success or failure;
- whether `Blob` exists;
- `unescape`;
- `fs.readFileSync`;
- the synchronous worker process, as the text it writes.

The project is organised one module per file:

| file | module |
|---|---|
| `results.dfy` | `Option` and `Result` |
| `bytes.dfy` | `concat`, `stringToBuffer`, `checkAndShrinkBuffer` |
| `text.dfy` | ASCII case mapping, `split`, whitespace, trailing runs |
| `utf8.dfy` | UTF-8 encoding and a strict decoder |
| `base64.dfy` | RFC 4648 encoding and a canonical decoder |
| `validators.dfy` | deny-lists and the two checks |
| `datauri.dfy` | `bufferFromDataUri` |
| `urls.dfy` | URL fields and the `Host` header |
| `requests.dfy` | header map, content headers and Basic authentication |
| `redirects.dfy` | redirect budget and decision |
| `assembly.dfy` | `createResponse` and `createFileOrSyncResponse` |
| `events.dfy` | ready states, events, listeners and dispatch |
| `bridge.dfy` | the synchronous worker's result text |
| `xhr.dfy` | the object and its transitions |
| `scenarios.dfy` | properties of sequences of transitions |

Where the code and its description disagree, the model follows the code:

- Request header names are case-sensitive object keys. `setRequestHeader("x", …)`
  and `setRequestHeader("X", …)` make two entries, and `getRequestHeader`
  matches exactly. Only the deny-list check and the `Content-Type` probe
  lower-case a name.
- The asynchronous redirect counter belongs to the object. It is never reset
  by `open`, by `abort` or by a new `send` (`Scenarios.BudgetSpansRequests`).
  The synchronous worker counts from zero for each request.
- `isAllowedHttpMethod` compares case-sensitively. `open` then upper-cases
  the method, so `trace` is accepted and sent as `TRACE`.
- `headers` and `listeners` are plain objects, so they answer to the names
  `Object.prototype` defines. `getRequestHeader("toString")` reads an
  inherited member, an assignment to `__proto__` stores nothing, and
  `addEventListener("toString", …)` or `removeEventListener("constructor", …)`
  throws a TypeError. The response headers are a plain object too, so
  `getResponseHeader("Constructor")` as written reads the inherited
  `constructor` member, and `__proto__` always reads the inherited accessor.
- Every error path, asynchronous or synchronous, calls `handleError` as
  written, which leaves the send flag set, and `send` builds the
  `Authorization` header as written, which sends `user:null` for an empty
  password. The corrected definitions stand beside these as the second half
  of each finding below and are not used by the transitions.

## Model

| member | source | states |
|---|---|---|
| Validators.IndexOf | lib/XMLHttpRequest.js:190 | `indexOf` yields -1 exactly when the value is absent, otherwise the first position holding it |
| Validators.ForbiddenHeadersAreLower | lib/XMLHttpRequest.js:103-124 | every deny-list entry is already lower case, so lower-casing the candidate is the only normalisation needed |
| Validators.HeaderCheckIgnoresCase | lib/XMLHttpRequest.js:189-191 | with the check on, a header is refused exactly when it is empty or equals some deny-list entry ignoring ASCII case |
| Validators.DisabledCheckAdmitsAll | lib/XMLHttpRequest.js:189-191 | with the check disabled every name is admitted, the empty one included |
| Validators.MethodCheckExact | lib/XMLHttpRequest.js:199-201 | a method is refused exactly when it is empty, `TRACE`, `TRACK` or `CONNECT` |
| Validators.LowerCaseForbiddenMethodsPass | lib/XMLHttpRequest.js:199-201 | lower-case spellings of the forbidden methods pass the check, although their upper-cased form would not |
| Bytes.FlattenLength | lib/XMLHttpRequest.js:217-221 | the first loop's total is the length of all chunks' bytes together |
| Bytes.FlattenAppend | lib/XMLHttpRequest.js:217-228 | concatenating two chunk lists concatenates their bytes, so chunks can be collected in any grouping |
| Bytes.Concat | lib/XMLHttpRequest.js:217-228 | the result has exactly the summed length and holds every chunk's bytes in order |
| Bytes.StringToBuffer | lib/XMLHttpRequest.js:241-247 | one byte per character, holding the low eight bits of its code |
| Bytes.CheckAndShrinkBuffer | lib/XMLHttpRequest.js:258-266 | the ArrayBuffer has exactly the view's length and holds exactly the view's bytes, whether or not a copy was needed |
| Text.LowerNormalises | lib/XMLHttpRequest.js:190 | lower-casing leaves no upper-case letter, fixes strings without one, and is idempotent |
| Text.Split | lib/XMLHttpRequest.js:412 | `split` always yields at least one piece and no piece contains the separator |
| Text.JoinSplit | lib/XMLHttpRequest.js:412-416 | gluing the pieces of a split back with the separator restores the string |
| Text.SplitAtFirst | lib/XMLHttpRequest.js:412 | the first piece is the text before the first separator and the rest is the split of the text after it |
| Text.RemoveWhitespace | lib/XMLHttpRequest.js:423 | no whitespace character remains |
| Text.RemoveWhitespaceKeeps | lib/XMLHttpRequest.js:423 | removal keeps only characters of the input and leaves whitespace-free text unchanged |
| Text.TrailingRun | lib/XMLHttpRequest.js:425 | the run is maximal: its characters are all `=` and the character before it is not |
| Text.StripTrailingAppended | lib/XMLHttpRequest.js:429 | stripping a trailing `=` run undoes appending one to text that did not end in `=` |
| Utf8.EncodeAscii | lib/XMLHttpRequest.js:433 | ASCII text encodes to its character codes |
| Utf8.EncodeAppend | lib/XMLHttpRequest.js:570 | the encoding, and so `Buffer.byteLength`, of a concatenation is the concatenation of the encodings |
| Utf8.DecodeEncode | lib/XMLHttpRequest.js:433 | strict UTF-8 decoding returns exactly the string `Buffer.from(string)` encoded |
| Base64.DigitValue | lib/XMLHttpRequest.js:428-429 | each alphabet value maps to the character whose value it is |
| Base64.ValueDigit | lib/XMLHttpRequest.js:428-429 | each alphabet character maps to the value whose character it is |
| Base64.EncodeUnpadded | lib/XMLHttpRequest.js:429 | the unpadded encoding has ceil(4n/3) characters, all in the RFC 4648 alphabet |
| Base64.Encode | lib/XMLHttpRequest.js:563 | `toString("base64")` has four characters for every started group of three bytes |
| Base64.StripPadEncode | lib/XMLHttpRequest.js:429 | removing the trailing `=` run of `toString("base64")` leaves exactly the unpadded encoding |
| Base64.GroupRoundTrip | lib/XMLHttpRequest.js:428-429 | the four digits of three bytes decode to those three bytes |
| Base64.DecodeEncode | lib/XMLHttpRequest.js:428-429 | the canonical decoder inverts the unpadded encoder for every byte sequence |
| Base64.EncodeDecode | lib/XMLHttpRequest.js:428-429 | whatever the canonical decoder accepts is the unpadded encoding of what it returns |
| Base64.EncodeUnpaddedInjective | lib/XMLHttpRequest.js:429 | different byte sequences have different unpadded encodings |
| DataUri.DecodeBase64Body | lib/XMLHttpRequest.js:421-430 | a success implies an acceptable padding and bytes whose unpadded encoding is the whitespace-free body without its `=` run |
| DataUri.BufferFromDataUri | lib/XMLHttpRequest.js:405-435 | no comma gives `Invalid URL`, a bad escape gives `URIError`, and every success is a body the decoder accepts for those bytes |
| DataUri.SoundDecoderAccepts | lib/XMLHttpRequest.js:421-430 | with a decoder sound on canonical input, every acceptably padded canonical body decodes to its bytes |
| DataUri.AcceptsExactly | lib/XMLHttpRequest.js:405-435 | with a sound decoder, a URI decodes to some bytes exactly when it is accepted for them, in both modes |
| DataUri.Base64ResultCanonical | lib/XMLHttpRequest.js:426-430 | the bytes of a base64 URI are what the canonical decoder yields for its body, whatever the runtime decoder does |
| DataUri.InvalidPaddingExactly | lib/XMLHttpRequest.js:424-425 | `invalid padding` is raised exactly when the `=` run plus the remainder modulo 4 exceeds 4 |
| DataUri.ForeignCharacterRejected | lib/XMLHttpRequest.js:428-429 | a body holding a character outside the alphabet, other than whitespace or trailing `=`, is always rejected |
| DataUri.PayloadBetweenCommas | lib/XMLHttpRequest.js:410-413 | there is a payload exactly when a comma follows the scheme, and it runs from the first comma to the next one or to the end |
| DataUri.FirstSegmentIgnored | lib/XMLHttpRequest.js:415-417 | the media type never selects base64, while any later segment spelled `base64` in any case does |
| Urls.Host | lib/XMLHttpRequest.js:812 | `url.host` is the host name, followed by the port when there is one |
| Urls.EffectivePort | lib/XMLHttpRequest.js:549 | the numeric default 443 or 80 is used exactly when the URL names no port |
| Urls.HostHeaderExplicitPortOnly | lib/XMLHttpRequest.js:551-555 | the `Host` header gets a port suffix exactly when the URL carries an explicit port |
| Urls.HostHeaderIsUrlHost | lib/XMLHttpRequest.js:640-644 | for the URL's own host name, the redirect path's `Host` header is the URL's `host` |
| Urls.WorkerHostAsWritten | lib/XMLHttpRequest.js:812-813 | the worker's header is always `host`, a colon and the port string |
| Urls.WorkerHostWrong | lib/XMLHttpRequest.js:812-813 | the worker's header never equals `url.host`: a default port leaves a dangling colon and an explicit one is doubled |
| Urls.WorkerHostExample | lib/XMLHttpRequest.js:812-813 | a redirect to `https://example.com/next` sends `Host: example.com:` |
| Urls.WorkerHost | lib/XMLHttpRequest.js:812-813 | the corrected worker header is the target's `host` |
| Requests.Names | lib/XMLHttpRequest.js:572 | `Object.keys` lists every entry's name, in order |
| Requests.Lookup | lib/XMLHttpRequest.js:392 | an own entry: `headers[name]` is absent exactly when no entry has that name, and otherwise is a stored value under it |
| Requests.Get | lib/XMLHttpRequest.js:392-393 | a stored name reads its own value; a missing name reads something exactly when `Object.prototype` has a member of that name, and then that member |
| Requests.IndexOfName | lib/XMLHttpRequest.js:339 | the position of an entry under the name, or -1 exactly when there is none |
| Requests.Put | lib/XMLHttpRequest.js:339 | assigning `__proto__` stores nothing; otherwise an existing name keeps its place, a new name is appended, and entries under other names are untouched |
| Requests.PutLookup | lib/XMLHttpRequest.js:339 | after an assignment the name reads back the value (except `__proto__`, which reads as before), every other name reads as before, and names stay unique |
| Requests.PutAt | lib/XMLHttpRequest.js:339 | with unique names, assigning an existing name other than `__proto__` overwrites exactly its entry |
| Requests.PutAppends | lib/XMLHttpRequest.js:339 | assigning a new name other than `__proto__` appends one entry |
| Requests.DefaultHeadersUnique | lib/XMLHttpRequest.js:93-98 | the default headers have distinct names |
| Requests.ContentHeaders | lib/XMLHttpRequest.js:567-580 | GET and HEAD send no body and change no header, and any other method keeps its body |
| Requests.ContentHeadersFrame | lib/XMLHttpRequest.js:567-580 | names stay unique, only `Content-Length` and `Content-Type` can change, and nothing changes without a body unless the method is POST |
| Requests.ContentHeadersForBody | lib/XMLHttpRequest.js:569-575 | a truthy body is announced with its byte length and always has some content type |
| Requests.ContentTypeDefaulted | lib/XMLHttpRequest.js:572-575 | headers without a content type gain one and keep their `Content-Length` |
| Requests.EmptyPostLength | lib/XMLHttpRequest.js:576-580 | a POST without a truthy body announces `Content-Length: 0` |
| Requests.ExistingContentTypeKept | lib/XMLHttpRequest.js:572-575 | a content type already present in any case is kept, and no second one is added |
| Requests.Stored | lib/XMLHttpRequest.js:295-296 | an empty or missing credential is stored as null, and any other is kept |
| Requests.AuthorizationAsWritten | lib/XMLHttpRequest.js:558-564 | a header exactly when there is a user, carrying `user:password` with a null password sent as the text `null` |
| Requests.BasicTokenInjective | lib/XMLHttpRequest.js:562-563 | different user-pass strings give different `Authorization` values |
| Requests.EmptyPasswordSentAsNull | lib/XMLHttpRequest.js:558-563 | opening with an empty password sends `user:null`, which differs from the intended `user:` |
| Requests.Authorization | lib/XMLHttpRequest.js:558-564 | a header exactly when there is a user, carrying `user:password` with a missing password read as empty |
| Requests.BasicTokenDecodes | lib/XMLHttpRequest.js:562-563 | the token is `Basic ` and base64 that decodes back to the UTF-8 user-pass, whose text before the first colon is the user (RFC 7617, section 2) |
| Requests.PrepareRequest | lib/XMLHttpRequest.js:547-589 | the options carry the method, host, effective port and path with query, and GET and HEAD drop the body; the headers are those that `send` builds, `user:null` included |
| Requests.PrepareRequestHeaders | lib/XMLHttpRequest.js:547-580 | `Host` carries the port only when the URL names one, `Authorization` is set exactly for a user and carries `user:password` with a null password as `null`, every other caller header passes through, and names stay unique |
| Redirects.ClampMaxRedirects | lib/XMLHttpRequest.js:75-77 | a non-number or NaN becomes 20 and only positive infinity means no bound |
| Redirects.ClampPreservesDecisions | lib/XMLHttpRequest.js:75-77 | for every count the handler can compare, the clamped limit decides as the raw option would |
| Redirects.ResolveRedirect | lib/XMLHttpRequest.js:606-653 | a redirect exactly for the five statuses, counted once; over budget exactly when the count exceeds the limit; a followed target is exactly what the `Location` value (or `undefined`) resolves to against the current URL, and is http or https; an unsafe redirect exactly when, within budget, that resolution fails or is not http(s); and the method becomes GET exactly for 303 or when already GET |
| Redirects.FollowExactly | lib/XMLHttpRequest.js:622-631 | within budget, a redirect is followed exactly when its location resolves to an http or https URL |
| Assembly.BinaryValue | lib/XMLHttpRequest.js:985-990 | the binary response holds exactly the bytes, and is a Blob exactly for `blob` when `Blob` exists |
| Assembly.CreateResponse | lib/XMLHttpRequest.js:970-993 | it fails exactly for unparsable JSON; text types keep the text; JSON clears `responseText`; binary types clear it and hold all chunks' bytes |
| Assembly.CreateFileOrSyncResponse | lib/XMLHttpRequest.js:1006-1028 | the same outcomes for a whole body, with text types decoding it as UTF-8 |
| Assembly.AsyncAgreesWithFileOrSync | lib/XMLHttpRequest.js:970-1028 | given the same body, the asynchronous and the whole-body assemblers produce the same fields and the same JSON failure |
| Events.CodesOrdered | lib/XMLHttpRequest.js:146-150 | the five state constants are distinct and at most 4 |
| Events.NamesDistinct | lib/XMLHttpRequest.js:942-958 | distinct events have distinct names |
| Events.EventNamesOwn | lib/XMLHttpRequest.js:942-958 | no event the object dispatches is named like an `Object.prototype` member, so `event in listeners` sees only registered lists |
| Events.AddEventListener | lib/XMLHttpRequest.js:918-925 | for a name that has no list but that `Object.prototype` answers to, `push` is not a function and a TypeError escapes; otherwise the callback is appended to its event's list, duplicates included, and other events are untouched |
| Events.Without | lib/XMLHttpRequest.js:933-935 | the filter keeps exactly the other callbacks and never grows the list |
| Events.WithoutAppend | lib/XMLHttpRequest.js:933-935 | filtering distributes over concatenation, so survivors keep their order |
| Events.WithoutAbsent | lib/XMLHttpRequest.js:933-935 | filtering out an absent callback leaves the list unchanged |
| Events.RemoveEventListener | lib/XMLHttpRequest.js:930-937 | for a name that has no list but that `Object.prototype` answers to, `filter` is not a function and a TypeError escapes; otherwise the callback is gone from its event, an unknown event is not created, and other events are untouched |
| Events.AddThenRemove | lib/XMLHttpRequest.js:918-937 | when adding succeeds, removing succeeds too, removes every registration of the callback and keeps the others in order |
| Events.RemoveUnknown | lib/XMLHttpRequest.js:930-937 | removing a callback never added succeeds exactly when the name is registered or not inherited, and then changes nothing that a dispatch sees |
| Events.ListenerDeliveries | lib/XMLHttpRequest.js:951-956 | one call per registered listener, in registration order |
| Events.Dispatch | lib/XMLHttpRequest.js:942-958 | one call for the `on` handler when it is set, plus one per listener |
| Events.DispatchTiming | lib/XMLHttpRequest.js:942-958 | before DONE every call is immediate; in DONE listeners are always deferred and the `on` handler only when asynchronous |
| Events.DispatchOrder | lib/XMLHttpRequest.js:942-958 | the `on` handler comes first when set, then the listeners in registration order |
| Bridge.ClassifyExactly | lib/XMLHttpRequest.js:847-858 | a redirect failure exactly for the `-REDIRECT:` prefix, a worker failure exactly for the plain error prefix with the JSON after it, and the envelope otherwise |
| Bridge.ClassifyRender | lib/XMLHttpRequest.js:789-858 | reading inverts writing: each worker output is classified as what it is and carries its payload back |
| Bridge.Latin1 | lib/XMLHttpRequest.js:862 | one character per byte with that byte's code |
| Bridge.WorkerBodyCorrupts | lib/XMLHttpRequest.js:822 | with a correct UTF-8 decoder, the body bytes C3 A9 arrive as the single byte E9 |
| Bridge.WorkerBody | lib/XMLHttpRequest.js:822 | with a `latin1` transfer, the parent receives every body exactly |
| Xhr.New | lib/XMLHttpRequest.js:75-98 | a new object is UNSENT with the default headers, no flags, a zero count and the clamped budget |
| Xhr.Outcome | lib/XMLHttpRequest.js:1046-1053 | the final event is `abort` exactly when aborted, otherwise `error` exactly when failed, otherwise `load` |
| Xhr.SetState | lib/XMLHttpRequest.js:1035-1060 | a repeated or post-abort state is ignored; `readystatechange` fires exactly when asynchronous, below OPENED or at DONE; DONE ends with the outcome and `loadend` |
| Xhr.HandleErrorAsWritten | lib/XMLHttpRequest.js:879-889 | the handler every error path calls: status and text are set, the response cleared and the error flag set, while the send flag survives; DONE is entered unless aborted in UNSENT; it throws exactly when synchronous; settings, budget and headers are kept |
| Xhr.HandleError | lib/XMLHttpRequest.js:879-889 | status and text are set and the response cleared; the send flag is cleared; DONE is entered unless aborted; it throws exactly when synchronous; settings, budget and headers are kept |
| Xhr.HandleErrorOnlyClearsSendFlag | lib/XMLHttpRequest.js:879-889 | the corrected handler differs from the one as written only in the send flag, and not at all when the flag is already clear |
| Xhr.Abort | lib/XMLHttpRequest.js:894-913 | the object always ends UNSENT with default headers and no transfer; it passes DONE with `abort` and `loadend` exactly for a request in progress; status and URL are kept |
| Xhr.Open | lib/XMLHttpRequest.js:281-308 | it throws exactly for a forbidden method; otherwise it enters OPENED with the upper-cased method, the URL, `async` defaulting to true, the user and password with empty values stored as null, and the origin parsed from the configured origin; the flags are cleared and the count kept |
| Xhr.SetDisableHeaderCheck | lib/XMLHttpRequest.js:316-318 | the switch changes and nothing else does |
| Xhr.SetRequestHeader | lib/XMLHttpRequest.js:327-340 | it throws exactly outside OPENED; it assigns the value exactly when OPENED, allowed and not sent (an assignment to `__proto__` stores nothing); it refuses silently exactly for a forbidden name; state is unchanged otherwise |
| Xhr.ErrnoStatus | lib/XMLHttpRequest.js:520 | the status is the errno when there is one and never 0 |
| Xhr.SendDataUri | lib/XMLHttpRequest.js:495-506 | nothing is issued; a decode failure and an assembly (JSON) failure are both the `Invalid data URI` error with status 0, the error flag and DONE, thrown exactly when synchronous; a successful load has status 200, the URL and the assembled response, throws nothing and enters DONE |
| Xhr.SendFile | lib/XMLHttpRequest.js:508-541 | the gate refuses when file access is off; non-GET throws; an asynchronous GET starts a read of the unescaped path; a synchronous GET fails with the read error and its `errno` (or -1), or with the JSON error and -1, or completes in DONE with status 200, the URL and the assembled response |
| Xhr.OnFileRead | lib/XMLHttpRequest.js:518-527 | a read error fails with its errno status and text, throwing exactly when synchronous; data is assembled, and then loads DONE with status 200, the URL, and `load` then `loadend`, or throws the assembler's error |
| Xhr.SendSync | lib/XMLHttpRequest.js:753-871 | the worker is spawned; a redirect failure throws its message with status 0; a worker error fails with 503 and its message; an unparsable error or envelope throws the parse error with the worker text as `responseText` and nothing else changed; an envelope sets status, status text and URL from it, then either throws the JSON error with the text cleared and the bytes kept, or stores the assembled response and the received headers and enters DONE |
| Xhr.SendHttp | lib/XMLHttpRequest.js:547-751 | an asynchronous request stores the prepared headers, clears the error flag, sets the send flag, fires `readystatechange` then `loadstart` and issues the prepared request |
| Xhr.SendTo | lib/XMLHttpRequest.js:467-491 | https and http go to the network, data and file load locally, a scheme-less URL goes to localhost, and any other scheme throws |
| Xhr.Send | lib/XMLHttpRequest.js:442-466 | it throws outside OPENED or when already sent; a parse failure becomes a request error; otherwise the resolved URL is stored and dispatched |
| Xhr.FieldValue | lib/XMLHttpRequest.js:624 | a header value exactly when some field has that name, and then one stored under it |
| Xhr.OnResponse | lib/XMLHttpRequest.js:605-680 | late responses are dropped; a redirect advances the count; over budget it fails with `Too many redirects` and status 0; a `Location` that does not resolve to http(s) fails with `Unsafe redirect` and status 0, issuing nothing; otherwise the URL becomes the resolved target and a request to its host is issued with the same body and the 303 method rule; any other response is exactly what `ReceiveHeaders` makes of it; nothing escapes asynchronously; mode and budget are kept |
| Xhr.FailRedirect | lib/XMLHttpRequest.js:614-631 | a refused redirect keeps the new count and fails the request with status 0, the send flag still set and no request issued |
| Xhr.ReceiveHeaders | lib/XMLHttpRequest.js:661-680 | the response is kept for the accessors, the status recorded, the text-or-binary collection mode chosen with the buffers emptied, HEADERS_RECEIVED entered unless ignored, and nothing else changes |
| Xhr.FollowRedirect | lib/XMLHttpRequest.js:632-657 | the target's URL, host, SSL mode and method are used, the same body is sent, and `Host` becomes the target's host |
| Xhr.HostRewritten | lib/XMLHttpRequest.js:640-644 | the `Host` header a redirect writes reads back as the target's `host` |
| Xhr.OnData | lib/XMLHttpRequest.js:682-698 | text types append the decoded chunk, others collect it; LOADING is entered only while sending; nothing else changes |
| Xhr.OnEnd | lib/XMLHttpRequest.js:700-712 | it acts only while sending, clears the flag, keeps the status, and records the assembled response, the status message of the stored response and the URL with `load` then `loadend` in DONE, or throws the JSON error |
| Xhr.OnTransportError | lib/XMLHttpRequest.js:714-726 | a transport error fails the request with status 0 and its message, sets the error flag, keeps the send flag and settings, enters DONE unless aborted in UNSENT, and throws only when synchronous |
| Xhr.AddEventListener | lib/XMLHttpRequest.js:918-925 | an inherited name with no list throws the TypeError and changes nothing; otherwise the callback is appended and only the listener registry changes |
| Xhr.RemoveEventListener | lib/XMLHttpRequest.js:930-937 | an inherited name with no list throws the TypeError and changes nothing; otherwise the callback is gone and only the registry changes |
| Xhr.SetOnHandler | lib/XMLHttpRequest.js:944 | an event has an `on` handler exactly when a function was assigned to it |
| Xhr.SetResponseType | lib/XMLHttpRequest.js:177 | only `responseType` changes |
| Xhr.GetResponseHeaderAsWritten | lib/XMLHttpRequest.js:348-361 | it throws exactly past OPENED with no response object; a value it returns is truthy and is what the plain object `response.headers` reads under the lower-cased name, a received field or an inherited member |
| Xhr.ResponseField | lib/XMLHttpRequest.js:352-357 | a name other than `__proto__` that was received reads its first value; otherwise a name reads something exactly when `Object.prototype` has a member of that name, and then that member |
| Xhr.GetResponseHeader | lib/XMLHttpRequest.js:348-361 | a value exactly past OPENED, without error, with a response holding a non-empty received field under the lower-cased name, which is never `__proto__` |
| Xhr.GetResponseHeaderAgrees | lib/XMLHttpRequest.js:348-361 | where the code as written returns a received value it is the corrected answer, and every corrected answer is returned so; otherwise it throws, returns null, or reads an inherited member for a name not received, and in each case the corrected accessor returns null |
| Xhr.InheritedResponseHeader | lib/XMLHttpRequest.js:348-361 | past OPENED with a response and no error, a name such as `Constructor` whose lower-case form is an `Object.prototype` member not received reads that member as written, and null when corrected |
| Xhr.HeaderLines | lib/XMLHttpRequest.js:373-379 | a line is produced exactly for each listed header, one that is neither a cookie header nor `__proto__` (which `for…in` does not visit), as `name: value` |
| Xhr.DropLastTwo | lib/XMLHttpRequest.js:381 | the last two characters are removed, and text shorter than two becomes empty |
| Xhr.AccumulatedLines | lib/XMLHttpRequest.js:373-381 | the loop's text is the lines joined by CRLF with one final CRLF |
| Xhr.AllResponseHeadersAreJoinedLines | lib/XMLHttpRequest.js:368-382 | empty whenever headers are unavailable, otherwise the listed lines (no cookie header, no `__proto__`) in order joined by CRLF with none at the end |
| Xhr.GetRequestHeader | lib/XMLHttpRequest.js:390-397 | a truthy value is what the object reads under exactly that name, its own entry or an inherited member; anything else reads as empty; a name never set reads truthy exactly when `Object.prototype` answers to it; a truthy stored value is always returned |
| Scenarios.DoneOutcomeExactlyOnce | lib/XMLHttpRequest.js:1035-1060 | entering DONE dispatches exactly one of `abort`, `error` and `load`, just before `loadend`; other states dispatch none of them |
| Scenarios.ErrorDispatchesError | lib/XMLHttpRequest.js:879-889 | a request error, as written, ends in DONE with `error` then `loadend` |
| Scenarios.AbortSilencesTransport | lib/XMLHttpRequest.js:894-913 | aborting a request in flight fires `readystatechange`, `abort` and `loadend` and ends UNSENT; a late end or response then changes nothing, and a late chunk dispatches nothing but is still appended to the text or buffers |
| Scenarios.SetThenGetRequestHeader | lib/XMLHttpRequest.js:327-340 | a header that was set reads back its non-empty value under the same name; `__proto__` is not stored and reads back the inherited member |
| Scenarios.ForbiddenHeaderDropped | lib/XMLHttpRequest.js:331-334 | a forbidden name in any case is refused without a throw and leaves the object unchanged |
| Scenarios.RedirectsWithinBudget | lib/XMLHttpRequest.js:605-659 | assuming every `Location` resolves to an http URL: within budget, every redirect is followed, the count grows by one each, and the request stays in flight in its state |
| Scenarios.RedirectPastBudget | lib/XMLHttpRequest.js:614-619 | the redirect past the budget fails the request with status 0 and `Too many redirects`, and the send flag stays set |
| Scenarios.RedirectChain | lib/XMLHttpRequest.js:605-659 | a chain of exactly the budget's redirects is followed, and the next one fails |
| Scenarios.UnlimitedNeverTooMany | lib/XMLHttpRequest.js:617 | with an infinite budget the redirect resolver never answers too many redirects |
| Scenarios.BudgetSpansRequests | lib/XMLHttpRequest.js:79 | `open` keeps the count, so an object that used its budget fails the first redirect of its next request |
| Scenarios.AsyncSendInFlight | lib/XMLHttpRequest.js:594-602 | the first asynchronous send to an http URL leaves the object in flight and issues a request |
| Scenarios.StuckAfterError | lib/XMLHttpRequest.js:879-889 | after a transport error and one reopening, the object is OPENED with the send flag set: `send` on it throws "already called" whatever its body and `setRequestHeader` throws "send flag is true" |
| Scenarios.SendableAfterError | lib/XMLHttpRequest.js:879-889 | with the corrected error path, the reopened object passes the state checks of `send` |
| Scenarios.FirstRequestSticks | lib/XMLHttpRequest.js:594-602 | the first asynchronous request of a new object that meets a transport error leaves it DONE with both flags set; `open` succeeds, and the next `send` throws "already called" whatever its body |
| Scenarios.ReopenedStillSent | lib/XMLHttpRequest.js:894-913 | after a transport error and one reopening the object is OPENED with the send flag set, so a further `abort` passes through DONE |
| Scenarios.ReopenAgainRecovers | lib/XMLHttpRequest.js:281-308 | a second `open` on that object fires `readystatechange`, `abort`, `loadend`, `readystatechange` and leaves it OPENED with the send flag clear, so `send` passes its state checks |
| Scenarios.AbortThenOpenRecovers | lib/XMLHttpRequest.js:894-913 | `abort` on that object fires `readystatechange`, `abort` and `loadend` and clears the send flag, and the following `open` leaves it OPENED with the flag clear |
| Scenarios.ResponseHeaderAfterFailedParse | lib/XMLHttpRequest.js:348-361 | after a send that fails on its URL, the accessor as written throws while the corrected one returns null |
| Scenarios.DataUriLoads | lib/XMLHttpRequest.js:495-501 | a `data:` URL loads inside `send` with status 200, the decoded text, its URL, and `load` then `loadend` |
| Scenarios.FeedCollects | lib/XMLHttpRequest.js:682-698 | a run of chunks appends their decoded text in order, or collects them after the buffers already held; LOADING is entered once any chunk arrives while sending; nothing else changes |
| Scenarios.HeadersThenChunks | lib/XMLHttpRequest.js:661-698 | a response that is not a redirect, then its chunks, leave the request sending with its status and the body collected in the mode the response type chose |
| Scenarios.EndCompletes | lib/XMLHttpRequest.js:700-712 | the end of such a response clears the send flag and enters DONE with `load` then `loadend`, the status message received with the headers as status text, and the URL, or throws the JSON error; binary types hold the collected bytes, text types the collected text, and `json` parses it |
| Scenarios.ResponseBodyDelivered | lib/XMLHttpRequest.js:661-712 | a whole asynchronous response ends DONE with `load` then `loadend`, its status and, unless the JSON parse fails, its status message as status text; a binary type holds exactly the bytes of all chunks, a text type the text of all chunks in order, and `json` parses that text or throws its error |
| Scenarios.FileLoads | lib/XMLHttpRequest.js:508-527 | an asynchronous `file:` GET reads the unescaped path without dispatching or throwing; a read error ends DONE with the errno status; data loads with status 200, the URL, and `load` then `loadend`, or throws the assembler's error |
| Scenarios.SyncBinaryBodyIntact | lib/XMLHttpRequest.js:859-868 | with the corrected transfer, a synchronous `arraybuffer` response holds exactly the body, with the envelope's status |

## Left out

- Transport: the HTTP and HTTPS clients, TLS options, `agent`, `autoUnref`,
  and the retry after `ECONNRESET` on a reused socket. The model records the
  request it would issue, and responses arrive as transitions.
- File system and processes: `fs` reads, the temporary files, `spawn` and
  the busy-wait of the synchronous path. A file read is a `Runtime`
  function and the worker is the text it writes.
- `setTimeout`: deferred callbacks are modelled as a `deferred` flag on
  each delivery, not as a scheduler, and callbacks themselves are not run.
- The WHATWG URL parser, `decodeURIComponent`, Node's lenient base64
  decoder, `JSON.parse`, `unescape` and `Blob`. These are `Runtime`
  parameters. Their results are taken as given and stated only through the
  properties the core relies on.
- `responseXML`: it is only ever assigned the empty string.
- Text.Lower: maps ASCII letters only. Unicode case mapping of other
  letters, such as the Kelvin sign lower-casing to `k`, is not modelled.
- Redirects.ClampMaxRedirects: fractional `maxRedirects` values are not
  modelled. Only non-numbers, NaN, integers and the two infinities are.
- Bytes.StringToBuffer: a character outside the Basic Multilingual Plane is
  one character here but two UTF-16 code units in JavaScript.
- Utf8.Encode: strings are sequences of Unicode scalar values, so lone
  surrogates, which `Buffer.from` replaces with EF BF BD, cannot occur.
- Xhr.Open: the method is upper-cased in ASCII only. `toUpperCase` maps
  every Unicode letter, so `poſt`, whose long s upper-cases to `S`, would be
  sent as `POST`; the model keeps it as `POſT`.
- Events.Dispatch: a deferred delivery is recorded with the callback that is
  registered at dispatch time. The code looks `listeners[event][i]` and
  `self["on" + event]` up only when the timer fires, so a listener changed in
  between is not modelled.
- Xhr.OnData: each chunk is decoded on its own. The stream decoder that
  `setEncoding("utf8")` installs carries a character split across two
  chunks over to the next one; that is not modelled.
- Xhr.OnResponse: it states that nothing is thrown only for asynchronous
  requests, the only ones that have a response handler.
- Xhr.AllResponseHeadersAreJoinedLines: the lines follow the order the
  headers were received. The `for…in` loop lists integer-like keys, such as
  a header named `1`, first and in ascending numeric order; that ordering
  is not modelled.
- Response header values that Node delivers as arrays, and duplicate
  response headers, are not modelled. Each header is one `name: value`
  pair in arrival order.
- Request header values are strings or numbers. A number is used only for
  `Content-Length`.

## Findings

| source | as written | input that shows it | evidently intended | confidence | as-written member | corrected member |
|---|---|---|---|---|---|---|
| lib/XMLHttpRequest.js:558-563 | `open` stores an empty or missing password as `null` (`password \|\| null`), and `send` concatenates that value, so the credentials are `user:null` | `open("GET", url, true, "alice", "")` then `send()` sends the base64 of `alice:null` | the empty password, as the `undefined` → `""` default on the same lines shows: `alice:` | high; not executed | Requests.AuthorizationAsWritten, Requests.EmptyPasswordSentAsNull, Requests.PrepareRequestHeaders | Requests.Authorization, Requests.BasicTokenDecodes |
| lib/XMLHttpRequest.js:812-813 | the synchronous worker starts the `Host` header from `url.host`, which already holds any port. It then compares the port string with the numbers 443 and 80, so `:port` is always appended | a synchronous request redirected to `https://example.com/next` sends `Host: example.com:` | the target's `host`, as the asynchronous redirect path builds it (lines 640-644) | high; not executed | Urls.WorkerHostAsWritten, Urls.WorkerHostWrong, Urls.WorkerHostExample | Urls.WorkerHost, Urls.HostHeaderIsUrlHost |
| lib/XMLHttpRequest.js:822 | the worker writes the body as UTF-8 text, and the parent keeps the low byte of each character (line 862) | a body of bytes C3 A9 arrives as the single byte E9 | every body arrives byte for byte, as the asynchronous path delivers it (lines 682-698) and as section 3.6 of the WHATWG XMLHttpRequest standard describes the response body, for example through a `latin1` transfer. The repository's own `/binary2` test server (tests/server.js:33-38) sends its bytes as a UTF-8 encoded binary string, and the synchronous test of it (tests/test-sync-response.js:104-121) passes only because of the lossy step, so the intent is less certain than for the other rows | medium; not executed | Bridge.WorkerBodyAsWritten, Bridge.WorkerBodyCorrupts | Bridge.WorkerBody, Scenarios.SyncBinaryBodyIntact |
| lib/XMLHttpRequest.js:348-361 | `response.headers[...]` is read before `response` is checked | on a new object, `open("GET", "not a url")`, `send()`, then `getResponseHeader("x")` throws a TypeError | `null`, which the later `response && response.headers` checks are there to return | high; not executed | Xhr.GetResponseHeaderAsWritten, Scenarios.ResponseHeaderAfterFailedParse | Xhr.GetResponseHeader, Xhr.GetResponseHeaderAgrees |
| lib/XMLHttpRequest.js:879-889 | `handleError` never clears the send flag. `abort` skips objects in DONE (lines 906-911) and `open` does not clear the flag either | an asynchronous request whose connection fails: `open` then succeeds again, but the next `send` throws "send has already been called" and `setRequestHeader` throws "send flag is true". A second `open()`, or `abort()` then `open()`, finds OPENED with the flag set, passes through DONE and recovers | an error ends the send, as the request-error steps of the WHATWG XMLHttpRequest standard unset the send flag, so the object can be reused | high; not executed | Xhr.HandleErrorAsWritten, Xhr.OnTransportError, Scenarios.StuckAfterError, Scenarios.FirstRequestSticks, Scenarios.ReopenAgainRecovers, Scenarios.AbortThenOpenRecovers | Xhr.HandleError, Xhr.HandleErrorOnlyClearsSendFlag, Scenarios.SendableAfterError |

=== FILE: assembly.dfy ===
/** The `responseType` switch that turns received data into `responseText`
    and `response` (section 3.6 of the WHATWG XMLHttpRequest standard). */
module Assembly {
  import opened Bytes
  import opened Results

  /** The value of `xhr.response`. `JsonValue` stands for what `JSON.parse`
      produced from its source text, `BufferValue` for a Node Buffer. */
  datatype ResponseValue =
    | TextValue(text: string)
    | JsonValue(source: string)
    | ArrayBufferValue(bytes: seq<byte>)
    | BlobValue(bytes: seq<byte>)
    | BufferValue(bytes: seq<byte>)

  /** The two fields an assembler writes. */
  datatype Assembled = Assembled(responseText: string, response: ResponseValue)

  /** The types whose body is read as UTF-8 text. */
  predicate IsUtf8Type(responseType: string)
  {
    responseType == "" || responseType == "text" || responseType == "json"
  }

  /** The binary branch shared by both assemblers: an ArrayBuffer holding the
      bytes, wrapped in a Blob for `blob` when the runtime has `Blob`. */
  function BinaryValue(responseType: string, bytes: seq<byte>, blobAvailable: bool): (v: ResponseValue)
    ensures v.ArrayBufferValue? || v.BlobValue?
    ensures v.bytes == bytes
    ensures v.BlobValue? <==> responseType == "blob" && blobAvailable
  {
    if responseType == "blob" && blobAvailable then BlobValue(bytes) else ArrayBufferValue(bytes)
  }

  /** `createResponse(buffers)` of the asynchronous path, given the text
      accumulated so far. `jsonError` is `JSON.parse`: `None` when the text
      parses, otherwise the message it throws, which escapes. */
  function CreateResponse(responseType: string, responseText: string, buffers: seq<seq<byte>>,
                          jsonError: string -> Option<string>, blobAvailable: bool): (r: Result<Assembled>)
    ensures r.Err? <==> responseType == "json" && jsonError(responseText).Some?
    ensures r.Ok? && (responseType == "" || responseType == "text") ==> r.value == Assembled(responseText, TextValue(responseText))
    ensures r.Ok? && responseType == "json" ==> r.value == Assembled("", JsonValue(responseText))
    ensures r.Ok? && !IsUtf8Type(responseType) ==>
      r.value.responseText == "" && (r.value.response.ArrayBufferValue? || r.value.response.BlobValue?)
      && r.value.response.bytes == Flatten(buffers)
  {
    if responseType == "" || responseType == "text" then Ok(Assembled(responseText, TextValue(responseText)))
    else if responseType == "json" then
      match jsonError(responseText)
      case Some(message) => Err(message)
      case None => Ok(Assembled("", JsonValue(responseText)))
    else Ok(Assembled("", BinaryValue(responseType, Flatten(buffers), blobAvailable)))
  }

  /** `createFileOrSyncResponse(response)` for a whole body: text types decode
      it with the runtime's UTF-8 decoder `utf8Text`. */
  function CreateFileOrSyncResponse(responseType: string, data: seq<byte>, utf8Text: seq<byte> -> string,
                                    jsonError: string -> Option<string>, blobAvailable: bool): (r: Result<Assembled>)
    ensures r.Err? <==> responseType == "json" && jsonError(utf8Text(data)).Some?
    ensures r.Ok? && !IsUtf8Type(responseType) ==>
      r.value.responseText == "" && (r.value.response.ArrayBufferValue? || r.value.response.BlobValue?)
      && r.value.response.bytes == data
    ensures r.Ok? && (responseType == "" || responseType == "text") ==>
      r.value == Assembled(utf8Text(data), TextValue(utf8Text(data)))
  {
    if responseType == "" || responseType == "text" then
      var text := utf8Text(data);
      Ok(Assembled(text, TextValue(text)))
    else if responseType == "json" then
      match jsonError(utf8Text(data))
      case Some(message) => Err(message)
      case None => Ok(Assembled("", JsonValue(utf8Text(data))))
    else Ok(Assembled("", BinaryValue(responseType, data, blobAvailable)))
  }

  /** The two assemblers agree. The asynchronous path decodes text types as
      the chunks arrive and collects only binary ones; given the same body,
      both produce the same `responseText`, the same `response` and the same
      JSON failure. */
  lemma AsyncAgreesWithFileOrSync(responseType: string, chunks: seq<seq<byte>>, utf8Text: seq<byte> -> string,
                                  jsonError: string -> Option<string>, blobAvailable: bool)
    ensures var text := if IsUtf8Type(responseType) then utf8Text(Flatten(chunks)) else "";
      var buffers := if IsUtf8Type(responseType) then [] else chunks;
      CreateResponse(responseType, text, buffers, jsonError, blobAvailable)
        == CreateFileOrSyncResponse(responseType, Flatten(chunks), utf8Text, jsonError, blobAvailable)
  {
  }
}

=== FILE: base64.dfy ===
/** Base64 with the standard alphabet of section 4 of RFC 4648, as Node's
    `buffer.toString("base64")` produces it, and a canonical decoder of the
    unpadded form. */
module Base64 {
  import opened Bytes
  import opened Results
  import Text

  type sextet = x: int | 0 <= x < 64

  /** The alphabet of RFC 4648, table 1: A-Z, a-z, 0-9, '+', '/'. */
  function Digit(v: sextet): char
  {
    if v < 26 then ('A' as int + v) as char
    else if v < 52 then ('a' as int + (v - 26)) as char
    else if v < 62 then ('0' as int + (v - 52)) as char
    else if v == 62 then '+'
    else '/'
  }

  /** The value of an alphabet character, or -1 for any other character. */
  function ValueOf(c: char): (v: int)
    ensures -1 <= v < 64
  {
    if 'A' <= c <= 'Z' then c as int - 'A' as int
    else if 'a' <= c <= 'z' then c as int - 'a' as int + 26
    else if '0' <= c <= '9' then c as int - '0' as int + 52
    else if c == '+' then 62
    else if c == '/' then 63
    else -1
  }

  predicate IsBase64Char(c: char) {
    ValueOf(c) >= 0
  }

  /** `Digit` and `ValueOf` are inverse bijections between values and the alphabet. */
  lemma DigitValue(v: sextet)
    ensures ValueOf(Digit(v)) == v
  {
  }

  lemma ValueDigit(c: char)
    requires IsBase64Char(c)
    ensures Digit(ValueOf(c)) == c
  {
  }

  /** Every digit is in the alphabet. */
  lemma DigitsInAlphabet(v0: sextet, v1: sextet, v2: sextet, v3: sextet)
    ensures IsBase64Char(Digit(v0)) && IsBase64Char(Digit(v1)) && IsBase64Char(Digit(v2)) && IsBase64Char(Digit(v3))
  {
    DigitValue(v0);
    DigitValue(v1);
    DigitValue(v2);
    DigitValue(v3);
  }

  /** The four digits of one complete 24-bit group. */
  function EncodeGroup(b0: byte, b1: byte, b2: byte): string
  {
    [Digit(b0 / 4), Digit(b0 % 4 * 16 + b1 / 16), Digit(b1 % 16 * 4 + b2 / 64), Digit(b2 % 64)]
  }

  /** The encoding with the trailing `=` padding left off. */
  function EncodeUnpadded(b: seq<byte>): (s: string)
    ensures |s| == (4 * |b| + 2) / 3
    ensures forall i :: 0 <= i < |s| ==> IsBase64Char(s[i])
  {
    if |b| == 0 then ""
    else if |b| == 1 then
      DigitsInAlphabet(b[0] / 4, b[0] % 4 * 16, 0, 0);
      [Digit(b[0] / 4), Digit(b[0] % 4 * 16)]
    else if |b| == 2 then
      DigitsInAlphabet(b[0] / 4, b[0] % 4 * 16 + b[1] / 16, b[1] % 16 * 4, 0);
      [Digit(b[0] / 4), Digit(b[0] % 4 * 16 + b[1] / 16), Digit(b[1] % 16 * 4)]
    else
      DivBy3(4 * |b| + 2, (4 * (|b| - 3) + 2) / 3 + 4);
      DigitsInAlphabet(b[0] / 4, b[0] % 4 * 16 + b[1] / 16, b[1] % 16 * 4 + b[2] / 64, b[2] % 64);
      EncodeGroup(b[0], b[1], b[2]) + EncodeUnpadded(b[3..])
  }

  lemma MultipleOfFour(k: int)
    ensures (4 * k) % 4 == 0
  {
  }

  /** `x / 3` is the `k` with `3 * k <= x < 3 * k + 3`. */
  lemma DivBy3(x: int, k: int)
    requires 3 * k <= x < 3 * k + 3
    ensures x / 3 == k
  {
  }

  /** The unpadded length plus the padding is four characters per started group. */
  lemma PaddedLength(n: nat)
    ensures (4 * n + 2) / 3 + (3 - n % 3) % 3 == 4 * ((n + 2) / 3)
  {
    var q, r := n / 3, n % 3;
    if r == 0 {
      DivBy3(4 * n + 2, 4 * q);
      DivBy3(n + 2, q);
    } else if r == 1 {
      DivBy3(4 * n + 2, 4 * q + 2);
      DivBy3(n + 2, q + 1);
    } else {
      DivBy3(4 * n + 2, 4 * q + 3);
      DivBy3(n + 2, q + 1);
    }
  }

  /** `buf.toString("base64")`: the unpadded digits followed by `=` up to a multiple of four. */
  function Encode(b: seq<byte>): (s: string)
    ensures |s| == 4 * ((|b| + 2) / 3)
    ensures |s| % 4 == 0
  {
    PaddedLength(|b|);
    MultipleOfFour((|b| + 2) / 3);
    EncodeUnpadded(b) + seq((3 - |b| % 3) % 3, _ => '=')
  }

  /** Removing the trailing `=` run of an encoding (`.replace(/=+$/, "")`) leaves
      exactly the unpadded digits. */
  lemma StripPadEncode(b: seq<byte>)
    ensures Text.StripTrailing(Encode(b), '=') == EncodeUnpadded(b)
  {
    var u := EncodeUnpadded(b);
    assert |u| == 0 || IsBase64Char(u[|u| - 1]);
    Text.StripTrailingAppended(u, '=', (3 - |b| % 3) % 3);
  }

  /** The three bytes of a complete group of four digit values. */
  function DecodeGroup(v0: sextet, v1: sextet, v2: sextet, v3: sextet): seq<byte>
  {
    [v0 * 4 + v1 / 16, v1 % 16 * 16 + v2 / 4, v2 % 4 * 64 + v3]
  }

  /** Canonical decoding of unpadded base64: every character is in the
      alphabet, the length is not 1 modulo 4, and the bits a short final
      group leaves over are zero. Anything else is rejected. */
  function Decode(s: string): Option<seq<byte>>
    decreases |s|
  {
    if |s| == 0 then Some([])
    else if |s| == 1 then None
    else if !IsBase64Char(s[0]) || !IsBase64Char(s[1]) then None
    else if |s| == 2 then
      if ValueOf(s[1]) % 16 != 0 then None
      else Some([ValueOf(s[0]) * 4 + ValueOf(s[1]) / 16])
    else if !IsBase64Char(s[2]) then None
    else if |s| == 3 then
      if ValueOf(s[2]) % 4 != 0 then None
      else Some([ValueOf(s[0]) * 4 + ValueOf(s[1]) / 16, ValueOf(s[1]) % 16 * 16 + ValueOf(s[2]) / 4])
    else if !IsBase64Char(s[3]) then None
    else
      match Decode(s[4..])
      case None => None
      case Some(rest) => Some(DecodeGroup(ValueOf(s[0]), ValueOf(s[1]), ValueOf(s[2]), ValueOf(s[3])) + rest)
  }

  /** Division and remainder by 16 and by 4 undo packing a high and a low part. */
  lemma Pack16(hi: int, lo: int)
    requires 0 <= lo < 16
    ensures (hi * 16 + lo) / 16 == hi && (hi * 16 + lo) % 16 == lo
  {
  }

  lemma Pack4(hi: int, lo: int)
    requires 0 <= lo < 4
    ensures (hi * 4 + lo) / 4 == hi && (hi * 4 + lo) % 4 == lo
  {
  }

  lemma GroupRoundTrip(b0: byte, b1: byte, b2: byte)
    ensures DecodeGroup(b0 / 4, b0 % 4 * 16 + b1 / 16, b1 % 16 * 4 + b2 / 64, b2 % 64) == [b0, b1, b2]
  {
    Pack16(b0 % 4, b1 / 16);
    Pack4(b1 % 16, b2 / 64);
  }

  /** A complete group of four alphabet characters survives decoding and re-encoding. */
  lemma GroupDigits(c0: char, c1: char, c2: char, c3: char)
    requires IsBase64Char(c0) && IsBase64Char(c1) && IsBase64Char(c2) && IsBase64Char(c3)
    ensures var g := DecodeGroup(ValueOf(c0), ValueOf(c1), ValueOf(c2), ValueOf(c3));
      EncodeGroup(g[0], g[1], g[2]) == [c0, c1, c2, c3]
  {
    var v0, v1, v2, v3 := ValueOf(c0), ValueOf(c1), ValueOf(c2), ValueOf(c3);
    var g := DecodeGroup(v0, v1, v2, v3);
    assert g[0] / 4 == v0 && g[0] % 4 * 16 + g[1] / 16 == v1;
    assert g[1] % 16 * 4 + g[2] / 64 == v2 && g[2] % 64 == v3;
    ValueDigit(c0);
    ValueDigit(c1);
    ValueDigit(c2);
    ValueDigit(c3);
  }

  /** One unfolding of `Decode` on each of its accepting shapes. */
  lemma DecodePair(s: string, v0: sextet, v1: sextet)
    requires |s| == 2 && ValueOf(s[0]) == v0 && ValueOf(s[1]) == v1 && v1 % 16 == 0
    ensures Decode(s) == Some([v0 * 4 + v1 / 16])
  {
  }

  lemma DecodeTriple(s: string, v0: sextet, v1: sextet, v2: sextet)
    requires |s| == 3 && ValueOf(s[0]) == v0 && ValueOf(s[1]) == v1 && ValueOf(s[2]) == v2 && v2 % 4 == 0
    ensures Decode(s) == Some([v0 * 4 + v1 / 16, v1 % 16 * 16 + v2 / 4])
  {
  }

  lemma DecodeStep(s: string, rest: seq<byte>)
    requires |s| >= 4 && IsBase64Char(s[0]) && IsBase64Char(s[1]) && IsBase64Char(s[2]) && IsBase64Char(s[3])
    requires Decode(s[4..]) == Some(rest)
    ensures Decode(s) == Some(DecodeGroup(ValueOf(s[0]), ValueOf(s[1]), ValueOf(s[2]), ValueOf(s[3])) + rest)
  {
  }

  /** The digit values of one trailing byte, and how decoding recombines them. */
  lemma OneByteArith(b0: byte)
    ensures var v1 := b0 % 4 * 16; 0 <= v1 < 64 && v1 % 16 == 0 && b0 / 4 * 4 + v1 / 16 == b0
  {
    var r := b0 % 4;
    assert b0 == b0 / 4 * 4 + r && 0 <= r < 4;
    assert (r * 16) / 16 == r && (r * 16) % 16 == 0;
  }

  /** The digit values of two trailing bytes, and how decoding recombines them. */
  lemma TwoByteArith(b0: byte, b1: byte)
    ensures var v1, v2 := b0 % 4 * 16 + b1 / 16, b1 % 16 * 4;
      && 0 <= v1 < 64 && 0 <= v2 < 64 && v2 % 4 == 0
      && b0 / 4 * 4 + v1 / 16 == b0 && v1 % 16 * 16 + v2 / 4 == b1
  {
    var r0, h1, l1 := b0 % 4, b1 / 16, b1 % 16;
    assert b0 == b0 / 4 * 4 + r0 && 0 <= r0 < 4;
    assert b1 == h1 * 16 + l1 && 0 <= h1 < 16 && 0 <= l1 < 16;
    assert (r0 * 16 + h1) / 16 == r0 && (r0 * 16 + h1) % 16 == h1;
    assert (l1 * 4) % 4 == 0 && (l1 * 4) / 4 == l1;
  }

  lemma DecodeEncodeOne(b: seq<byte>)
    requires |b| == 1
    ensures Decode(EncodeUnpadded(b)) == Some(b)
  {
    var v0, v1 := b[0] / 4, b[0] % 4 * 16;
    OneByteArith(b[0]);
    DigitValue(v0);
    DigitValue(v1);
    var s := EncodeUnpadded(b);
    assert s == [Digit(v0), Digit(v1)];
    DecodePair(s, v0, v1);
    var d := [v0 * 4 + v1 / 16];
    assert d[0] == b[0];
    assert d == b;
  }

  lemma DecodeEncodeTwo(b: seq<byte>)
    requires |b| == 2
    ensures Decode(EncodeUnpadded(b)) == Some(b)
  {
    var v0, v1, v2 := b[0] / 4, b[0] % 4 * 16 + b[1] / 16, b[1] % 16 * 4;
    TwoByteArith(b[0], b[1]);
    DigitValue(v0);
    DigitValue(v1);
    DigitValue(v2);
    var s := EncodeUnpadded(b);
    assert s == [Digit(v0), Digit(v1), Digit(v2)];
    DecodeTriple(s, v0, v1, v2);
    var d := [v0 * 4 + v1 / 16, v1 % 16 * 16 + v2 / 4];
    assert d[0] == b[0] && d[1] == b[1];
    assert d == b;
  }

  /** The values of the four digits of a complete group. */
  lemma GroupValues(b0: byte, b1: byte, b2: byte)
    ensures var g := EncodeGroup(b0, b1, b2);
      && IsBase64Char(g[0]) && IsBase64Char(g[1]) && IsBase64Char(g[2]) && IsBase64Char(g[3])
      && DecodeGroup(ValueOf(g[0]), ValueOf(g[1]), ValueOf(g[2]), ValueOf(g[3])) == [b0, b1, b2]
  {
    DigitValue(b0 / 4);
    DigitValue(b0 % 4 * 16 + b1 / 16);
    DigitValue(b1 % 16 * 4 + b2 / 64);
    DigitValue(b2 % 64);
    GroupRoundTrip(b0, b1, b2);
  }

  /** A group of four alphabet characters in front of a decodable tail. */
  lemma DecodeGroupPrefix(g: string, t: string, rest: seq<byte>)
    requires |g| == 4 && IsBase64Char(g[0]) && IsBase64Char(g[1]) && IsBase64Char(g[2]) && IsBase64Char(g[3])
    requires Decode(t) == Some(rest)
    ensures Decode(g + t) == Some(DecodeGroup(ValueOf(g[0]), ValueOf(g[1]), ValueOf(g[2]), ValueOf(g[3])) + rest)
  {
    var s := g + t;
    assert s[4..] == t;
    assert s[0] == g[0] && s[1] == g[1] && s[2] == g[2] && s[3] == g[3];
    DecodeStep(s, rest);
  }

  /** One complete group in front of a tail that decodes. */
  lemma DecodeEncodeGroup(b: seq<byte>)
    requires |b| >= 3 && Decode(EncodeUnpadded(b[3..])) == Some(b[3..])
    ensures Decode(EncodeUnpadded(b)) == Some(b)
  {
    var g := EncodeGroup(b[0], b[1], b[2]);
    var t := EncodeUnpadded(b[3..]);
    assert EncodeUnpadded(b) == g + t;
    GroupValues(b[0], b[1], b[2]);
    var d := DecodeGroup(ValueOf(g[0]), ValueOf(g[1]), ValueOf(g[2]), ValueOf(g[3]));
    assert Decode(g + t) == Some(d + b[3..]) by {
      DecodeGroupPrefix(g, t, b[3..]);
    }
    FirstThree(b);
  }

  lemma FirstThree(b: seq<byte>)
    requires |b| >= 3
    ensures [b[0], b[1], b[2]] + b[3..] == b
  {
  }

  /** Decoding the unpadded encoding gives the bytes back. */
  lemma {:induction false} DecodeEncode(b: seq<byte>)
    ensures Decode(EncodeUnpadded(b)) == Some(b)
    decreases |b|
  {
    if |b| == 1 {
      DecodeEncodeOne(b);
    } else if |b| == 2 {
      DecodeEncodeTwo(b);
    } else if |b| >= 3 {
      DecodeEncode(b[3..]);
      DecodeEncodeGroup(b);
    }
  }

  lemma EncodeDecodeTwo(s: string)
    requires |s| == 2 && Decode(s).Some?
    ensures EncodeUnpadded(Decode(s).value) == s
  {
    var v0, v1 := ValueOf(s[0]), ValueOf(s[1]);
    var b0 := v0 * 4 + v1 / 16;
    assert Decode(s).value == [b0];
    assert b0 / 4 == v0 && b0 % 4 * 16 == v1;
    ValueDigit(s[0]);
    ValueDigit(s[1]);
  }

  /** The bytes of a three-digit tail, and how encoding splits them again. */
  lemma ThreeDigitArith(v0: sextet, v1: sextet, v2: sextet)
    requires v2 % 4 == 0
    ensures var b0, b1 := v0 * 4 + v1 / 16, v1 % 16 * 16 + v2 / 4;
      && 0 <= b0 < 256 && 0 <= b1 < 256
      && b0 / 4 == v0 && b0 % 4 * 16 + b1 / 16 == v1 && b1 % 16 * 4 == v2
  {
    var h1, l1, q2 := v1 / 16, v1 % 16, v2 / 4;
    assert v1 == 16 * h1 + l1 && 0 <= h1 < 4 && 0 <= l1 < 16;
    assert v2 == 4 * q2 && 0 <= q2 < 16;
    var b0, b1 := v0 * 4 + h1, l1 * 16 + q2;
    assert b0 / 4 == v0 && b0 % 4 == h1;
    assert b1 / 16 == l1 && b1 % 16 == q2;
  }

  lemma EncodeTwoBytes(b0: byte, b1: byte)
    ensures EncodeUnpadded([b0, b1]) == [Digit(b0 / 4), Digit(b0 % 4 * 16 + b1 / 16), Digit(b1 % 16 * 4)]
  {
  }

  /** One unfolding of `Decode` on a three-digit string it accepts. */
  lemma DecodedTriple(s: string)
    requires |s| == 3 && Decode(s).Some?
    ensures IsBase64Char(s[0]) && IsBase64Char(s[1]) && IsBase64Char(s[2]) && ValueOf(s[2]) % 4 == 0
    ensures Decode(s).value == [ValueOf(s[0]) * 4 + ValueOf(s[1]) / 16, ValueOf(s[1]) % 16 * 16 + ValueOf(s[2]) / 4]
  {
  }

  lemma EncodeDecodeThree(s: string)
    requires |s| == 3 && Decode(s).Some?
    ensures EncodeUnpadded(Decode(s).value) == s
  {
    DecodedTriple(s);
    var v0, v1, v2 := ValueOf(s[0]), ValueOf(s[1]), ValueOf(s[2]);
    ThreeDigitArith(v0, v1, v2);
    var b0: byte, b1: byte := v0 * 4 + v1 / 16, v1 % 16 * 16 + v2 / 4;
    assert Decode(s).value == [b0, b1];
    assert EncodeUnpadded([b0, b1]) == [Digit(v0), Digit(v1), Digit(v2)] by {
      EncodeTwoBytes(b0, b1);
    }
    assert [Digit(v0), Digit(v1), Digit(v2)] == s by {
      ValueDigit(s[0]);
      ValueDigit(s[1]);
      ValueDigit(s[2]);
    }
  }

  /** Whatever the decoder accepts is the unpadded encoding of what it returns:
      the accepted strings are exactly the canonical ones. */
  lemma {:induction false} EncodeDecode(s: string)
    requires Decode(s).Some?
    ensures EncodeUnpadded(Decode(s).value) == s
    decreases |s|
  {
    if |s| == 2 {
      EncodeDecodeTwo(s);
    } else if |s| == 3 {
      EncodeDecodeThree(s);
    } else if |s| >= 4 {
      var b := Decode(s).value;
      var g := DecodeGroup(ValueOf(s[0]), ValueOf(s[1]), ValueOf(s[2]), ValueOf(s[3]));
      var rest := Decode(s[4..]).value;
      assert b == g + rest;
      EncodeDecode(s[4..]);
      GroupDigits(s[0], s[1], s[2], s[3]);
      assert b[..3] == g && b[3..] == rest;
      assert EncodeUnpadded(b) == EncodeGroup(g[0], g[1], g[2]) + EncodeUnpadded(rest);
      assert s == s[..4] + s[4..];
    }
  }

  /** Different byte sequences have different unpadded encodings, so the
      re-encode check pins the decoded bytes down uniquely. */
  lemma EncodeUnpaddedInjective(a: seq<byte>, b: seq<byte>)
    requires EncodeUnpadded(a) == EncodeUnpadded(b)
    ensures a == b
  {
    DecodeEncode(a);
    DecodeEncode(b);
  }
}

=== FILE: bridge.dfy ===
/** The text a synchronous request gets back from its worker process, and
    how the parent reads it. */
module Bridge {
  import opened Bytes
  import opened Text
  import Utf8

  const ErrorPrefix: string := "NODE-XMLHTTPREQUEST-ERROR:"
  const RedirectTag: string := "NODE-XMLHTTPREQUEST-ERROR-REDIRECT"
  const RedirectPrefix: string := "NODE-XMLHTTPREQUEST-ERROR-REDIRECT:"
  /** What `replace(/^NODE-XMLHTTPREQUEST-ERROR-REDIRECT: /, "")` removes. */
  const RedirectLead: string := "NODE-XMLHTTPREQUEST-ERROR-REDIRECT: "

  /** How the parent reads the worker's text. */
  datatype SyncResult =
    | RedirectFailure(message: string)   // handleError(new Error(message))
    | WorkerFailure(json: string)        // handleError(JSON.parse(json), 503)
    | Envelope(json: string)             // JSON.parse(json) holds the response

  /** `/^NODE-XMLHTTPREQUEST-ERROR(-REDIRECT){0,1}:/`. */
  predicate IsErrorText(text: string)
  {
    StartsWith(text, ErrorPrefix) || StartsWith(text, RedirectPrefix)
  }

  /** Lines 847-858: an error text is a redirect failure when it starts with
      the redirect tag (the tag and one space are stripped from the message)
      and a worker failure otherwise; any other text is the envelope. */
  function Classify(text: string): (r: SyncResult)
  {
    if IsErrorText(text) then
      if StartsWith(text, RedirectTag) then
        RedirectFailure(if StartsWith(text, RedirectLead) then text[|RedirectLead|..] else text)
      else WorkerFailure(text[|ErrorPrefix|..])
    else Envelope(text)
  }

  lemma PrefixFacts(text: string)
    ensures StartsWith(text, RedirectPrefix) ==> StartsWith(text, RedirectTag) && !StartsWith(text, ErrorPrefix)
    ensures StartsWith(text, ErrorPrefix) ==> !StartsWith(text, RedirectTag)
  {
    if StartsWith(text, RedirectPrefix) {
      assert text[..|RedirectTag|] == RedirectPrefix[..|RedirectTag|];
      assert text[25] == '-';
    }
    if StartsWith(text, ErrorPrefix) {
      assert text[25] == ':';
    }
  }

  /** The three classes are told apart by prefix alone: a redirect failure
      exactly for the `-REDIRECT:` prefix, a worker failure exactly for the
      plain error prefix, the envelope otherwise. */
  lemma ClassifyExactly(text: string)
    ensures Classify(text).RedirectFailure? <==> StartsWith(text, RedirectPrefix)
    ensures Classify(text).WorkerFailure? <==> StartsWith(text, ErrorPrefix)
    ensures Classify(text).Envelope? <==> !IsErrorText(text)
    ensures Classify(text).WorkerFailure? ==> text == ErrorPrefix + Classify(text).json
  {
    PrefixFacts(text);
    if StartsWith(text, ErrorPrefix) {
      assert text == text[..|ErrorPrefix|] + text[|ErrorPrefix|..];
    }
  }

  /** What the worker writes (the writer side of the file). */
  datatype WorkerOutput =
    | RedirectError(message: string)     // 'NODE-XMLHTTPREQUEST-ERROR-REDIRECT: ' + message
    | TransportError(json: string)       // 'NODE-XMLHTTPREQUEST-ERROR:' + JSON.stringify(error)
    | Completed(json: string)            // JSON.stringify({err: null, data: {...}})

  function Render(output: WorkerOutput): string
  {
    match output
    case RedirectError(message) => RedirectLead + message
    case TransportError(json) => ErrorPrefix + json
    case Completed(json) => json
  }

  /** Reading inverts writing: every worker output is classified as what it
      is and carries its payload back unchanged. A completed response is a
      serialised object, so it starts with `{`. */
  lemma ClassifyRender(output: WorkerOutput)
    requires output.Completed? ==> |output.json| > 0 && output.json[0] == '{'
    ensures Classify(Render(output)) == match output
      case RedirectError(message) => RedirectFailure(message)
      case TransportError(json) => WorkerFailure(json)
      case Completed(json) => Envelope(json)
  {
    var text := Render(output);
    PrefixFacts(text);
    match output
    case RedirectError(message) =>
      assert text[..|RedirectLead|] == RedirectLead;
      assert text[..|RedirectPrefix|] == RedirectPrefix;
      assert text[|RedirectLead|..] == message;
    case TransportError(json) =>
      assert text[..|ErrorPrefix|] == ErrorPrefix;
      assert text[|ErrorPrefix|..] == json;
    case Completed(json) =>
      assert !StartsWith(text, ErrorPrefix) by { assert text[0] != ErrorPrefix[0]; }
      assert !StartsWith(text, RedirectPrefix) by { assert text[0] != RedirectPrefix[0]; }
  }

  /** The text of a Buffer decoded as `latin1`: one character per byte. */
  function Latin1(bytes: seq<byte>): (s: string)
    ensures |s| == |bytes|
    ensures forall i :: 0 <= i < |bytes| ==> s[i] as int == bytes[i]
  {
    seq(|bytes|, i requires 0 <= i < |bytes| => bytes[i] as char)
  }

  /** The body bytes as the parent reconstructs them when the worker encodes
      them with `toString('utf8')` (line 822) and the parent keeps the low
      byte of each character (line 862). `utf8Text` is the runtime's decoder. */
  function WorkerBodyAsWritten(bytes: seq<byte>, utf8Text: seq<byte> -> string): seq<byte>
  {
    StringToBuffer(utf8Text(bytes))
  }

  /** The two bytes of `é` come back as one: any decoder that reads their
      UTF-8 encoding correctly loses the body. */
  lemma WorkerBodyCorrupts(utf8Text: seq<byte> -> string)
    requires utf8Text(Utf8.Encode("\U{00E9}")) == "\U{00E9}"
    ensures Utf8.Encode("\U{00E9}") == [0xC3, 0xA9]
    ensures WorkerBodyAsWritten([0xC3, 0xA9], utf8Text) == [0xE9]
  {
  }

  /** The corrected transfer: the worker encodes the body as `latin1`, which
      the parent's low-byte read inverts for every body. */
  function WorkerBody(bytes: seq<byte>): (received: seq<byte>)
    ensures received == bytes
  {
    StringToBuffer(Latin1(bytes))
  }
}

=== FILE: bytes.dfy ===
/** Byte buffers: the hand-written `concat`, `stringToBuffer` and
    `checkAndShrinkBuffer` helpers that size the response buffer exactly. */
module Bytes {

  type byte = x: int | 0 <= x < 256

  /** The bytes of all chunks, in order: the reference meaning of `concat`. */
  function Flatten(chunks: seq<seq<byte>>): seq<byte>
  {
    if |chunks| == 0 then [] else Flatten(chunks[..|chunks| - 1]) + chunks[|chunks| - 1]
  }

  /** Sum of the chunk lengths (the first loop of `concat`). */
  function TotalLength(chunks: seq<seq<byte>>): nat
  {
    if |chunks| == 0 then 0 else TotalLength(chunks[..|chunks| - 1]) + |chunks[|chunks| - 1]|
  }

  lemma {:induction false} FlattenLength(chunks: seq<seq<byte>>)
    ensures |Flatten(chunks)| == TotalLength(chunks)
  {
    if |chunks| > 0 {
      FlattenLength(chunks[..|chunks| - 1]);
    }
  }

  lemma {:induction false} FlattenAppend(a: seq<seq<byte>>, b: seq<seq<byte>>)
    ensures Flatten(a + b) == Flatten(a) + Flatten(b)
    decreases |b|
  {
    if |b| == 0 {
      assert a + b == a;
    } else {
      var init, last := b[..|b| - 1], b[|b| - 1];
      assert (a + b)[..|a + b| - 1] == a + init;
      assert (a + b)[|a + b| - 1] == last;
      FlattenAppend(a, init);
      assert Flatten(a + b) == Flatten(a + init) + last;
      assert Flatten(b) == Flatten(init) + last;
    }
  }

  /** `concat(bufferArray)`: one exactly-sized buffer holding every chunk in order. */
  method Concat(chunks: seq<seq<byte>>) returns (result: seq<byte>)
    ensures |result| == TotalLength(chunks)
    ensures result == Flatten(chunks)
  {
    var length := 0;
    var k := 0;
    while k < |chunks|
      invariant 0 <= k <= |chunks|
      invariant length == TotalLength(chunks[..k])
    {
      assert chunks[..k + 1][..k] == chunks[..k];
      length := length + |chunks[k]|;
      k := k + 1;
    }
    assert chunks[..|chunks|] == chunks;
    result := seq(length, _ => 0);
    var offset := 0;
    k := 0;
    while k < |chunks|
      invariant 0 <= k <= |chunks|
      invariant |result| == length
      invariant offset == TotalLength(chunks[..k]) <= length
      invariant result[..offset] == Flatten(chunks[..k])
    {
      assert chunks[..k + 1][..k] == chunks[..k];
      FlattenLength(chunks[..k + 1]);
      FlattenLength(chunks);
      FlattenAppend(chunks[..k + 1], chunks[k + 1..]);
      assert chunks[..k + 1] + chunks[k + 1..] == chunks;
      result := result[..offset] + chunks[k] + result[offset + |chunks[k]|..];
      offset := offset + |chunks[k]|;
      k := k + 1;
    }
    FlattenLength(chunks);
  }

  /** `stringToBuffer(str)`: one byte per character, keeping the low eight
      bits of its code (a Uint8Array store truncates modulo 256). */
  function StringToBuffer(str: string): (buf: seq<byte>)
    ensures |buf| == |str|
    ensures forall k :: 0 <= k < |str| ==> buf[k] == str[k] as int % 256
  {
    seq(|str|, k requires 0 <= k < |str| => str[k] as int % 256)
  }

  /** A Node Buffer: a window of `length` bytes at `offset` in a possibly
      larger backing ArrayBuffer (pooled allocations are larger than the view). */
  datatype BufferView = BufferView(backing: seq<byte>, offset: nat, length: nat) {

    ghost predicate Valid() {
      offset + length <= |backing|
    }

    /** The bytes the buffer exposes. */
    function Contents(): seq<byte>
      requires Valid()
    {
      backing[offset..offset + length]
    }
  }

  /** A view that covers a whole exactly-sized array. */
  function WholeBuffer(bytes: seq<byte>): (v: BufferView)
    ensures v.Valid() && v.Contents() == bytes
  {
    BufferView(bytes, 0, |bytes|)
  }

  /** `checkAndShrinkBuffer(buf)`: an ArrayBuffer of exactly the view's
      length holding exactly the view's bytes. When the backing store already
      has that length the view necessarily starts at offset 0 and the store
      is returned as is; otherwise the bytes are copied one by one. */
  method CheckAndShrinkBuffer(buf: BufferView) returns (ab: seq<byte>)
    requires buf.Valid()
    ensures |ab| == buf.length
    ensures ab == buf.Contents()
  {
    if buf.length == |buf.backing| {
      return buf.backing;
    }
    ab := seq(buf.length, _ => 0);
    var k := 0;
    while k < buf.length
      invariant 0 <= k <= buf.length
      invariant |ab| == buf.length
      invariant ab[..k] == buf.backing[buf.offset..buf.offset + k]
    {
      ab := ab[k := buf.backing[buf.offset + k]];
      k := k + 1;
    }
  }
}

=== FILE: datauri.dfy ===
/** `bufferFromDataUri`: the bytes of a `data:` URL (RFC 2397, section 3),
    with an optional base64 body (RFC 4648, section 4). The runtime's
    `decodeURIComponent` and its lenient base64 decoder are parameters. */
module DataUri {
  import opened Bytes
  import opened Results
  import opened Text
  import Base64
  import Utf8

  /** `url.href.slice(5)`: the href without its `data:` scheme. */
  function AfterScheme(href: string): string
  {
    if |href| <= 5 then "" else href[5..]
  }

  /** `data.split(",", 2)[1]`: the text after the first comma up to the second
      one, or nothing when there is no comma. */
  function Payload(href: string): Option<string>
  {
    var parts := Split(AfterScheme(href), ',');
    if |parts| < 2 then None else Some(parts[1])
  }

  /** The media-type header: the text before the first comma. */
  function MediaHeader(href: string): string
  {
    Split(AfterScheme(href), ',')[0]
  }

  /** Some segment is `base64`, ignoring ASCII case. */
  predicate HasBase64Segment(segments: seq<string>)
  {
    exists i :: 0 <= i < |segments| && Lower(segments[i]) == "base64"
  }

  /** Base64 mode: some `;`-separated header segment after the first (the
      media type) is the `base64` flag. */
  predicate IsBase64(href: string)
  {
    HasBase64Segment(Split(MediaHeader(href), ';')[1..])
  }

  /** The padding rule: the `=` run plus the remainder modulo 4 of the other
      characters may not exceed 4. */
  predicate PaddingOk(clean: string)
  {
    var pad := TrailingRun(clean, '=');
    pad + (|clean| - pad) % 4 <= 4
  }

  /** The data URI body with whitespace and the trailing `=` run removed. */
  function Unpadded(clean: string): string
  {
    StripTrailing(clean, '=')
  }

  /** The base64 branch on the percent-decoded body: whitespace is dropped,
      the padding rule is checked, and the runtime's decoding is accepted
      only when re-encoding it gives the body back. */
  function DecodeBase64Body(inputData: string, base64Decode: string -> seq<byte>): (r: Result<seq<byte>>)
    ensures r.Ok? ==> PaddingOk(RemoveWhitespace(inputData))
    ensures r.Ok? ==> Base64.EncodeUnpadded(r.value) == Unpadded(RemoveWhitespace(inputData))
  {
    var clean := RemoveWhitespace(inputData);
    var padding := TrailingRun(clean, '=');
    if padding + (|clean| - padding) % 4 > 4 then Err("invalid padding")
    else
      assert PaddingOk(clean);
      var data := clean[..|clean| - padding];
      var responseData := base64Decode(data);
      var reencoded := StripTrailing(Base64.Encode(responseData), '=');
      Base64.StripPadEncode(responseData);
      assert reencoded == Base64.EncodeUnpadded(responseData);
      assert data == Unpadded(clean);
      if reencoded != data then Err("malformed base64 encoding")
      else Ok(responseData)
  }

  /** `bufferFromDataUri(url)` on `url.href`. Errors carry the thrown value. */
  function BufferFromDataUri(href: string, decodeUriComponent: string -> Option<string>,
                             base64Decode: string -> seq<byte>): (r: Result<seq<byte>>)
    ensures Payload(href).None? ==> r == Err("Invalid URL")
    ensures Payload(href).Some? && decodeUriComponent(Payload(href).value).None? ==> r == Err("URIError: URI malformed")
    ensures r.Ok? ==> Accepts(href, decodeUriComponent, r.value)
  {
    var parts := Split(AfterScheme(href), ',');
    if |parts| < 2 then Err("Invalid URL")
    else
      match decodeUriComponent(parts[1])
      case None => Err("URIError: URI malformed")
      case Some(inputData) =>
        if IsBase64(href) then DecodeBase64Body(inputData, base64Decode)
        else Ok(Utf8.Encode(inputData))
  }

  /** What a successful decode means, stated without the runtime's base64
      decoder: the payload percent-decodes, and then either (base64 mode) the
      padding is acceptable and the bytes are the ones whose unpadded
      encoding is the whitespace-free body, or (plain mode) the bytes are the
      UTF-8 encoding of the decoded text. */
  ghost predicate Accepts(href: string, decodeUriComponent: string -> Option<string>, bytes: seq<byte>)
  {
    && Payload(href).Some?
    && decodeUriComponent(Payload(href).value).Some?
    && var text := decodeUriComponent(Payload(href).value).value;
       if IsBase64(href) then
         PaddingOk(RemoveWhitespace(text)) && Base64.EncodeUnpadded(bytes) == Unpadded(RemoveWhitespace(text))
       else bytes == Utf8.Encode(text)
  }

  /** The runtime decoder is trusted only on canonical input: it decodes the
      unpadded encoding of any bytes to those bytes. */
  ghost predicate DecoderSound(base64Decode: string -> seq<byte>)
  {
    forall b {:trigger Base64.EncodeUnpadded(b)} :: base64Decode(Base64.EncodeUnpadded(b)) == b
  }

  /** With a sound decoder, the base64 branch accepts every body that is the
      unpadded encoding of some bytes, padded acceptably. */
  lemma SoundDecoderAccepts(inputData: string, base64Decode: string -> seq<byte>, bytes: seq<byte>)
    requires DecoderSound(base64Decode)
    requires PaddingOk(RemoveWhitespace(inputData))
    requires Base64.EncodeUnpadded(bytes) == Unpadded(RemoveWhitespace(inputData))
    ensures DecodeBase64Body(inputData, base64Decode) == Ok(bytes)
  {
    assert base64Decode(Base64.EncodeUnpadded(bytes)) == bytes;
    Base64.StripPadEncode(bytes);
  }

  /** With a sound decoder, a data URI decodes to exactly the bytes it is
      accepted for: the decoder's leniency cannot change the outcome. */
  lemma AcceptsExactly(href: string, decodeUriComponent: string -> Option<string>,
                       base64Decode: string -> seq<byte>, bytes: seq<byte>)
    requires DecoderSound(base64Decode)
    ensures Accepts(href, decodeUriComponent, bytes) <==> BufferFromDataUri(href, decodeUriComponent, base64Decode) == Ok(bytes)
  {
    if Accepts(href, decodeUriComponent, bytes) && IsBase64(href) {
      SoundDecoderAccepts(decodeUriComponent(Payload(href).value).value, base64Decode, bytes);
    }
  }

  /** The base64 bytes are determined by the body alone: they are what the
      canonical decoder yields for it. */
  lemma Base64ResultCanonical(href: string, decodeUriComponent: string -> Option<string>,
                              base64Decode: string -> seq<byte>)
    requires IsBase64(href)
    requires BufferFromDataUri(href, decodeUriComponent, base64Decode).Ok?
    ensures var text := decodeUriComponent(Payload(href).value).value;
      Base64.Decode(Unpadded(RemoveWhitespace(text))) == Some(BufferFromDataUri(href, decodeUriComponent, base64Decode).value)
  {
    Base64.DecodeEncode(BufferFromDataUri(href, decodeUriComponent, base64Decode).value);
  }

  /** The padding error is raised exactly when the rule is broken. */
  lemma InvalidPaddingExactly(href: string, decodeUriComponent: string -> Option<string>,
                              base64Decode: string -> seq<byte>)
    requires Payload(href).Some? && IsBase64(href)
    requires decodeUriComponent(Payload(href).value).Some?
    ensures var text := decodeUriComponent(Payload(href).value).value;
      BufferFromDataUri(href, decodeUriComponent, base64Decode) == Err("invalid padding") <==> !PaddingOk(RemoveWhitespace(text))
  {
  }

  /** A body holding a character outside the alphabet and outside the padding is
      rejected whatever the runtime decoder does. */
  lemma ForeignCharacterRejected(href: string, decodeUriComponent: string -> Option<string>,
                                 base64Decode: string -> seq<byte>, c: char)
    requires Payload(href).Some? && IsBase64(href)
    requires decodeUriComponent(Payload(href).value).Some?
    requires c in Unpadded(RemoveWhitespace(decodeUriComponent(Payload(href).value).value))
    requires !Base64.IsBase64Char(c)
    ensures BufferFromDataUri(href, decodeUriComponent, base64Decode).Err?
  {
  }

  /** The payload is the text between the first comma and the next one (or the
      end); text after a second comma is dropped. */
  lemma PayloadBetweenCommas(href: string)
    ensures Payload(href).Some? <==> ',' in AfterScheme(href)
    ensures ',' in AfterScheme(href) ==>
      var data := AfterScheme(href);
      var tail := data[FirstIndexOf(data, ',') + 1..];
      Payload(href) == Some(if ',' in tail then tail[..FirstIndexOf(tail, ',')] else tail)
  {
    var data := AfterScheme(href);
    if ',' !in data {
      SplitNoSeparator(data, ',');
    } else {
      var tail := data[FirstIndexOf(data, ',') + 1..];
      SplitAtFirst(data, ',');
      if ',' in tail {
        SplitAtFirst(tail, ',');
      } else {
        SplitNoSeparator(tail, ',');
      }
    }
  }

  /** The media type is the first header segment and is never read as the
      flag, so `data:base64,...` is plain text, while any later segment
      spelled `base64` in any case selects base64. */
  lemma FirstSegmentIgnored(first: string, params: string, body: string)
    requires ';' !in first && ',' !in first && ',' !in params
    ensures !IsBase64("data:" + first + [','] + body)
    ensures IsBase64("data:" + first + [';'] + params + [','] + body) <==> HasBase64Segment(Split(params, ';'))
  {
    assert !IsBase64("data:" + first + [','] + body) by {
      FlagOf(first, body);
      SplitNoSeparator(first, ';');
    }
    var header := first + [';'] + params;
    assert Split(header, ';')[1..] == Split(params, ';') by {
      SplitCons(first, params, ';');
      assert ([first] + Split(params, ';'))[1..] == Split(params, ';');
    }
    assert ',' !in header;
    FlagOf(header, body);
    assert "data:" + header == "data:" + first + [';'] + params by {
      Associative("data:", first + [';'], params);
      Associative("data:", first, [';']);
    }
  }

  lemma Associative(a: string, b: string, c: string)
    ensures a + (b + c) == a + b + c
  {
  }

  /** The base64 flag of a URI built around a comma-free header. */
  lemma FlagOf(header: string, body: string)
    requires ',' !in header
    ensures IsBase64("data:" + header + [','] + body) == HasBase64Segment(Split(header, ';')[1..])
  {
    MediaHeaderOf(header, body);
  }

  /** The media-type header of a URI built around a comma-free header. */
  lemma MediaHeaderOf(header: string, body: string)
    requires ',' !in header
    ensures MediaHeader("data:" + header + [','] + body) == header
  {
    assert AfterScheme("data:" + header + [','] + body) == header + [','] + body;
    SplitCons(header, body, ',');
  }
}

=== FILE: events.dfy ===
/** Ready states, the events an XMLHttpRequest fires, the listener registry
    and the order in which one dispatch reaches its callbacks. */
module Events {
  import opened Results
  import Objects

  datatype ReadyState = Unsent | Opened | HeadersReceived | Loading | Done
  {
    /** The numeric constant (`UNSENT` = 0 ... `DONE` = 4). */
    function Code(): nat
    {
      match this
      case Unsent => 0
      case Opened => 1
      case HeadersReceived => 2
      case Loading => 3
      case Done => 4
    }
  }

  /** The constants are distinct and ordered as the states are declared. */
  lemma CodesOrdered(a: ReadyState, b: ReadyState)
    ensures a.Code() <= 4
    ensures a.Code() == b.Code() <==> a == b
  {
  }

  datatype EventKind = ReadyStateChange | LoadStart | AbortEvent | ErrorEvent | Load | LoadEnd
  {
    /** The event name, as passed to `dispatchEvent` and `addEventListener`. */
    function Name(): string
    {
      match this
      case ReadyStateChange => "readystatechange"
      case LoadStart => "loadstart"
      case AbortEvent => "abort"
      case ErrorEvent => "error"
      case Load => "load"
      case LoadEnd => "loadend"
    }

    /** The three events of which exactly one ends a request. */
    predicate IsOutcome()
    {
      this == AbortEvent || this == ErrorEvent || this == Load
    }
  }

  /** Distinct events have distinct names. */
  lemma NamesDistinct(a: EventKind, b: EventKind)
    ensures a.Name() == b.Name() <==> a == b
  {
  }

  /** Callbacks are compared by identity; an identity is a number here. */
  type ListenerId = nat

  /** `listeners`: for each event name, the callbacks in registration order.
      The object is plain, so `event in listeners` also holds for the names
      it inherits; those have no list of callbacks. */
  type Registry = map<string, seq<ListenerId>>

  /** The event names `dispatchEvent` is called with are not inherited, so
      `event in listeners` holds for them exactly when a listener list exists. */
  lemma EventNamesOwn(e: EventKind)
    ensures !Objects.Inherited(e.Name())
  {
  }

  const NoPush: string := "TypeError: listeners[event].push is not a function"
  const NoFilter: string := "TypeError: listeners[event].filter is not a function"

  function Registered(reg: Registry, event: string): seq<ListenerId>
  {
    if event in reg then reg[event] else []
  }

  /** `addEventListener`: appends the callback, duplicates included. For an
      inherited name no list is created and `push` is not a function. */
  function AddEventListener(reg: Registry, event: string, callback: ListenerId): (r: Result<Registry>)
    ensures r.Err? <==> event !in reg && Objects.Inherited(event)
    ensures r.Err? ==> r.error == NoPush
    ensures r.Ok? ==> Registered(r.value, event) == Registered(reg, event) + [callback]
    ensures r.Ok? ==> forall e :: e != event ==> Registered(r.value, e) == Registered(reg, e)
  {
    if event !in reg && Objects.Inherited(event) then Err(NoPush)
    else Ok(reg[event := Registered(reg, event) + [callback]])
  }

  /** `list.filter(ev => ev !== callback)`. */
  function Without(list: seq<ListenerId>, callback: ListenerId): (r: seq<ListenerId>)
    ensures forall x :: x in r <==> x in list && x != callback
    ensures |r| <= |list|
  {
    if |list| == 0 then []
    else if list[|list| - 1] == callback then Without(list[..|list| - 1], callback)
    else Without(list[..|list| - 1], callback) + [list[|list| - 1]]
  }

  /** Filtering distributes over concatenation, so the survivors keep their
      registration order. */
  lemma {:induction false} WithoutAppend(a: seq<ListenerId>, b: seq<ListenerId>, callback: ListenerId)
    ensures Without(a + b, callback) == Without(a, callback) + Without(b, callback)
    decreases |b|
  {
    if |b| == 0 {
      assert a + b == a;
    } else {
      assert (a + b)[..|a + b| - 1] == a + b[..|b| - 1];
      WithoutAppend(a, b[..|b| - 1], callback);
    }
  }

  /** A list without the callback is left as it is. */
  lemma {:induction false} WithoutAbsent(list: seq<ListenerId>, callback: ListenerId)
    requires callback !in list
    ensures Without(list, callback) == list
  {
    if |list| > 0 {
      WithoutAbsent(list[..|list| - 1], callback);
      assert list[..|list| - 1] + [list[|list| - 1]] == list;
    }
  }

  /** `removeEventListener`: removes every registration of the callback for
      the event; an unknown event is left alone, and an inherited name has
      no list to `filter`. */
  function RemoveEventListener(reg: Registry, event: string, callback: ListenerId): (r: Result<Registry>)
    ensures r.Err? <==> event !in reg && Objects.Inherited(event)
    ensures r.Err? ==> r.error == NoFilter
    ensures r.Ok? ==> (event in r.value <==> event in reg)
    ensures r.Ok? ==> callback !in Registered(r.value, event)
    ensures r.Ok? ==> forall e :: e != event ==> Registered(r.value, e) == Registered(reg, e)
  {
    if event in reg then Ok(reg[event := Without(reg[event], callback)])
    else if Objects.Inherited(event) then Err(NoFilter)
    else Ok(reg)
  }

  /** Adding and then removing a callback removes it entirely, earlier
      duplicates included, and leaves the other callbacks in order; once
      adding succeeded, removing cannot throw. */
  lemma AddThenRemove(reg: Registry, event: string, callback: ListenerId)
    ensures AddEventListener(reg, event, callback).Ok? ==>
      var removed := RemoveEventListener(AddEventListener(reg, event, callback).value, event, callback);
      removed.Ok? && Registered(removed.value, event) == Without(Registered(reg, event), callback)
  {
    WithoutAppend(Registered(reg, event), [callback], callback);
    assert Without([callback], callback) == [];
  }

  /** Removing a callback that was never added changes nothing a dispatch
      sees; it throws only for an inherited name with no list. */
  lemma RemoveUnknown(reg: Registry, event: string, callback: ListenerId)
    requires callback !in Registered(reg, event)
    ensures var r := RemoveEventListener(reg, event, callback);
      r.Ok? <==> !(event !in reg && Objects.Inherited(event))
    ensures var r := RemoveEventListener(reg, event, callback);
      r.Ok? ==> forall e :: Registered(r.value, e) == Registered(reg, e)
  {
    WithoutAbsent(Registered(reg, event), callback);
  }

  /** Who a dispatch reaches: the `on<event>` property, or a listener. */
  datatype Target = OnHandler | Listener(id: ListenerId)

  /** One call; `deferred` means it goes through `setTimeout(..., 0)`. */
  datatype Delivery = Delivery(target: Target, deferred: bool)

  function ListenerDeliveries(list: seq<ListenerId>, deferred: bool): (r: seq<Delivery>)
    ensures |r| == |list|
    ensures forall i :: 0 <= i < |list| ==> r[i] == Delivery(Listener(list[i]), deferred)
  {
    seq(|list|, i requires 0 <= i < |list| => Delivery(Listener(list[i]), deferred))
  }

  /** `dispatchEvent(event)`: the `on` handler first, if one is set, deferred
      in the DONE state of an asynchronous request; then every listener in
      registration order, deferred in the DONE state whatever the mode. */
  function Dispatch(reg: Registry, handlers: set<string>, event: string, readyState: ReadyState, async: bool): (r: seq<Delivery>)
    ensures |r| == (if event in handlers then 1 else 0) + |Registered(reg, event)|
  {
    (if event in handlers then [Delivery(OnHandler, readyState == Done && async)] else [])
      + ListenerDeliveries(Registered(reg, event), readyState == Done)
  }

  /** Before DONE every callback runs immediately; in DONE the listeners are
      always deferred, and the `on` handler is deferred exactly for an
      asynchronous request. */
  lemma DispatchTiming(reg: Registry, handlers: set<string>, event: string, readyState: ReadyState, async: bool)
    ensures var r := Dispatch(reg, handlers, event, readyState, async);
      && (readyState != Done ==> forall i :: 0 <= i < |r| ==> !r[i].deferred)
      && (forall i :: 0 <= i < |r| && r[i].target.Listener? ==> (r[i].deferred <==> readyState == Done))
      && (forall i :: 0 <= i < |r| && r[i].target.OnHandler? ==> (r[i].deferred <==> readyState == Done && async))
  {
  }

  /** The `on` handler, when set, is reached first; the listeners follow in
      the order they were added. */
  lemma DispatchOrder(reg: Registry, handlers: set<string>, event: string, readyState: ReadyState, async: bool)
    ensures var r := Dispatch(reg, handlers, event, readyState, async);
      var offset := if event in handlers then 1 else 0;
      && (event in handlers ==> r[0].target == OnHandler)
      && (forall i :: 0 <= i < |Registered(reg, event)| ==> r[offset + i].target == Listener(Registered(reg, event)[i]))
  {
  }
}

=== FILE: objects.dfy ===
/** What every plain JavaScript object (`{}`) inherits from
    `Object.prototype` (section 20.1.3 and Annex B.2.2 of ECMA-262): the
    names `name in {}` finds on an empty object, and `__proto__`, whose
    assignment of a string stores nothing. `headers` and `listeners` are
    such objects. */
module Objects {

  /** The names an empty object already answers to. */
  const PrototypeNames: set<string> :=
    {"constructor", "hasOwnProperty", "isPrototypeOf", "propertyIsEnumerable",
     "toLocaleString", "toString", "valueOf", "__proto__",
     "__defineGetter__", "__defineSetter__", "__lookupGetter__", "__lookupSetter__"}

  predicate Inherited(name: string)
  {
    name in PrototypeNames
  }

  /** The accessor key: assigning a primitive to it is ignored. */
  const ProtoKey: string := "__proto__"
}

=== FILE: redirects.dfy ===
/** Redirect handling of the asynchronous path: the per-instance budget and
    the decision taken for one response (RFC 9110, section 15.4). */
module Redirects {
  import opened Results
  import Urls

  /** The `maxRedirects` constructor option as JavaScript sees it. Fractional
      numbers are not modelled. */
  datatype MaxRedirectsOption = NotANumber | NaN | Finite(n: int) | PositiveInfinity | NegativeInfinity

  /** A redirect budget: at most `n` redirects, or no bound at all. */
  datatype Limit = AtMost(n: nat) | Unlimited

  /** `count > max_redirects`. */
  predicate Exceeds(count: nat, limit: Limit)
  {
    limit.AtMost? && count > limit.n
  }

  /** Lines 75-77: a value that is not a number, or NaN, becomes 20; any
      other number is raised to at least 0. */
  function ClampMaxRedirects(option: MaxRedirectsOption): (limit: Limit)
    ensures option.NotANumber? || option.NaN? ==> limit == AtMost(20)
    ensures limit.Unlimited? <==> option.PositiveInfinity?
  {
    match option
    case NotANumber => AtMost(20)
    case NaN => AtMost(20)
    case Finite(n) => AtMost(if n < 0 then 0 else n)
    case PositiveInfinity => Unlimited
    case NegativeInfinity => AtMost(0)
  }

  /** The clamp never changes a decision: the counter is incremented before
      the comparison, so it is at least 1, and for such counts comparing
      with the raw option or with the clamped limit agrees. */
  lemma ClampPreservesDecisions(option: MaxRedirectsOption, count: nat)
    requires count >= 1
    ensures Exceeds(count, ClampMaxRedirects(option)) <==>
      match option
      case NotANumber => count > 20
      case NaN => count > 20
      case Finite(n) => count > n
      case PositiveInfinity => false
      case NegativeInfinity => true
  {
  }

  /** The statuses the handler treats as redirects. */
  predicate IsRedirectStatus(statusCode: int)
  {
    statusCode == 301 || statusCode == 302 || statusCode == 303 || statusCode == 307 || statusCode == 308
  }

  /** The outcome of one response for the redirect handler. */
  datatype RedirectStep =
    | NotRedirect
    | TooManyRedirects(count: nat)
    | UnsafeRedirect(count: nat)
    | Follow(count: nat, target: Urls.Url, httpMethod: string)

  /** Lines 606-653: count the redirect, check the budget, resolve the
      `Location` header against the current URL (a missing header is the
      string `undefined`), refuse schemes other than http and https, and
      pick the method of the next request. */
  function ResolveRedirect(statusCode: int, location: Option<string>, currentUrl: string, httpMethod: string,
                           count: nat, limit: Limit,
                           parseUrl: (string, Option<string>) -> Result<Urls.Url>): (r: RedirectStep)
    ensures r.NotRedirect? <==> !IsRedirectStatus(statusCode)
    ensures !r.NotRedirect? ==> r.count == count + 1
    ensures r.TooManyRedirects? <==> IsRedirectStatus(statusCode) && Exceeds(count + 1, limit)
    ensures r.Follow? ==> r.target.protocol in {"http:", "https:"}
    ensures r.Follow? ==> parseUrl(location.GetOr("undefined"), Some(currentUrl)) == Ok(r.target)
    ensures var target := parseUrl(location.GetOr("undefined"), Some(currentUrl));
      r.UnsafeRedirect? <==> IsRedirectStatus(statusCode) && !Exceeds(count + 1, limit)
                             && !(target.Ok? && target.value.protocol in {"http:", "https:"})
    ensures r.Follow? ==> (r.httpMethod == "GET" <==> statusCode == 303 || httpMethod == "GET")
    ensures r.Follow? && statusCode != 303 ==> r.httpMethod == httpMethod
  {
    if !IsRedirectStatus(statusCode) then NotRedirect
    else if Exceeds(count + 1, limit) then TooManyRedirects(count + 1)
    else
      match parseUrl(location.GetOr("undefined"), Some(currentUrl))
      case Err(_) => UnsafeRedirect(count + 1)
      case Ok(u) =>
        if u.protocol != "https:" && u.protocol != "http:" then UnsafeRedirect(count + 1)
        else Follow(count + 1, u, if statusCode == 303 then "GET" else httpMethod)
  }

  /** A redirect that is within budget is followed exactly when the location
      resolves to an http or https URL. */
  lemma FollowExactly(statusCode: int, location: Option<string>, currentUrl: string, httpMethod: string,
                      count: nat, limit: Limit, parseUrl: (string, Option<string>) -> Result<Urls.Url>)
    requires IsRedirectStatus(statusCode) && !Exceeds(count + 1, limit)
    ensures var target := parseUrl(location.GetOr("undefined"), Some(currentUrl));
      (ResolveRedirect(statusCode, location, currentUrl, httpMethod, count, limit, parseUrl).Follow?
       <==> target.Ok? && target.value.protocol in {"http:", "https:"})
  {
  }
}

=== FILE: requests.dfy ===
/** Request preparation: the request-header map, the request body, the
    `Content-Length`/`Content-Type` defaults and the Basic authentication
    header (RFC 7617, section 2). */
module Requests {
  import opened Bytes
  import opened Results
  import opened Text
  import Utf8
  import Base64
  import Urls
  import Objects

  /** A header value: text, the number the code stores for `Content-Length`,
      or, when a name is read that was never stored, the member every object
      inherits under that name (a function, or the prototype itself). */
  datatype HeaderValue = Text(s: string) | Count(n: nat) | Member(name: string)
  {
    /** JavaScript truthiness: `""` and `0` are falsy, functions and objects truthy. */
    predicate Truthy() {
      match this
      case Text(s) => s != ""
      case Count(n) => n != 0
      case Member(_) => true
    }
  }

  /** A plain object used as a map: names in insertion order, compared
      case-sensitively, each present once. */
  type Headers = seq<(string, HeaderValue)>

  predicate UniqueNames(h: Headers) {
    forall i, j :: 0 <= i < j < |h| ==> h[i].0 != h[j].0
  }

  function Names(h: Headers): (names: seq<string>)
    ensures |names| == |h|
    ensures forall i :: 0 <= i < |h| ==> names[i] == h[i].0
  {
    seq(|h|, i requires 0 <= i < |h| => h[i].0)
  }

  /** The value stored under exactly this name: an own property of the object. */
  function Lookup(h: Headers, name: string): (r: Option<HeaderValue>)
    ensures r.None? <==> name !in Names(h)
    ensures r.Some? ==> exists i :: 0 <= i < |h| && h[i] == (name, r.value)
  {
    if |h| == 0 then None
    else if h[|h| - 1].0 == name then Some(h[|h| - 1].1)
    else
      assert Names(h) == Names(h[..|h| - 1]) + [h[|h| - 1].0];
      Lookup(h[..|h| - 1], name)
  }

  /** The position of the first entry under exactly this name, or -1. */
  function IndexOfName(h: Headers, name: string): (k: int)
    ensures -1 <= k < |h|
    ensures k == -1 <==> name !in Names(h)
    ensures k >= 0 ==> h[k].0 == name
  {
    if |h| == 0 then -1
    else if h[|h| - 1].0 == name then
      var k := IndexOfName(h[..|h| - 1], name);
      if k >= 0 then k else |h| - 1
    else
      assert Names(h) == Names(h[..|h| - 1]) + [h[|h| - 1].0];
      IndexOfName(h[..|h| - 1], name)
  }

  /** `headers[name]`: the own entry under exactly this name, otherwise the
      member the object inherits under it, otherwise nothing. */
  function Get(h: Headers, name: string): (r: Option<HeaderValue>)
    ensures name in Names(h) ==> r == Lookup(h, name)
    ensures name !in Names(h) ==> (r.Some? <==> Objects.Inherited(name))
    ensures name !in Names(h) && r.Some? ==> r.value == Member(name)
  {
    if name in Names(h) then Lookup(h, name)
    else if Objects.Inherited(name) then Some(Member(name))
    else None
  }

  /** `headers[name] = value`: an existing entry keeps its place and takes the
      new value; a new name is appended; assigning a string to `__proto__`
      stores nothing. */
  function Put(h: Headers, name: string, value: HeaderValue): (r: Headers)
    ensures name == Objects.ProtoKey ==> r == h
    ensures name != Objects.ProtoKey && name in Names(h) ==> Names(r) == Names(h)
    ensures name != Objects.ProtoKey && name !in Names(h) ==> Names(r) == Names(h) + [name]
    ensures forall i :: 0 <= i < |h| && h[i].0 != name ==> r[i] == h[i]
  {
    if name == Objects.ProtoKey then h
    else
      var k := IndexOfName(h, name);
      if k < 0 then h + [(name, value)] else h[k := (name, value)]
  }

  /** `Put` stores the value under the name (any name but `__proto__`),
      leaves every other name's value alone and keeps names unique. */
  lemma PutLookup(h: Headers, name: string, value: HeaderValue, other: string)
    requires UniqueNames(h)
    ensures UniqueNames(Put(h, name, value))
    ensures Lookup(Put(h, name, value), name) == (if name == Objects.ProtoKey then Lookup(h, name) else Some(value))
    ensures other != name ==> Lookup(Put(h, name, value), other) == Lookup(h, other)
  {
    var r := Put(h, name, value);
    var k := IndexOfName(h, name);
    if name == Objects.ProtoKey {
    } else if k >= 0 {
      assert r == h[k := (name, value)];
      LookupUnique(r, name, k);
      if other != name {
        LookupSame(h, r, other);
      }
    } else {
      assert r == h + [(name, value)];
      assert Names(r) == Names(h) + [name];
      assert r[|r| - 1] == (name, value);
      assert r[..|r| - 1] == h;
    }
  }

  /** A name already present is overwritten in place. */
  lemma PutAt(h: Headers, name: string, value: HeaderValue, k: nat)
    requires UniqueNames(h) && k < |h| && h[k].0 == name
    ensures Put(h, name, value) == if name == Objects.ProtoKey then h else h[k := (name, value)]
  {
    assert Names(h)[k] == name;
  }

  /** A new name is appended, except `__proto__`, which is never stored. */
  lemma PutAppends(h: Headers, name: string, value: HeaderValue)
    requires name !in Names(h)
    ensures Put(h, name, value) == if name == Objects.ProtoKey then h else h + [(name, value)]
  {
  }

  /** In a map with unique names, the entry at `k` is what a lookup finds. */
  lemma LookupUnique(h: Headers, name: string, k: nat)
    requires UniqueNames(h) && k < |h| && h[k].0 == name
    ensures Lookup(h, name) == Some(h[k].1)
  {
    assert Names(h)[k] == name;
    var v := Lookup(h, name).value;
    var i :| 0 <= i < |h| && h[i] == (name, v);
  }

  /** Two maps with the same entries under `other` agree on it. */
  lemma LookupSame(h: Headers, r: Headers, other: string)
    requires UniqueNames(h) && UniqueNames(r) && Names(h) == Names(r)
    requires forall i :: 0 <= i < |h| && h[i].0 == other ==> r[i] == h[i]
    ensures Lookup(r, other) == Lookup(h, other)
  {
    if other in Names(h) {
      var k :| 0 <= k < |h| && Names(h)[k] == other;
      LookupUnique(h, other, k);
      LookupUnique(r, other, k);
    }
  }

  /** The headers every request starts with (and returns to on `abort`). */
  const DefaultHeaders: Headers := [("User-Agent", Text("node-XMLHttpRequest")), ("Accept", Text("*/*"))]

  lemma DefaultHeadersUnique()
    ensures UniqueNames(DefaultHeaders)
  {
  }

  /** `Object.keys(headers).some(h => h.toLowerCase() === 'content-type')`. */
  predicate HasContentType(h: Headers)
  {
    exists i :: 0 <= i < |h| && Lower(h[i].0) == "content-type"
  }

  /** The `data` argument of `send`: absent (`undefined`/`null`), a string, or a Buffer. */
  datatype Body = NoBody | TextBody(text: string) | BufferBody(bytes: seq<byte>)
  {
    /** A Buffer is an object and always truthy; a string only when non-empty. */
    predicate Truthy() {
      match this
      case NoBody => false
      case TextBody(s) => s != ""
      case BufferBody(_) => true
    }

    /** `data.length` for a Buffer, `Buffer.byteLength(data)` (UTF-8) for a string. */
    function ByteLength(): nat {
      match this
      case NoBody => 0
      case TextBody(s) => |Utf8.Encode(s)|
      case BufferBody(b) => |b|
    }
  }

  datatype Prepared = Prepared(headers: Headers, body: Body)

  /** The content-header step of `send`: GET and HEAD drop the body; a truthy
      body fixes `Content-Length` and defaults `Content-Type`; a POST without
      one gets `Content-Length: 0`. */
  function ContentHeaders(httpMethod: string, h: Headers, body: Body): (r: Prepared)
    ensures httpMethod == "GET" || httpMethod == "HEAD" ==> r == Prepared(h, NoBody)
    ensures r.body == (if httpMethod == "GET" || httpMethod == "HEAD" then NoBody else body)
  {
    if httpMethod == "GET" || httpMethod == "HEAD" then Prepared(h, NoBody)
    else if body.Truthy() then
      var withLength := Put(h, "Content-Length", Count(body.ByteLength()));
      if HasContentType(withLength) then Prepared(withLength, body)
      else Prepared(Put(withLength, "Content-Type", Text("text/plain;charset=UTF-8")), body)
    else if httpMethod == "POST" then Prepared(Put(h, "Content-Length", Count(0)), body)
    else Prepared(h, body)
  }

  /** The content-header step keeps names unique and touches no header
      other than `Content-Length` and `Content-Type`. */
  lemma ContentHeadersFrame(httpMethod: string, h: Headers, body: Body, name: string)
    requires UniqueNames(h)
    ensures UniqueNames(ContentHeaders(httpMethod, h, body).headers)
    ensures name != "Content-Length" && name != "Content-Type" ==>
      Lookup(ContentHeaders(httpMethod, h, body).headers, name) == Lookup(h, name)
    ensures httpMethod == "GET" || httpMethod == "HEAD" || (!body.Truthy() && httpMethod != "POST") ==>
      ContentHeaders(httpMethod, h, body).headers == h
  {
    if httpMethod != "GET" && httpMethod != "HEAD" {
      if body.Truthy() {
        var withLength := Put(h, "Content-Length", Count(body.ByteLength()));
        PutLookup(h, "Content-Length", Count(body.ByteLength()), name);
        if !HasContentType(withLength) {
          PutLookup(withLength, "Content-Type", Text("text/plain;charset=UTF-8"), name);
        }
      } else if httpMethod == "POST" {
        PutLookup(h, "Content-Length", Count(0), name);
      }
    }
  }

  /** A truthy body of any method but GET and HEAD is sent with its byte
      length and with some content type. */
  lemma ContentHeadersForBody(httpMethod: string, h: Headers, body: Body)
    requires UniqueNames(h)
    requires httpMethod != "GET" && httpMethod != "HEAD" && body.Truthy()
    ensures Lookup(ContentHeaders(httpMethod, h, body).headers, "Content-Length") == Some(Count(body.ByteLength()))
    ensures HasContentType(ContentHeaders(httpMethod, h, body).headers)
  {
    var withLength := Put(h, "Content-Length", Count(body.ByteLength()));
    PutLookup(h, "Content-Length", Count(body.ByteLength()), "Content-Length");
    if !HasContentType(withLength) {
      ContentTypeDefaulted(withLength);
    }
  }

  /** Adding the default content type to headers without one. */
  lemma ContentTypeDefaulted(h: Headers)
    requires UniqueNames(h) && !HasContentType(h)
    ensures var out := Put(h, "Content-Type", Text("text/plain;charset=UTF-8"));
      HasContentType(out) && Lookup(out, "Content-Length") == Lookup(h, "Content-Length")
  {
    var value := Text("text/plain;charset=UTF-8");
    PutLookup(h, "Content-Type", value, "Content-Length");
    LowerContentType();
    assert "Content-Type" !in Names(h);
    PutAppends(h, "Content-Type", value);
    var out := h + [("Content-Type", value)];
    assert out[|h|].0 == "Content-Type";
  }

  lemma LowerContentType()
    ensures Lower("Content-Type") == "content-type"
  {
  }

  /** A POST without a truthy body announces `Content-Length: 0`. */
  lemma EmptyPostLength(h: Headers, body: Body)
    requires UniqueNames(h) && !body.Truthy()
    ensures Lookup(ContentHeaders("POST", h, body).headers, "Content-Length") == Some(Count(0))
  {
    PutLookup(h, "Content-Length", Count(0), "Content-Length");
  }

  /** A body that already names a content type in any case keeps it: no
      second `Content-Type` is added. */
  lemma ExistingContentTypeKept(httpMethod: string, h: Headers, body: Body)
    requires httpMethod != "GET" && httpMethod != "HEAD" && body.Truthy()
    requires exists i :: 0 <= i < |h| && h[i].0 != "Content-Length" && Lower(h[i].0) == "content-type"
    ensures ContentHeaders(httpMethod, h, body).headers == Put(h, "Content-Length", Count(body.ByteLength()))
  {
    var i :| 0 <= i < |h| && h[i].0 != "Content-Length" && Lower(h[i].0) == "content-type";
    var withLength := Put(h, "Content-Length", Count(body.ByteLength()));
    assert withLength[i] == h[i];
  }

  /** `user || null`: an empty or missing credential is stored as `null`. */
  function Stored(credential: Option<string>): (r: Option<string>)
    ensures r.Some? <==> credential.Some? && credential.value != ""
    ensures r.Some? ==> r == credential
  {
    match credential
    case Some(s) => if s != "" then Some(s) else None
    case None => None
  }

  /** The `Authorization` value for a user and password, RFC 7617 section 2:
      `Basic` and the base64 of the UTF-8 of `user:password`. */
  function BasicToken(user: string, password: string): string
  {
    "Basic " + Base64.Encode(Utf8.Encode(user + ":" + password))
  }

  /** The authentication step of `send` as written: a stored password of
      `null` is concatenated as the text `null`. */
  function AuthorizationAsWritten(user: Option<string>, password: Option<string>): (r: Option<string>)
    ensures r.Some? <==> user.Some?
    ensures user.Some? ==> r == Some(BasicToken(user.value, password.GetOr("null")))
  {
    match user
    case None => None
    case Some(u) =>
      var p := match password case Some(p) => p case None => "null";
      Some(BasicToken(u, p))
  }

  /** Different user-pass strings give different tokens. */
  lemma BasicTokenInjective(user1: string, password1: string, user2: string, password2: string)
    requires user1 + ":" + password1 != user2 + ":" + password2
    ensures BasicToken(user1, password1) != BasicToken(user2, password2)
  {
    var a := Utf8.Encode(user1 + ":" + password1);
    var b := Utf8.Encode(user2 + ":" + password2);
    Utf8.DecodeEncode(user1 + ":" + password1);
    Utf8.DecodeEncode(user2 + ":" + password2);
    Base64.StripPadEncode(a);
    Base64.StripPadEncode(b);
    if a == b {
    } else if BasicToken(user1, password1) == BasicToken(user2, password2) {
      assert BasicToken(user1, password1)[6..] == Base64.Encode(a);
      assert BasicToken(user2, password2)[6..] == Base64.Encode(b);
      Base64.EncodeUnpaddedInjective(a, b);
    }
  }

  /** A call `open(m, url, true, user, "")` sends the credentials `user:null`
      rather than `user:`. */
  lemma EmptyPasswordSentAsNull(user: string)
    requires user != ""
    ensures AuthorizationAsWritten(Stored(Some(user)), Stored(Some(""))) == Some(BasicToken(user, "null"))
    ensures AuthorizationAsWritten(Stored(Some(user)), Stored(Some(""))) != Some(BasicToken(user, ""))
  {
    assert |user + ":" + "null"| != |user + ":" + ""|;
    BasicTokenInjective(user, "null", user, "");
  }

  /** The corrected authentication step: a missing password is the empty
      password, so the credentials are `user:`. */
  function Authorization(user: Option<string>, password: Option<string>): (r: Option<string>)
    ensures r.Some? <==> user.Some?
    ensures user.Some? ==> r == Some(BasicToken(user.value, password.GetOr("")))
  {
    match user
    case None => None
    case Some(u) => Some(BasicToken(u, password.GetOr("")))
  }

  /** RFC 7617 round trip: the token decodes back to the UTF-8 of the
      user-pass, and a colon-free user name is the text before the first colon. */
  lemma BasicTokenDecodes(user: string, password: string)
    requires ':' !in user
    ensures var token := BasicToken(user, password);
      && |token| >= 6 && token[..6] == "Basic "
      && Base64.Decode(StripTrailing(token[6..], '=')) == Some(Utf8.Encode(user + ":" + password))
      && Utf8.Decode(Utf8.Encode(user + ":" + password)) == Some(user + ":" + password)
      && (user + ":" + password)[..FirstIndexOf(user + ":" + password, ':')] == user
  {
    var bytes := Utf8.Encode(user + ":" + password);
    var token := BasicToken(user, password);
    assert token[6..] == Base64.Encode(bytes);
    Base64.StripPadEncode(bytes);
    Base64.DecodeEncode(bytes);
    Utf8.DecodeEncode(user + ":" + password);
    var s := user + ":" + password;
    assert s[|user|] == ':' && s[..|user|] == user;
    assert s[..|user|] == user;
  }

  /** The `options` object handed to the HTTP client. */
  datatype RequestOptions = RequestOptions(host: string, port: Urls.PortValue, path: string,
                                           httpMethod: string, headers: Headers)

  /** The header and option building of `send` for an `http:`/`https:`
      request: the `Host` header, then authentication, then the content headers. */
  function PrepareRequest(httpMethod: string, user: Option<string>, password: Option<string>,
                          u: Urls.Url, isSsl: bool, host: string, h: Headers, body: Body): (r: (RequestOptions, Body))
    ensures r.0.httpMethod == httpMethod && r.0.host == host
    ensures r.0.port == Urls.EffectivePort(u, isSsl)
    ensures r.0.path == u.pathname + u.search
    ensures r.1 == (if httpMethod == "GET" || httpMethod == "HEAD" then NoBody else body)
  {
    var withHost := Put(h, "Host", Text(Urls.HostHeader(host, u, isSsl)));
    var withAuth := match AuthorizationAsWritten(user, password)
                    case Some(token) => Put(withHost, "Authorization", Text(token))
                    case None => withHost;
    var prepared := ContentHeaders(httpMethod, withAuth, body);
    (RequestOptions(host, Urls.EffectivePort(u, isSsl), u.pathname + u.search, httpMethod, prepared.headers), prepared.body)
  }

  /** The headers of a prepared request: `Host` carries the port only when
      the URL names one, `Authorization` is present exactly for a user (with
      the password `null` when none was stored), and the caller's other
      headers are passed on. */
  lemma PrepareRequestHeaders(httpMethod: string, user: Option<string>, password: Option<string>,
                              u: Urls.Url, isSsl: bool, host: string, h: Headers, body: Body, name: string)
    requires UniqueNames(h)
    ensures var out := PrepareRequest(httpMethod, user, password, u, isSsl, host, h, body).0.headers;
      && UniqueNames(out)
      && Lookup(out, "Host") == Some(Text(host + (if u.port == "" then "" else ":" + u.port)))
      && (user.Some? ==> Lookup(out, "Authorization") == Some(Text(BasicToken(user.value, password.GetOr("null")))))
      && (user.None? ==> Lookup(out, "Authorization") == Lookup(h, "Authorization"))
      && (name !in {"Host", "Authorization", "Content-Length", "Content-Type"} ==> Lookup(out, name) == Lookup(h, name))
  {
    Urls.HostHeaderExplicitPortOnly(host, u, isSsl);
    var hostValue := Text(Urls.HostHeader(host, u, isSsl));
    var withHost := Put(h, "Host", hostValue);
    PutLookup(h, "Host", hostValue, name);
    PutLookup(h, "Host", hostValue, "Authorization");
    var withAuth := match AuthorizationAsWritten(user, password)
                    case Some(token) => Put(withHost, "Authorization", Text(token))
                    case None => withHost;
    if user.Some? {
      var token := AuthorizationAsWritten(user, password).value;
      PutLookup(withHost, "Authorization", Text(token), name);
      PutLookup(withHost, "Authorization", Text(token), "Host");
    }
    ContentHeadersFrame(httpMethod, withAuth, body, name);
    ContentHeadersFrame(httpMethod, withAuth, body, "Host");
    ContentHeadersFrame(httpMethod, withAuth, body, "Authorization");
  }
}

=== FILE: results.dfy ===
/** Failure-compatible wrappers used throughout the model: `Option` for values
    JavaScript represents as `null`/`undefined`, and `Result` for operations
    that throw. */
module Results {

  datatype Option<+T> = None | Some(value: T) {

    predicate IsFailure() {
      None?
    }

    function PropagateFailure<U>(): Option<U>
      requires None?
    {
      None
    }

    function Extract(): T
      requires Some?
    {
      value
    }

    function GetOr(default: T): T {
      match this
      case Some(v) => v
      case None => default
    }
  }

  /** `Err` carries the message of the exception the source throws. */
  datatype Result<+T> = Ok(value: T) | Err(error: string) {

    predicate IsFailure() {
      Err?
    }

    function PropagateFailure<U>(): Result<U>
      requires Err?
    {
      Err(error)
    }

    function Extract(): T
      requires Ok?
    {
      value
    }
  }
}

=== FILE: scenarios.dfy ===
/** Properties of sequences of XMLHttpRequest transitions: the redirect
    budget, the event that ends a request, what `abort` silences, the loads
    that complete inside `send`, and the states the two error-path defects
    leave behind. */
module Scenarios {
  import opened Results
  import opened Bytes
  import opened Events
  import opened Xhr
  import Validators
  import Urls
  import Requests
  import Redirects
  import Assembly
  import Bridge
  import Objects

  /** Entering DONE dispatches exactly one of `abort`, `error` and `load`,
      chosen by the flags, immediately before `loadend`; every other state
      dispatches at most `readystatechange`. */
  lemma DoneOutcomeExactlyOnce(x: Xhr, state: ReadyState)
    requires !StateChangeIgnored(x, state)
    ensures var t := SetState(x, state).trace;
      && (state == Done ==> |t| >= 2 && t[|t| - 2] == Outcome(x) && t[|t| - 1] == LoadEnd
                            && forall i :: 0 <= i < |t| && t[i].IsOutcome() ==> i == |t| - 2)
      && (state != Done ==> forall i :: 0 <= i < |t| ==> !t[i].IsOutcome())
  {
  }

  /** A request error always ends in DONE with the `error` event. */
  lemma ErrorDispatchesError(x: Xhr, message: string, status: int)
    requires !x.abortedFlag && x.readyState != Done
    ensures var r := HandleErrorAsWritten(x, message, status);
      r.xhr.readyState == Done && |r.trace| >= 2 && r.trace[|r.trace| - 2] == ErrorEvent && r.trace[|r.trace| - 1] == LoadEnd
  {
  }

  /** The state of an asynchronous request in flight. */
  predicate InFlight(x: Xhr)
  {
    x.sendFlag && x.readyState in {Opened, HeadersReceived, Loading} && x.settings.async
  }

  /** Aborting a request in flight dispatches `abort` and `loadend`, ends in
      UNSENT and silences the transport. A late chunk dispatches nothing and
      leaves the state UNSENT, though it is still appended to `responseText`
      or collected; a late end of the response and a late response do
      nothing. */
  lemma AbortSilencesTransport(x: Xhr, chunk: seq<byte>, statusMessage: string, rt: Runtime)
    requires InFlight(x)
    ensures var a := Abort(x);
      && a.trace == [ReadyStateChange, AbortEvent, LoadEnd]
      && a.xhr.readyState == Unsent && !a.xhr.sendFlag
      && OnData(a.xhr, chunk, rt).trace == [] && OnData(a.xhr, chunk, rt).xhr.readyState == Unsent
      && OnData(a.xhr, chunk, rt).xhr == (if a.xhr.isUtf8 then a.xhr.(responseText := rt.utf8Text(chunk))
                                          else a.xhr.(buffers := a.xhr.buffers + [chunk]))
      && OnEnd(a.xhr, rt) == Step(a.xhr, [], None, None)
      && OnResponse(a.xhr, Incoming(200, statusMessage, []), rt) == Step(a.xhr, [], None, None)
  {
  }

  /** `setRequestHeader` followed by `getRequestHeader` under the same name
      returns the value set, as long as it is not empty. The one exception
      is `__proto__`: the call reports success but stores nothing, and the
      read finds the inherited prototype. */
  lemma SetThenGetRequestHeader(x: Xhr, header: string, value: string)
    requires Requests.UniqueNames(x.headers)
    requires value != ""
    ensures var (s, ok) := SetRequestHeader(x, header, value);
      ok ==> && Requests.UniqueNames(s.xhr.headers)
             && (header != Objects.ProtoKey ==> GetRequestHeader(s.xhr, header) == Requests.Text(value))
             && (header == Objects.ProtoKey ==> s.xhr == x)
             && (header == Objects.ProtoKey && header !in Requests.Names(x.headers) ==>
                   GetRequestHeader(s.xhr, header) == Requests.Member(header))
  {
    Requests.PutLookup(x.headers, header, Requests.Text(value), header);
  }

  /** A forbidden header never reaches the request, whatever its case, while
      the header check is on. */
  lemma ForbiddenHeaderDropped(x: Xhr, header: string, value: string)
    requires x.readyState == Opened && !x.disableHeaderCheck
    requires Text.Lower(header) in Validators.ForbiddenRequestHeaders
    ensures SetRequestHeader(x, header, value) == (Step(x, [], None, None), false)
  {
    Validators.HeaderCheckIgnoresCase(header);
  }

  /** Fold a sequence of responses over the object. */
  function Respond(x: Xhr, responses: seq<Incoming>, rt: Runtime): Xhr
    decreases |responses|
  {
    if |responses| == 0 then x else Respond(OnResponse(x, responses[0], rt).xhr, responses[1..], rt)
  }

  /** Every `Location` resolves to a plain http URL. */
  ghost predicate LocationsResolve(rt: Runtime)
  {
    forall location, base :: rt.parseUrl(location, base).Ok? && rt.parseUrl(location, base).value.protocol == "http:"
  }

  /** Within budget, every redirect is followed: the counter advances by one
      per redirect and a request stays in flight. */
  lemma {:induction false} RedirectsWithinBudget(x: Xhr, responses: seq<Incoming>, m: nat, rt: Runtime)
    requires x.transfer.Some? && x.maxRedirects == Redirects.AtMost(m)
    requires x.redirectCount + |responses| <= m
    requires forall i :: 0 <= i < |responses| ==> Redirects.IsRedirectStatus(responses[i].statusCode)
    requires LocationsResolve(rt)
    ensures var y := Respond(x, responses, rt);
      && y.redirectCount == x.redirectCount + |responses| && y.transfer.Some?
      && y.readyState == x.readyState && y.errorFlag == x.errorFlag && y.maxRedirects == x.maxRedirects
      && y.settings.async == x.settings.async
    decreases |responses|
  {
    if |responses| > 0 {
      var first := responses[0];
      var location := FieldValue(first.headers, "location");
      var step := Redirects.ResolveRedirect(first.statusCode, location, x.settings.url, x.settings.httpMethod,
                                            x.redirectCount, x.maxRedirects, rt.parseUrl);
      Redirects.FollowExactly(first.statusCode, location, x.settings.url, x.settings.httpMethod,
                              x.redirectCount, x.maxRedirects, rt.parseUrl);
      assert step.Follow?;
      var next := OnResponse(x, first, rt).xhr;
      assert forall i :: 0 <= i < |responses[1..]| ==> responses[1..][i] == responses[i + 1];
      RedirectsWithinBudget(next, responses[1..], m, rt);
    }
  }

  /** The redirect past the budget fails an asynchronous request with status
      0 and the status text `Too many redirects`; the send flag stays set. */
  lemma RedirectPastBudget(x: Xhr, resp: Incoming, m: nat, rt: Runtime)
    requires x.transfer.Some? && x.settings.async && x.maxRedirects == Redirects.AtMost(m)
    requires x.redirectCount == m && Redirects.IsRedirectStatus(resp.statusCode)
    ensures var r := OnResponse(x, resp, rt);
      && r.xhr.status == Some(0) && r.xhr.statusText == Some("Too many redirects")
      && r.xhr.errorFlag && r.xhr.sendFlag == x.sendFlag && r.thrown.None? && r.issued.None?
      && r.xhr.redirectCount == m + 1
  {
  }

  /** A chain of `m` redirects from a fresh count is followed to the end, and
      the next redirect fails with `Too many redirects`. */
  lemma RedirectChain(x: Xhr, responses: seq<Incoming>, last: Incoming, m: nat, rt: Runtime)
    requires x.transfer.Some? && x.settings.async && x.maxRedirects == Redirects.AtMost(m) && x.redirectCount == 0
    requires |responses| == m && LocationsResolve(rt)
    requires forall i :: 0 <= i < |responses| ==> Redirects.IsRedirectStatus(responses[i].statusCode)
    requires Redirects.IsRedirectStatus(last.statusCode)
    ensures var y := Respond(x, responses, rt);
      && y.redirectCount == m && y.transfer.Some?
      && OnResponse(y, last, rt).xhr.statusText == Some("Too many redirects")
  {
    RedirectsWithinBudget(x, responses, m, rt);
    var y := Respond(x, responses, rt);
    RedirectPastBudget(y, last, m, rt);
  }

  /** An infinite `maxRedirects` never fails a request for its redirects:
      the resolver never answers that there were too many. */
  lemma UnlimitedNeverTooMany(x: Xhr, resp: Incoming, rt: Runtime)
    requires x.maxRedirects == Redirects.Unlimited
    ensures !Redirects.ResolveRedirect(resp.statusCode, FieldValue(resp.headers, "location"), x.settings.url,
                                       x.settings.httpMethod, x.redirectCount, x.maxRedirects, rt.parseUrl).TooManyRedirects?
  {
  }

  /** The redirect budget belongs to the object, not to the request:
      neither `open` nor `abort` resets the counter, so an object that has
      used its budget fails the first redirect of its next request. */
  lemma BudgetSpansRequests(x: Xhr, httpMethod: string, url: string, m: nat, rt: Runtime)
    requires x.maxRedirects == Redirects.AtMost(m) && x.redirectCount == m
    ensures var o := Open(x, httpMethod, url, Some(true), None, None, rt).xhr;
      o.redirectCount == m && Redirects.Exceeds(o.redirectCount + 1, o.maxRedirects)
  {
  }

  /** The state the first asynchronous send of an object leaves it in,
      given a URL that resolves to plain http. */
  lemma AsyncSendInFlight(config: Config, url: string, body: Requests.Body, rt: Runtime)
    requires forall base :: rt.parseUrl(url, base).Ok? && rt.parseUrl(url, base).value.protocol == "http:"
    ensures var o := Open(New(config), "GET", url, Some(true), None, None, rt);
      var s := Send(o.xhr, body, rt);
      o.thrown.None? && InFlight(s.xhr) && s.issued.Some? && s.issued.value.HttpRequest?
  {
    Validators.MethodCheckExact("GET");
  }

  /** Finding: `handleError` leaves the send flag set. After an
      asynchronous request fails in transport, `open` succeeds again but
      the next `send` reports that it was already called and
      `setRequestHeader` that the send flag is set, until a further `open`
      or `abort` clears the flag (`ReopenAgainRecovers`,
      `AbortThenOpenRecovers`). */
  lemma StuckAfterError(x: Xhr, message: string, url: string, header: string, value: string, rt: Runtime)
    requires InFlight(x) && !x.abortedFlag
    requires Validators.IsAllowedHttpHeader(x.disableHeaderCheck, header)
    ensures var failed := OnTransportError(x, message).xhr;
      var reopened := Open(failed, "GET", url, Some(true), None, None, rt);
      && failed.readyState == Done && failed.sendFlag
      && reopened.thrown.None? && reopened.xhr.readyState == Opened && reopened.xhr.sendFlag
      && (forall body :: Send(reopened.xhr, body, rt) == Step(reopened.xhr, [], Some(AlreadySent), None))
      && SetRequestHeader(reopened.xhr, header, value).0.thrown == Some(SendFlagSet)
  {
    Validators.MethodCheckExact("GET");
    var failed := OnTransportError(x, message).xhr;
    assert failed.disableHeaderCheck == x.disableHeaderCheck;
    var reopened := Open(failed, "GET", url, Some(true), None, None, rt);
    assert !AbortPassesDone(failed);
  }

  /** With the send flag cleared by the error, the reopened object passes
      the state checks of `send` again and goes on to resolve the URL. */
  lemma SendableAfterError(x: Xhr, message: string, url: string, rt: Runtime)
    requires InFlight(x) && !x.abortedFlag
    ensures var failed := HandleError(x, message, 0).xhr;
      var reopened := Open(failed, "GET", url, Some(true), None, None, rt).xhr;
      && failed.readyState == Done && !failed.sendFlag
      && reopened.readyState == Opened && !reopened.sendFlag
  {
    Validators.MethodCheckExact("GET");
  }

  /** The first asynchronous request of every object gets stuck when its
      transport fails: open, send, a transport error, open again, and the
      next `send` throws whatever body it is given. */
  lemma FirstRequestSticks(config: Config, url: string, body: Requests.Body, message: string, rt: Runtime)
    requires forall base :: rt.parseUrl(url, base).Ok? && rt.parseUrl(url, base).value.protocol == "http:"
    ensures var sent := Send(Open(New(config), "GET", url, Some(true), None, None, rt).xhr, body, rt).xhr;
      var failed := OnTransportError(sent, message).xhr;
      var reopened := Open(failed, "GET", url, Some(true), None, None, rt);
      && failed.readyState == Done && failed.sendFlag && failed.errorFlag
      && reopened.thrown.None?
      && (forall body2 :: Send(reopened.xhr, body2, rt) == Step(reopened.xhr, [], Some(AlreadySent), None))
  {
    AsyncSendInFlight(config, url, body, rt);
    var sent := Send(Open(New(config), "GET", url, Some(true), None, None, rt).xhr, body, rt).xhr;
    var failed := OnTransportError(sent, message).xhr;
    assert !AbortPassesDone(failed);
  }

  /** The object a transport error and one reopening leave behind:
      OPENED with the send flag still set. */
  lemma ReopenedStillSent(x: Xhr, message: string, url: string, rt: Runtime)
    requires InFlight(x) && !x.abortedFlag
    ensures var reopened := Open(OnTransportError(x, message).xhr, "GET", url, Some(true), None, None, rt).xhr;
      reopened.readyState == Opened && reopened.sendFlag && AbortPassesDone(reopened)
  {
    Validators.MethodCheckExact("GET");
    assert !AbortPassesDone(OnTransportError(x, message).xhr);
  }

  /** The extent of the stuck state: a second `open` on the reopened object
      aborts it through DONE, firing `abort` and `loadend`, and clears the
      send flag, so `send` passes its state checks again. */
  lemma ReopenAgainRecovers(x: Xhr, message: string, url: string, url2: string, rt: Runtime)
    requires InFlight(x) && !x.abortedFlag
    ensures var reopened := Open(OnTransportError(x, message).xhr, "GET", url, Some(true), None, None, rt).xhr;
      var again := Open(reopened, "GET", url2, Some(true), None, None, rt);
      && again.thrown.None? && again.xhr.readyState == Opened && !again.xhr.sendFlag
      && again.trace == [ReadyStateChange, AbortEvent, LoadEnd, ReadyStateChange]
  {
    Validators.MethodCheckExact("GET");
    ReopenedStillSent(x, message, url, rt);
  }

  /** Likewise `abort` then `open` on the reopened object: the abort passes
      through DONE and clears the send flag, and `open` leaves it clear. */
  lemma AbortThenOpenRecovers(x: Xhr, message: string, url: string, url2: string, rt: Runtime)
    requires InFlight(x) && !x.abortedFlag
    ensures var reopened := Open(OnTransportError(x, message).xhr, "GET", url, Some(true), None, None, rt).xhr;
      var aborted := Abort(reopened);
      var again := Open(aborted.xhr, "GET", url2, Some(true), None, None, rt);
      && aborted.trace == [ReadyStateChange, AbortEvent, LoadEnd] && !aborted.xhr.sendFlag
      && again.thrown.None? && again.xhr.readyState == Opened && !again.xhr.sendFlag
  {
    Validators.MethodCheckExact("GET");
    ReopenedStillSent(x, message, url, rt);
  }

  /** Finding: `getResponseHeader` as written throws a TypeError on an object
      whose first request failed before any response arrived, where null is
      meant. */
  lemma ResponseHeaderAfterFailedParse(config: Config, url: string, header: string, rt: Runtime)
    requires forall base :: rt.parseUrl(url, base).Err?
    ensures var failed := Send(Open(New(config), "GET", url, Some(true), None, None, rt).xhr, Requests.NoBody, rt);
      && failed.xhr.readyState == Done && failed.thrown.None?
      && GetResponseHeaderAsWritten(failed.xhr, header) == Err(MissingResponse)
      && GetResponseHeader(failed.xhr, header) == None
  {
    Validators.MethodCheckExact("GET");
    var started := Open(New(config), "GET", url, Some(true), None, None, rt);
    assert started.thrown.None? && started.xhr.settings.url == url && started.xhr.settings.async;
    var failed := Send(started.xhr, Requests.NoBody, rt);
    assert failed.xhr.readyState == Done && failed.xhr.serverResponse.None?;
  }

  /** Fold a sequence of `data` events over the object. */
  function Feed(x: Xhr, chunks: seq<seq<byte>>, rt: Runtime): Xhr
    decreases |chunks|
  {
    if |chunks| == 0 then x else Feed(OnData(x, chunks[0], rt).xhr, chunks[1..], rt)
  }

  /** The text of the chunks, each decoded on its own as the stream delivers it. */
  function ChunkText(chunks: seq<seq<byte>>, utf8Text: seq<byte> -> string): string
    decreases |chunks|
  {
    if |chunks| == 0 then "" else utf8Text(chunks[0]) + ChunkText(chunks[1..], utf8Text)
  }

  /** The `data` events of a response: text types append every chunk's text
      in order, other types collect every chunk in order; nothing but these
      and the ready state changes, and while sending the state is LOADING
      after the first chunk. */
  lemma {:induction false} FeedCollects(x: Xhr, chunks: seq<seq<byte>>, rt: Runtime)
    ensures var y := Feed(x, chunks, rt);
      && (x.isUtf8 ==> y.responseText == x.responseText + ChunkText(chunks, rt.utf8Text) && y.buffers == x.buffers)
      && (!x.isUtf8 ==> y.buffers == x.buffers + chunks && y.responseText == x.responseText)
      && y.(readyState := x.readyState, responseText := x.responseText, buffers := x.buffers) == x
      && (x.sendFlag && x.readyState != Unsent ==> y.readyState == (if |chunks| == 0 then x.readyState else Loading))
    decreases |chunks|
  {
    if |chunks| > 0 {
      var next := OnData(x, chunks[0], rt).xhr;
      FeedCollects(next, chunks[1..], rt);
      assert chunks == [chunks[0]] + chunks[1..];
    }
  }

  /** The state a response has left once its headers and chunks arrived:
      still sending, between HEADERS_RECEIVED and DONE, with the body
      collected in the mode the response type chose. */
  predicate Received(y: Xhr, x: Xhr, status: int, statusMessage: string, text: string, chunks: seq<seq<byte>>)
  {
    && y.sendFlag && (y.readyState == HeadersReceived || y.readyState == Loading)
    && !y.abortedFlag && !y.errorFlag
    && y.responseType == x.responseType && y.settings == x.settings && y.status == Some(status)
    && ResponseStatusMessage(y) == Some(statusMessage)
    && y.isUtf8 == Assembly.IsUtf8Type(x.responseType)
    && (y.isUtf8 ==> y.responseText == text)
    && (!y.isUtf8 ==> y.buffers == chunks)
  }

  /** A response that is not a redirect, then its chunks, leave the object
      receiving with every chunk's text or bytes collected in order. */
  lemma HeadersThenChunks(x: Xhr, resp: Incoming, chunks: seq<seq<byte>>, rt: Runtime)
    requires InFlight(x) && x.transfer.Some? && !x.abortedFlag && !x.errorFlag
    requires !Redirects.IsRedirectStatus(resp.statusCode)
    ensures Received(Feed(OnResponse(x, resp, rt).xhr, chunks, rt), x, resp.statusCode, resp.statusMessage,
                     x.responseText + ChunkText(chunks, rt.utf8Text), chunks)
  {
    var h := OnResponse(x, resp, rt).xhr;
    assert h == ReceiveHeaders(x, resp).xhr;
    assert h.readyState == HeadersReceived && h.sendFlag && h.buffers == [] && h.responseType == x.responseType;
    FeedCollects(h, chunks, rt);
    assert h.buffers + chunks == chunks;
  }

  /** The `end` event of a receiving object: DONE with `load` and `loadend`
      unless `json` fails to parse, and the body assembled from what was
      collected. */
  lemma EndCompletes(y: Xhr, x: Xhr, status: int, statusMessage: string, text: string, chunks: seq<seq<byte>>, rt: Runtime)
    requires Received(y, x, status, statusMessage, text, chunks)
    ensures var e := OnEnd(y, rt);
      e.xhr.status == Some(status) && !e.xhr.sendFlag && e.issued.None?
    ensures var e := OnEnd(y, rt);
      x.responseType == "json" && rt.jsonError(text).Some? ==> e.thrown == rt.jsonError(text)
    ensures var e := OnEnd(y, rt);
      !(x.responseType == "json" && rt.jsonError(text).Some?) ==>
        && e.thrown.None? && e.xhr.readyState == Done && |e.trace| >= 2 && e.trace[|e.trace| - 2..] == [Load, LoadEnd]
        && e.xhr.statusText == Some(statusMessage) && e.xhr.responseURL == x.settings.url
    ensures var e := OnEnd(y, rt);
      !Assembly.IsUtf8Type(x.responseType) ==>
        e.xhr.responseText == "" && (e.xhr.response.ArrayBufferValue? || e.xhr.response.BlobValue?)
        && e.xhr.response.bytes == Flatten(chunks)
    ensures var e := OnEnd(y, rt);
      (x.responseType == "" || x.responseType == "text") ==>
        e.xhr.responseText == text && e.xhr.response == Assembly.TextValue(text)
    ensures var e := OnEnd(y, rt);
      x.responseType == "json" && rt.jsonError(text).None? ==>
        e.xhr.responseText == "" && e.xhr.response == Assembly.JsonValue(text)
  {
    assert !StateChangeIgnored(y, Done) && Outcome(y) == Load;
  }

  /** The whole asynchronous response of a request in flight: a response
      that is not a redirect, its chunks, then its end. The request
      completes in DONE with `load` and `loadend` and the response's status;
      a binary type holds exactly the bytes of all chunks, a text type the
      text of all chunks in order, and `json` parses that text. */
  lemma ResponseBodyDelivered(x: Xhr, resp: Incoming, chunks: seq<seq<byte>>, rt: Runtime)
    requires InFlight(x) && x.transfer.Some? && !x.abortedFlag && !x.errorFlag
    requires !Redirects.IsRedirectStatus(resp.statusCode)
    ensures var e := OnEnd(Feed(OnResponse(x, resp, rt).xhr, chunks, rt), rt);
      var text := x.responseText + ChunkText(chunks, rt.utf8Text);
      && e.xhr.status == Some(resp.statusCode) && !e.xhr.sendFlag
      && (x.responseType == "json" && rt.jsonError(text).Some? ==> e.thrown == rt.jsonError(text))
      && (!(x.responseType == "json" && rt.jsonError(text).Some?) ==>
            e.thrown.None? && e.xhr.readyState == Done && |e.trace| >= 2 && e.trace[|e.trace| - 2..] == [Load, LoadEnd]
            && e.xhr.statusText == Some(resp.statusMessage))
      && (!Assembly.IsUtf8Type(x.responseType) ==> (e.xhr.response.ArrayBufferValue? || e.xhr.response.BlobValue?) && e.xhr.response.bytes == Flatten(chunks))
      && ((x.responseType == "" || x.responseType == "text") ==> e.xhr.responseText == text)
      && (x.responseType == "json" && rt.jsonError(text).None? ==> e.xhr.response == Assembly.JsonValue(text))
  {
    var text := x.responseText + ChunkText(chunks, rt.utf8Text);
    HeadersThenChunks(x, resp, chunks, rt);
    EndCompletes(Feed(OnResponse(x, resp, rt).xhr, chunks, rt), x, resp.statusCode, resp.statusMessage, text, chunks, rt);
  }

  /** An asynchronous `file:` GET: `send` starts the read of the unescaped
      path and dispatches nothing; when the read returns, an error fails the
      request with its errno status, and data completes it in DONE with
      status 200, the URL and the assembled body. */
  lemma FileLoads(x: Xhr, body: Requests.Body, outcome: FileOutcome, rt: Runtime)
    requires x.readyState == Opened && !x.sendFlag && !x.errorFlag && !x.abortedFlag && x.settings.async
    requires x.config.allowFileSystemResources && x.settings.httpMethod == "GET"
    requires rt.parseUrl(x.settings.url, Base(x)).Ok? && rt.parseUrl(x.settings.url, Base(x)).value.protocol == "file:"
    ensures var u := rt.parseUrl(x.settings.url, Base(x)).value;
      var s := Send(x, body, rt);
      var r := OnFileRead(s.xhr, outcome, rt);
      && s.issued == Some(FileRead(rt.unescape(u.pathname))) && s.thrown.None? && s.trace == []
      && (outcome.FileError? ==>
            r.xhr.readyState == Done && r.xhr.status == Some(ErrnoStatus(outcome.errno)) && r.xhr.errorFlag
            && r.xhr.statusText == Some(outcome.message) && r.thrown.None?)
      && (outcome.FileData? ==>
            match Assembly.CreateFileOrSyncResponse(x.responseType, outcome.bytes, rt.utf8Text, rt.jsonError, rt.blobAvailable)
            case Err(message) => r.thrown == Some(message)
            case Ok(a) => r.xhr.readyState == Done && r.xhr.status == Some(200) && r.xhr.responseURL == u.href
                          && r.xhr.responseText == a.responseText && r.xhr.response == a.response
                          && |r.trace| >= 2 && r.trace[|r.trace| - 2..] == [Load, LoadEnd] && r.thrown.None?)
  {
  }

  /** A `data:` URL loads inside `send`: status 200, the decoded body as the
      text, the URL as the response URL, and DONE with `load` and `loadend`. */
  lemma DataUriLoads(x: Xhr, body: Requests.Body, bytes: seq<byte>, rt: Runtime)
    requires x.readyState == Opened && !x.sendFlag && !x.errorFlag && !x.abortedFlag && x.responseType == ""
    requires rt.parseUrl(x.settings.url, Base(x)).Ok? && rt.parseUrl(x.settings.url, Base(x)).value.protocol == "data:"
    requires DataUri.BufferFromDataUri(rt.parseUrl(x.settings.url, Base(x)).value.href, rt.decodeUriComponent, rt.base64Decode) == Ok(bytes)
    ensures var r := Send(x, body, rt);
      && r.xhr.readyState == Done && r.xhr.status == Some(200) && r.xhr.responseText == rt.utf8Text(bytes)
      && r.xhr.responseURL == rt.parseUrl(x.settings.url, Base(x)).value.href
      && r.trace[|r.trace| - 2..] == [Load, LoadEnd] && r.thrown.None? && r.issued.None?
  {
  }

  /** A synchronous response whose worker wrote the body as `latin1` arrives
      intact as an `arraybuffer`, with the envelope's status and headers. */
  lemma SyncBinaryBodyIntact(x: Xhr, request: WorkerRequest, env: EnvelopeData, body: seq<byte>, rt: Runtime)
    requires !x.settings.async && !x.sendFlag && !x.abortedFlag && x.readyState == Opened && x.responseType == "arraybuffer"
    requires env.data == Bridge.Latin1(body)
    requires !Bridge.IsErrorText(rt.syncWorker(request)) && rt.parseEnvelope(rt.syncWorker(request)) == Ok(env)
    ensures var r := SendSync(x, request, rt);
      && r.xhr.readyState == Done && r.xhr.response == Assembly.ArrayBufferValue(body)
      && r.xhr.status == Some(env.statusCode) && r.xhr.serverResponse == Some(ServerResponse(env.statusCode, None, env.headers))
      && r.thrown.None?
  {
    assert StringToBuffer(Bridge.Latin1(body)) == body by { var _ := Bridge.WorkerBody(body); }
  }
}

=== FILE: text.dfy ===
/** The JavaScript string primitives the core relies on: case mapping,
    `split`, prefix tests, whitespace removal and trailing-run stripping. */
module Text {

  /** `toLowerCase` on one character; only ASCII letters are mapped. */
  function LowerChar(c: char): char
  {
    if 'A' <= c <= 'Z' then (c as int + 32) as char else c
  }

  /** `toUpperCase` on one character; only ASCII letters are mapped. */
  function UpperChar(c: char): char
  {
    if 'a' <= c <= 'z' then (c as int - 32) as char else c
  }

  function Lower(s: string): (r: string)
    ensures |r| == |s|
    ensures forall i :: 0 <= i < |s| ==> r[i] == LowerChar(s[i])
  {
    seq(|s|, i requires 0 <= i < |s| => LowerChar(s[i]))
  }

  function Upper(s: string): (r: string)
    ensures |r| == |s|
    ensures forall i :: 0 <= i < |s| ==> r[i] == UpperChar(s[i])
  {
    seq(|s|, i requires 0 <= i < |s| => UpperChar(s[i]))
  }

  predicate NoUpper(s: string) {
    forall i :: 0 <= i < |s| ==> !('A' <= s[i] <= 'Z')
  }

  /** Lower-casing yields no upper-case letter, and fixes strings that have none. */
  lemma LowerNormalises(s: string)
    ensures NoUpper(Lower(s))
    ensures NoUpper(s) ==> Lower(s) == s
    ensures Lower(Lower(s)) == Lower(s)
  {
  }

  /** Two strings agree up to ASCII case exactly when their lower-cased forms agree. */
  predicate EqualsIgnoreCase(a: string, b: string) {
    Lower(a) == Lower(b)
  }

  predicate StartsWith(s: string, prefix: string) {
    |prefix| <= |s| && s[..|prefix|] == prefix
  }

  /** `s.split(sep)`: the pieces between occurrences of `sep`; never empty. */
  function Split(s: string, sep: char): (parts: seq<string>)
    ensures |parts| >= 1
    ensures forall i :: 0 <= i < |parts| ==> sep !in parts[i]
    decreases |s|
  {
    if |s| == 0 then [""]
    else
      var rest := Split(s[1..], sep);
      if s[0] == sep then [""] + rest
      else [[s[0]] + rest[0]] + rest[1..]
  }

  /** The inverse of `Split`: the pieces glued back with the separator. */
  function Join(parts: seq<string>, sep: char): string
  {
    if |parts| == 0 then ""
    else if |parts| == 1 then parts[0]
    else parts[0] + [sep] + Join(parts[1..], sep)
  }

  lemma {:induction false} JoinSplit(s: string, sep: char)
    ensures Join(Split(s, sep), sep) == s
    decreases |s|
  {
    if |s| > 0 {
      var rest := Split(s[1..], sep);
      JoinSplit(s[1..], sep);
      if s[0] == sep {
        assert Split(s, sep) == [""] + rest;
        assert ([""] + rest)[1..] == rest;
      } else {
        var parts := Split(s, sep);
        assert parts == [[s[0]] + rest[0]] + rest[1..];
        if |rest| == 1 {
          assert parts == [[s[0]] + rest[0]];
        } else {
          assert parts[1..] == rest[1..];
        }
      }
    }
  }

  /** The position of the first occurrence of `c` in `s`. */
  function FirstIndexOf(s: string, c: char): (i: nat)
    requires c in s
    ensures i < |s| && s[i] == c && c !in s[..i]
  {
    if s[0] == c then 0
    else
      var k := FirstIndexOf(s[1..], c);
      assert s[..k + 1] == [s[0]] + s[1..][..k];
      k + 1
  }

  /** A string without the separator is a single piece. */
  lemma {:induction false} SplitNoSeparator(s: string, sep: char)
    requires sep !in s
    ensures Split(s, sep) == [s]
    decreases |s|
  {
    if |s| > 0 {
      SplitNoSeparator(s[1..], sep);
      assert [s[0]] + s[1..] == s;
    }
  }

  /** Splitting at the first separator peels off the leading piece. */
  lemma {:induction false} SplitCons(a: string, b: string, sep: char)
    requires sep !in a
    ensures Split(a + [sep] + b, sep) == [a] + Split(b, sep)
    decreases |a|
  {
    var s := a + [sep] + b;
    if |a| == 0 {
      assert s[1..] == b;
    } else {
      assert s[1..] == a[1..] + [sep] + b;
      SplitCons(a[1..], b, sep);
      assert [a[0]] + a[1..] == a;
    }
  }

  /** The pieces of a split at the first separator. */
  lemma SplitAtFirst(s: string, sep: char)
    requires sep in s
    ensures Split(s, sep) == [s[..FirstIndexOf(s, sep)]] + Split(s[FirstIndexOf(s, sep) + 1..], sep)
  {
    var i := FirstIndexOf(s, sep);
    assert s == s[..i] + [sep] + s[i + 1..];
    SplitCons(s[..i], s[i + 1..], sep);
  }

  /** The class `\s` of JavaScript regular expressions: the White_Space
      characters and line terminators of ECMAScript, including the BOM. */
  predicate IsJsWhitespace(c: char) {
    c == '\t' || c == '\n' || c == '\U{000B}' || c == '\U{000C}' || c == '\r' || c == ' '
    || c == '\U{00A0}' || c == '\U{1680}' || ('\U{2000}' <= c <= '\U{200A}')
    || c == '\U{2028}' || c == '\U{2029}' || c == '\U{202F}' || c == '\U{205F}'
    || c == '\U{3000}' || c == '\U{FEFF}'
  }

  /** `s.replace(/(\s|\t|\r|\n|\v|\f)+/g, "")`: every whitespace character removed. */
  function RemoveWhitespace(s: string): (r: string)
    ensures forall i :: 0 <= i < |r| ==> !IsJsWhitespace(r[i])
    ensures |r| <= |s|
  {
    if |s| == 0 then ""
    else if IsJsWhitespace(s[0]) then RemoveWhitespace(s[1..])
    else [s[0]] + RemoveWhitespace(s[1..])
  }

  /** Removing whitespace keeps every other character, in order. */
  lemma {:induction false} RemoveWhitespaceKeeps(s: string)
    ensures (forall i :: 0 <= i < |s| ==> !IsJsWhitespace(s[i])) ==> RemoveWhitespace(s) == s
    ensures forall c :: c in RemoveWhitespace(s) ==> c in s
  {
    if |s| > 0 {
      RemoveWhitespaceKeeps(s[1..]);
    }
  }

  /** Length of the maximal run of `c` at the end of `s` (`s.match(/=*$/)[0].length` for `=`). */
  function TrailingRun(s: string, c: char): (n: nat)
    ensures n <= |s|
    ensures forall i :: |s| - n <= i < |s| ==> s[i] == c
    ensures n < |s| ==> s[|s| - n - 1] != c
  {
    if |s| == 0 || s[|s| - 1] != c then 0 else TrailingRun(s[..|s| - 1], c) + 1
  }

  /** `s` with its maximal trailing run of `c` removed. */
  function StripTrailing(s: string, c: char): (r: string)
    ensures s == r + seq(TrailingRun(s, c), _ => c)
    ensures |r| == 0 || r[|r| - 1] != c
  {
    var n := TrailingRun(s, c);
    assert s == s[..|s| - n] + s[|s| - n..];
    assert s[|s| - n..] == seq(n, _ => c);
    s[..|s| - n]
  }

  /** Stripping a run appended to a string that does not already end in `c` gives the string back. */
  lemma {:induction false} StripTrailingAppended(s: string, c: char, n: nat)
    requires |s| == 0 || s[|s| - 1] != c
    ensures TrailingRun(s + seq(n, _ => c), c) == n
    ensures StripTrailing(s + seq(n, _ => c), c) == s
  {
    if n > 0 {
      var t := s + seq(n, _ => c);
      assert t[..|t| - 1] == s + seq(n - 1, _ => c);
      StripTrailingAppended(s, c, n - 1);
    } else {
      assert s + seq(0, _ => c) == s;
    }
  }
}

=== FILE: urls.dfy ===
/** The parts of a parsed URL the core reads, and the `Host` request header
    built from them. Parsing itself belongs to the runtime's WHATWG URL
    parser and is a parameter wherever it is needed. */
module Urls {
  import opened Text

  /** A parsed URL as the WHATWG URL standard (section 6.1) exposes it.
      `port` is the serialised port: empty when the URL names none or names
      its scheme's default port. */
  datatype Url = Url(href: string, protocol: string, hostname: string, port: string,
                     pathname: string, search: string)

  /** `url.host`: the hostname, followed by `:port` when the port is not empty. */
  function Host(u: Url): (h: string)
    ensures u.port == "" ==> h == u.hostname
    ensures u.port != "" ==> h == u.hostname + ":" + u.port
  {
    if u.port == "" then u.hostname else u.hostname + ":" + u.port
  }

  /** A port as the request code holds it: either the URL's port string or
      the numeric default the code substitutes for an empty one. A string
      never equals a number under `===`. */
  datatype PortValue = Explicit(text: string) | Default(number: nat)

  /** `url.port || (isSsl ? 443 : 80)`. */
  function EffectivePort(u: Url, isSsl: bool): (p: PortValue)
    ensures p.Default? <==> u.port == ""
    ensures p.Default? ==> p.number == (if isSsl then 443 else 80)
    ensures p.Explicit? ==> p.text == u.port
  {
    if u.port != "" then Explicit(u.port) else Default(if isSsl then 443 else 80)
  }

  /** `!((isSsl && port === 443) || port === 80)`: whether the header gets a port suffix. */
  predicate SuffixNeeded(isSsl: bool, port: PortValue)
  {
    !((isSsl && port == Default(443)) || port == Default(80))
  }

  /** The `Host` header of the request path and of the redirect path: the host
      name, then `:` and the URL's port when the suffix test asks for one. */
  function HostHeader(hostname: string, u: Url, isSsl: bool): string
  {
    hostname + (if SuffixNeeded(isSsl, EffectivePort(u, isSsl)) then ":" + u.port else "")
  }

  /** The suffix is added exactly when the URL carries an explicit, non-default
      port, whatever the scheme: the numeric defaults can only appear when the
      port string is empty. */
  lemma HostHeaderExplicitPortOnly(hostname: string, u: Url, isSsl: bool)
    ensures HostHeader(hostname, u, isSsl) == hostname + (if u.port == "" then "" else ":" + u.port)
  {
  }

  /** For the URL's own host name the header is the URL's `host`. */
  lemma HostHeaderIsUrlHost(u: Url, isSsl: bool)
    ensures HostHeader(u.hostname, u, isSsl) == Host(u)
  {
    HostHeaderExplicitPortOnly(u.hostname, u, isSsl);
  }

  /** The redirect handler of the synchronous worker as written: it starts
      from `url.host`, which already carries any explicit port, and tests the
      port STRING against the numbers 443 and 80, so the suffix test always
      passes. */
  function WorkerHostAsWritten(u: Url, isSsl: bool): (h: string)
    ensures h == Host(u) + ":" + u.port
  {
    var port := Explicit(u.port);
    Host(u) + (if SuffixNeeded(isSsl, port) then ":" + port.text else "")
  }

  /** The worker's header is never the URL's host: a default port leaves a
      dangling colon and an explicit one is doubled. */
  lemma WorkerHostWrong(u: Url, isSsl: bool)
    ensures WorkerHostAsWritten(u, isSsl) != Host(u)
    ensures u.port == "" ==> WorkerHostAsWritten(u, isSsl) == u.hostname + ":"
    ensures u.port != "" ==> WorkerHostAsWritten(u, isSsl) == u.hostname + ":" + u.port + ":" + u.port
  {
    assert |WorkerHostAsWritten(u, isSsl)| == |Host(u)| + 1 + |u.port|;
  }

  /** A concrete instance: a redirect to `https://example.com/next` makes the
      worker send `Host: example.com:`. */
  lemma WorkerHostExample()
    ensures WorkerHostAsWritten(Url("https://example.com/next", "https:", "example.com", "", "/next", ""), true) == "example.com:"
  {
  }

  /** The corrected worker header: the same computation as the request path. */
  function WorkerHost(u: Url, isSsl: bool): (h: string)
    ensures h == Host(u)
  {
    HostHeaderIsUrlHost(u, isSsl);
    HostHeader(u.hostname, u, isSsl)
  }
}

=== FILE: utf8.dfy ===
/** UTF-8, as `Buffer.from(string)` and `Buffer.byteLength(string)` apply it.
    Characters are Unicode scalar values, so every string has an encoding. */
module Utf8 {
  import opened Bytes
  import opened Results

  function EncodeChar(c: char): (b: seq<byte>)
    ensures 1 <= |b| <= 4
    ensures (c as int < 0x80) <==> |b| == 1
  {
    var cp := c as int;
    if cp < 0x80 then [cp]
    else if cp < 0x800 then [0xC0 + cp / 64, 0x80 + cp % 64]
    else if cp < 0x10000 then [0xE0 + cp / 4096, 0x80 + cp / 64 % 64, 0x80 + cp % 64]
    else [0xF0 + cp / 262144, 0x80 + cp / 4096 % 64, 0x80 + cp / 64 % 64, 0x80 + cp % 64]
  }

  function Encode(s: string): (b: seq<byte>)
    ensures |b| >= |s|
  {
    if |s| == 0 then [] else EncodeChar(s[0]) + Encode(s[1..])
  }

  predicate IsAscii(s: string) {
    forall i :: 0 <= i < |s| ==> s[i] as int < 0x80
  }

  /** On ASCII text the encoding is the sequence of character codes. */
  lemma {:induction false} EncodeAscii(s: string)
    requires IsAscii(s)
    ensures Encode(s) == seq(|s|, i requires 0 <= i < |s| => s[i] as int)
  {
    if |s| > 0 {
      EncodeAscii(s[1..]);
    }
  }

  lemma {:induction false} EncodeAppend(a: string, b: string)
    ensures Encode(a + b) == Encode(a) + Encode(b)
  {
    if |a| == 0 {
      assert a + b == b;
    } else {
      assert (a + b)[1..] == a[1..] + b;
      EncodeAppend(a[1..], b);
    }
  }

  predicate IsContinuation(x: byte) {
    0x80 <= x < 0xC0
  }

  /** Strict decoding of the first scalar value of `b`: the character and how
      many bytes it occupies, or `None` for an ill-formed or overlong sequence. */
  function DecodeFirst(b: seq<byte>): (r: Option<(char, nat)>)
    ensures r.Some? ==> 1 <= r.value.1 <= |b| && r.value.1 <= 4
  {
    if |b| == 0 then None
    else if b[0] < 0x80 then Some((b[0] as char, 1))
    else if 0xC0 <= b[0] < 0xE0 && |b| >= 2 && IsContinuation(b[1]) then
      var cp := (b[0] as int - 0xC0) * 64 + (b[1] as int - 0x80);
      if cp < 0x80 then None else Some((cp as char, 2))
    else if 0xE0 <= b[0] < 0xF0 && |b| >= 3 && IsContinuation(b[1]) && IsContinuation(b[2]) then
      var cp := (b[0] as int - 0xE0) * 4096 + (b[1] as int - 0x80) * 64 + (b[2] as int - 0x80);
      if cp < 0x800 || (0xD800 <= cp < 0xE000) then None else Some((cp as char, 3))
    else if 0xF0 <= b[0] < 0xF5 && |b| >= 4 && IsContinuation(b[1]) && IsContinuation(b[2]) && IsContinuation(b[3]) then
      var cp := (b[0] as int - 0xF0) * 262144 + (b[1] as int - 0x80) * 4096 + (b[2] as int - 0x80) * 64 + (b[3] as int - 0x80);
      if cp < 0x10000 || cp > 0x10FFFF then None else Some((cp as char, 4))
    else None
  }

  /** Strict decoding of a whole byte sequence. */
  function Decode(b: seq<byte>): Option<string>
    decreases |b|
  {
    if |b| == 0 then Some("")
    else
      match DecodeFirst(b)
      case None => None
      case Some((c, n)) =>
        match Decode(b[n..])
        case None => None
        case Some(rest) => Some([c] + rest)
  }

  lemma DecodeFirstTwo(c: char, tail: seq<byte>)
    requires 0x80 <= c as int < 0x800
    ensures DecodeFirst(EncodeChar(c) + tail) == Some((c, 2))
  {
    var cp := c as int;
    var b := EncodeChar(c) + tail;
    var hi, lo := cp / 64, cp % 64;
    assert cp == hi * 64 + lo && 2 <= hi < 32 && 0 <= lo < 64;
    assert b[0] as int - 0xC0 == hi && b[1] as int - 0x80 == lo;
  }

  lemma DecodeFirstThree(c: char, tail: seq<byte>)
    requires 0x800 <= c as int < 0x10000
    ensures DecodeFirst(EncodeChar(c) + tail) == Some((c, 3))
  {
    var cp := c as int;
    var b := EncodeChar(c) + tail;
    var x, y, z := cp / 4096, cp / 64 % 64, cp % 64;
    assert cp == x * 4096 + y * 64 + z && 0 <= x < 16 && 0 <= y < 64 && 0 <= z < 64;
    assert b[0] as int - 0xE0 == x && b[1] as int - 0x80 == y && b[2] as int - 0x80 == z;
  }

  /** The four 6-bit (3-bit at the top) digits of a supplementary code point. */
  lemma FourDigits(cp: int)
    requires 0x10000 <= cp < 0x110000
    ensures cp == cp / 262144 * 262144 + cp / 4096 % 64 * 4096 + cp / 64 % 64 * 64 + cp % 64
    ensures 0 <= cp / 262144 < 5
  {
    var z, q := cp % 64, cp / 64;
    assert cp == 64 * q + z;
    var y, q2 := q % 64, q / 64;
    assert q == 64 * q2 + y;
    var x, w := q2 % 64, q2 / 64;
    assert q2 == 64 * w + x;
    assert 4096 * q2 <= cp < 4096 * q2 + 4096;
    assert q2 == cp / 4096;
    assert 262144 * w <= cp < 262144 * w + 262144;
    assert w == cp / 262144;
  }

  lemma DecodeFirstFour(c: char, tail: seq<byte>)
    requires 0x10000 <= c as int
    ensures DecodeFirst(EncodeChar(c) + tail) == Some((c, 4))
  {
    var cp := c as int;
    FourDigits(cp);
    var w, x, y, z := cp / 262144, cp / 4096 % 64, cp / 64 % 64, cp % 64;
    var b := EncodeChar(c) + tail;
    assert b[0] == 0xF0 + w && b[1] == 0x80 + x && b[2] == 0x80 + y && b[3] == 0x80 + z;
    assert (b[0] as int - 0xF0) * 262144 + (b[1] as int - 0x80) * 4096 + (b[2] as int - 0x80) * 64 + (b[3] as int - 0x80) == cp;
  }

  lemma DecodeFirstEncodeChar(c: char, tail: seq<byte>)
    ensures DecodeFirst(EncodeChar(c) + tail) == Some((c, |EncodeChar(c)|))
  {
    var cp := c as int;
    if cp < 0x80 {
    } else if cp < 0x800 {
      DecodeFirstTwo(c, tail);
    } else if cp < 0x10000 {
      DecodeFirstThree(c, tail);
    } else {
      DecodeFirstFour(c, tail);
    }
  }

  /** Strict decoding inverts the encoding. */
  lemma {:induction false} DecodeEncode(s: string)
    ensures Decode(Encode(s)) == Some(s)
  {
    if |s| > 0 {
      var e := EncodeChar(s[0]);
      DecodeFirstEncodeChar(s[0], Encode(s[1..]));
      assert Encode(s) == e + Encode(s[1..]);
      assert (e + Encode(s[1..]))[|e|..] == Encode(s[1..]);
      DecodeEncode(s[1..]);
      assert [s[0]] + s[1..] == s;
    }
  }
}

=== FILE: validators.dfy ===
/** The request-header and request-method deny lists and the two predicates
    built on them. */
module Validators {
  import opened Text

  /** Header names a script may not set; `user-agent` is deliberately absent. */
  const ForbiddenRequestHeaders: seq<string> := [
    "accept-charset",
    "accept-encoding",
    "access-control-request-headers",
    "access-control-request-method",
    "connection",
    "content-length",
    "content-transfer-encoding",
    "cookie",
    "cookie2",
    "date",
    "expect",
    "host",
    "keep-alive",
    "origin",
    "referer",
    "te",
    "trailer",
    "transfer-encoding",
    "upgrade",
    "via"
  ]

  const ForbiddenRequestMethods: seq<string> := ["TRACE", "TRACK", "CONNECT"]

  /** `list.indexOf(x)`: the first position holding `x`, or -1 when there is none. */
  function IndexOf(list: seq<string>, x: string): (r: int)
    ensures -1 <= r < |list|
    ensures r == -1 <==> x !in list
    ensures r >= 0 ==> list[r] == x && x !in list[..r]
  {
    if |list| == 0 then -1
    else if list[0] == x then 0
    else
      var k := IndexOf(list[1..], x);
      assert list[1..][..k + 1] == list[1..k + 2] by { if k >= 0 {} }
      if k == -1 then -1 else k + 1
  }

  /** `isAllowedHttpHeader`: any name while the check is disabled; otherwise a
      non-empty name (the empty string is falsy) whose lower-cased form is not
      on the deny list. */
  predicate IsAllowedHttpHeader(disableHeaderCheck: bool, header: string)
  {
    disableHeaderCheck || (header != "" && IndexOf(ForbiddenRequestHeaders, Lower(header)) == -1)
  }

  /** `isAllowedHttpMethod`: a non-empty method that is not literally one of
      the forbidden methods. The comparison is case-sensitive. */
  predicate IsAllowedHttpMethod(httpMethod: string)
  {
    httpMethod != "" && IndexOf(ForbiddenRequestMethods, httpMethod) == -1
  }

  /** Every deny-list entry is already lower case. */
  lemma ForbiddenHeadersAreLower()
    ensures forall i :: 0 <= i < |ForbiddenRequestHeaders| ==> NoUpper(ForbiddenRequestHeaders[i])
  {
    EntriesLower1();
    EntriesLower2();
    EntriesLower3();
    EntriesLower4();
    EntriesLower5();
  }

  /** The deny-list entries, four at a time: each literal is checked
      character by character, which is cheap only in small groups. */
  lemma EntriesLower1()
    ensures NoUpper("accept-charset")
    ensures NoUpper("accept-encoding")
    ensures NoUpper("access-control-request-headers")
    ensures NoUpper("access-control-request-method")
  {
  }

  lemma EntriesLower2()
    ensures NoUpper("connection")
    ensures NoUpper("content-length")
    ensures NoUpper("content-transfer-encoding")
    ensures NoUpper("cookie")
  {
  }

  lemma EntriesLower3()
    ensures NoUpper("cookie2")
    ensures NoUpper("date")
    ensures NoUpper("expect")
    ensures NoUpper("host")
  {
  }

  lemma EntriesLower4()
    ensures NoUpper("keep-alive")
    ensures NoUpper("origin")
    ensures NoUpper("referer")
    ensures NoUpper("te")
  {
  }

  lemma EntriesLower5()
    ensures NoUpper("trailer")
    ensures NoUpper("transfer-encoding")
    ensures NoUpper("upgrade")
    ensures NoUpper("via")
  {
  }


  /** With the check enabled, a header is refused exactly when it is empty or
      matches some deny-list entry ignoring ASCII case. */
  lemma HeaderCheckIgnoresCase(header: string)
    ensures IsAllowedHttpHeader(false, header)
        <==> header != "" && forall i :: 0 <= i < |ForbiddenRequestHeaders| ==> !EqualsIgnoreCase(header, ForbiddenRequestHeaders[i])
  {
    ForbiddenHeadersAreLower();
    forall i | 0 <= i < |ForbiddenRequestHeaders|
      ensures EqualsIgnoreCase(header, ForbiddenRequestHeaders[i]) <==> Lower(header) == ForbiddenRequestHeaders[i]
    {
      LowerNormalises(ForbiddenRequestHeaders[i]);
    }
  }

  /** Disabling the check admits every name, the empty one included. */
  lemma DisabledCheckAdmitsAll(header: string)
    ensures IsAllowedHttpHeader(true, header)
  {
  }

  /** Exactly the empty method and the three literal upper-case names are refused. */
  lemma MethodCheckExact(httpMethod: string)
    ensures !IsAllowedHttpMethod(httpMethod) <==> httpMethod in {"", "TRACE", "TRACK", "CONNECT"}
  {
  }

  /** Because the comparison is case-sensitive, lower-case spellings pass. */
  lemma LowerCaseForbiddenMethodsPass()
    ensures IsAllowedHttpMethod("trace") && IsAllowedHttpMethod("track") && IsAllowedHttpMethod("connect")
    ensures Upper("trace") == "TRACE" && !IsAllowedHttpMethod(Upper("trace"))
  {
  }
}

=== FILE: xhr.dfy ===
/** The XMLHttpRequest object as an immutable record and its methods as
    transitions. Each transition returns the next record, the events it
    dispatched in order, the exception it throws (if any) and the network or
    file operation it starts (if any). Transport events (a response, a
    chunk, the end, an error, a finished file read) are transitions too. */
module Xhr {
  import opened Results
  import opened Bytes
  import opened Text
  import opened Events
  import Validators
  import DataUri
  import Urls
  import Requests
  import Redirects
  import Assembly
  import Bridge
  import Objects

  /** The result of a file read: the bytes, or a Node error with its `errno`. */
  datatype FileOutcome = FileData(bytes: seq<byte>) | FileError(errno: int, message: string)

  /** What a synchronous request hands to its worker process. */
  datatype WorkerRequest = WorkerRequest(isSsl: bool, options: Requests.RequestOptions, url: string,
                                         body: Requests.Body, maxRedirects: Redirects.Limit)

  /** The `data` object of the worker's JSON envelope. */
  datatype EnvelopeData = EnvelopeData(url: string, statusCode: int, statusText: string,
                                       headers: seq<(string, string)>, data: string)

  /** The host facilities the object calls and this model does not define. */
  datatype Runtime = Runtime(
    parseUrl: (string, Option<string>) -> Result<Urls.Url>,  // new URL(input, base); Err carries the TypeError message
    decodeUriComponent: string -> Option<string>,            // None when it throws URIError
    base64Decode: string -> seq<byte>,                       // Buffer.from(s, "base64")
    utf8Text: seq<byte> -> string,                           // buffer.toString("utf8")
    jsonError: string -> Option<string>,                     // JSON.parse: None, or the SyntaxError message
    blobAvailable: bool,                                     // typeof Blob === "function"
    unescape: string -> string,
    readFileSync: string -> FileOutcome,
    syncWorker: WorkerRequest -> string,                     // the text the worker leaves in its content file
    parseEnvelope: string -> Result<EnvelopeData>,           // JSON.parse of a success text
    errorObject: string -> Result<string>)                   // JSON.parse of an error text: its `message || ""`

  /** The constructor options the core reads. */
  datatype Config = Config(maxRedirects: Redirects.MaxRedirectsOption, allowFileSystemResources: bool,
                           origin: Option<string>)

  /** `settings`, written by `open` and `send`. */
  datatype Settings = Settings(httpMethod: string, url: string, async: bool,
                               user: Option<string>, password: Option<string>, origin: Option<Urls.Url>)

  /** The private `response`: what the headers accessors and the `end`
      handler read. The object the synchronous path builds has no
      `statusMessage`. */
  datatype ServerResponse = ServerResponse(statusCode: int, statusMessage: Option<string>, headers: seq<(string, string)>)

  /** The closure of an asynchronous request: its protocol, body and options. */
  datatype Transfer = Transfer(isSsl: bool, body: Requests.Body, options: Requests.RequestOptions)

  /** A response as the HTTP client delivers it; header names are lower case. */
  datatype Incoming = Incoming(statusCode: int, statusMessage: string, headers: seq<(string, string)>)

  /** Work a transition starts outside the object. */
  datatype Outgoing =
    | HttpRequest(isSsl: bool, options: Requests.RequestOptions, body: Requests.Body)
    | FileRead(path: string)
    | Spawned(request: WorkerRequest)

  datatype Xhr = Xhr(
    readyState: ReadyState,
    settings: Settings,
    headers: Requests.Headers,
    disableHeaderCheck: bool,
    sendFlag: bool,
    errorFlag: bool,
    abortedFlag: bool,
    redirectCount: nat,
    maxRedirects: Redirects.Limit,
    config: Config,
    listeners: Registry,
    handlers: set<string>,
    responseType: string,
    status: Option<int>,
    statusText: Option<string>,
    responseText: string,
    responseURL: string,
    response: Assembly.ResponseValue,
    serverResponse: Option<ServerResponse>,
    transfer: Option<Transfer>,
    isUtf8: bool,
    buffers: seq<seq<byte>>)

  datatype Step = Step(xhr: Xhr, trace: seq<EventKind>, thrown: Option<string>, issued: Option<Outgoing>)

  /** `new XMLHttpRequest(opts)`. Before `open`, `settings` is empty, so its
      `async` reads as false. */
  function New(config: Config): (x: Xhr)
    ensures x.readyState == Unsent && x.headers == Requests.DefaultHeaders
    ensures x.redirectCount == 0 && x.maxRedirects == Redirects.ClampMaxRedirects(config.maxRedirects)
    ensures !x.sendFlag && !x.errorFlag && !x.abortedFlag
  {
    Xhr(Unsent, Settings("", "", false, None, None, None), Requests.DefaultHeaders, false,
        false, false, false, 0, Redirects.ClampMaxRedirects(config.maxRedirects), config,
        map[], {}, "", None, None, "", "", Assembly.BufferValue([]), None, None, false, [])
  }

  /** The terminal event for the flags: abort before error before load. */
  function Outcome(x: Xhr): (e: EventKind)
    ensures e.IsOutcome()
    ensures e == AbortEvent <==> x.abortedFlag
    ensures e == ErrorEvent <==> !x.abortedFlag && x.errorFlag
  {
    if x.abortedFlag then AbortEvent else if x.errorFlag then ErrorEvent else Load
  }

  /** Whether `setState` is a no-op. */
  predicate StateChangeIgnored(x: Xhr, state: ReadyState)
  {
    x.readyState == state || (x.readyState == Unsent && x.abortedFlag)
  }

  /** `setState(state)`. */
  function SetState(x: Xhr, state: ReadyState): (r: Step)
    ensures r.thrown.None? && r.issued.None?
    ensures StateChangeIgnored(x, state) ==> r.xhr == x && r.trace == []
    ensures !StateChangeIgnored(x, state) ==> r.xhr == x.(readyState := state)
    ensures !StateChangeIgnored(x, state) ==>
      (ReadyStateChange in r.trace <==> x.settings.async || state == Unsent || state == Done)
    ensures !StateChangeIgnored(x, state) && state == Done ==>
      |r.trace| >= 2 && r.trace[|r.trace| - 2] == Outcome(x) && r.trace[|r.trace| - 1] == LoadEnd
    ensures state != Done ==> forall i :: 0 <= i < |r.trace| ==> r.trace[i] == ReadyStateChange
  {
    if StateChangeIgnored(x, state) then Step(x, [], None, None)
    else
      var change := if x.settings.async || state.Code() < Opened.Code() || state == Done then [ReadyStateChange] else [];
      var ending := if state == Done then [Outcome(x), LoadEnd] else [];
      Step(x.(readyState := state), change + ending, None, None)
  }

  /** `handleError(error, status)`, the handler every error path of the
      object calls: the status and message are recorded, the response
      cleared, the error flag set and DONE entered, and a synchronous request
      throws. The send flag is left as it was. */
  function HandleErrorAsWritten(x: Xhr, message: string, status: int): (r: Step)
    ensures r.xhr.status == Some(status) && r.xhr.statusText == Some(message)
    ensures r.xhr.responseText == "" && r.xhr.responseURL == "" && r.xhr.response == Assembly.BufferValue([])
    ensures r.xhr.errorFlag && r.xhr.sendFlag == x.sendFlag
    ensures r.xhr.abortedFlag == x.abortedFlag && r.xhr.disableHeaderCheck == x.disableHeaderCheck
    ensures r.thrown.Some? <==> !x.settings.async
    ensures r.thrown.Some? ==> r.thrown.value == message
    ensures !(x.readyState == Unsent && x.abortedFlag) ==> r.xhr.readyState == Done
    ensures r.xhr.redirectCount == x.redirectCount && r.xhr.headers == x.headers
    ensures r.xhr.settings == x.settings && r.xhr.maxRedirects == x.maxRedirects
    ensures r.xhr.serverResponse == x.serverResponse && r.xhr.transfer == x.transfer
    ensures r.issued.None?
  {
    var failed := x.(status := Some(status), statusText := Some(message), responseText := "", responseURL := "",
                     response := Assembly.BufferValue([]), errorFlag := true);
    var s := SetState(failed, Done);
    Step(s.xhr, s.trace, if !x.settings.async then Some(message) else None, None)
  }

  /** `handleError(error, status)`, corrected to end the send as the request
      error steps of the XMLHttpRequest standard do: the response fields are
      cleared, the error flag is set, DONE is entered, and a synchronous
      request throws. */
  function HandleError(x: Xhr, message: string, status: int): (r: Step)
    ensures r.xhr.status == Some(status) && r.xhr.statusText == Some(message)
    ensures r.xhr.responseText == "" && r.xhr.responseURL == "" && r.xhr.response == Assembly.BufferValue([])
    ensures r.xhr.errorFlag && !r.xhr.sendFlag
    ensures r.thrown.Some? <==> !x.settings.async
    ensures r.thrown.Some? ==> r.thrown.value == message
    ensures !(x.readyState == Unsent && x.abortedFlag) ==> r.xhr.readyState == Done
    ensures r.xhr.redirectCount == x.redirectCount && r.xhr.headers == x.headers
    ensures r.xhr.settings == x.settings && r.xhr.maxRedirects == x.maxRedirects
    ensures r.issued.None?
  {
    HandleErrorAsWritten(x.(sendFlag := false), message, status)
  }

  /** The two handlers differ in the send flag alone: same record otherwise,
      same events, same exception; where the flag was already clear they
      coincide. */
  lemma HandleErrorOnlyClearsSendFlag(x: Xhr, message: string, status: int)
    ensures HandleError(x, message, status).xhr == HandleErrorAsWritten(x, message, status).xhr.(sendFlag := false)
    ensures HandleError(x, message, status).trace == HandleErrorAsWritten(x, message, status).trace
    ensures HandleError(x, message, status).thrown == HandleErrorAsWritten(x, message, status).thrown
    ensures !x.sendFlag ==> HandleError(x, message, status) == HandleErrorAsWritten(x, message, status)
  {
  }

  /** Whether `abort` passes through DONE. */
  predicate AbortPassesDone(x: Xhr)
  {
    x.readyState != Unsent && (x.readyState != Opened || x.sendFlag) && x.readyState != Done
  }

  /** `abort()`: the request is dropped, the headers reset and the response
      cleared; a request in progress passes through DONE with an `abort`
      event; the state always ends UNSENT. Status, status text and
      response URL are kept. */
  function Abort(x: Xhr): (r: Step)
    ensures r.xhr.readyState == Unsent && r.xhr.abortedFlag && r.xhr.errorFlag
    ensures r.xhr.headers == Requests.DefaultHeaders && r.xhr.transfer.None?
    ensures r.xhr.responseText == "" && r.xhr.response == Assembly.BufferValue([])
    ensures r.xhr.status == x.status && r.xhr.statusText == x.statusText && r.xhr.responseURL == x.responseURL
    ensures r.xhr.redirectCount == x.redirectCount && r.xhr.settings == x.settings
    ensures r.xhr.sendFlag == (x.sendFlag && !AbortPassesDone(x))
    ensures r.xhr.disableHeaderCheck == x.disableHeaderCheck
    ensures AbortPassesDone(x) ==> r.trace == [ReadyStateChange, AbortEvent, LoadEnd]
    ensures !AbortPassesDone(x) ==> r.trace == []
    ensures r.thrown.None? && r.issued.None?
  {
    var cleared := x.(transfer := None, headers := Requests.DefaultHeaders, responseText := "",
                      response := Assembly.BufferValue([]), errorFlag := true, abortedFlag := true);
    if AbortPassesDone(x) then
      var s := SetState(cleared.(sendFlag := false), Done);
      Step(s.xhr.(readyState := Unsent), s.trace, None, None)
    else Step(cleared.(readyState := Unsent), [], None, None)
  }

  /** `settings.origin`: the configured origin if the URL parser accepts it. */
  function ParsedOrigin(config: Config, rt: Runtime): Option<Urls.Url>
  {
    match config.origin
    case None => None
    case Some(o) => match rt.parseUrl(o, None) case Ok(u) => Some(u) case Err(_) => None
  }

  const MethodNotAllowed: string := "SecurityError: Request method not allowed"

  /** `open(method, url, async, user, password)`: abort, clear the flags,
      refuse a forbidden method, store the settings (the method upper-cased,
      `async` defaulting to true, empty credentials as null) and enter OPENED. */
  function Open(x: Xhr, httpMethod: string, url: string, async: Option<bool>,
                user: Option<string>, password: Option<string>, rt: Runtime): (r: Step)
    ensures r.thrown == Some(MethodNotAllowed) <==> !Validators.IsAllowedHttpMethod(httpMethod)
    ensures r.thrown.None? <==> Validators.IsAllowedHttpMethod(httpMethod)
    ensures r.thrown.None? ==> r.xhr.readyState == Opened && r.xhr.settings.httpMethod == Upper(httpMethod)
    ensures r.thrown.None? ==> r.xhr.settings.url == url && r.xhr.settings.async == async.GetOr(true)
    ensures r.thrown.None? ==>
      && r.xhr.settings.user == Requests.Stored(user) && r.xhr.settings.password == Requests.Stored(password)
      && r.xhr.settings.origin == ParsedOrigin(x.config, rt)
    ensures r.thrown.Some? ==> r.xhr.readyState == Unsent
    ensures !r.xhr.errorFlag && !r.xhr.abortedFlag
    ensures r.xhr.headers == Requests.DefaultHeaders && r.xhr.redirectCount == x.redirectCount
    ensures r.xhr.sendFlag == Abort(x).xhr.sendFlag && r.xhr.disableHeaderCheck == x.disableHeaderCheck
    ensures r.trace == Abort(x).trace + (if r.thrown.None? && async.GetOr(true) then [ReadyStateChange] else [])
    ensures r.issued.None?
  {
    var a := Abort(x);
    var reset := a.xhr.(errorFlag := false, abortedFlag := false);
    if !Validators.IsAllowedHttpMethod(httpMethod) then Step(reset, a.trace, Some(MethodNotAllowed), None)
    else
      var settings := Settings(Upper(httpMethod), url, async.GetOr(true), Requests.Stored(user),
                               Requests.Stored(password), ParsedOrigin(x.config, rt));
      var configured := reset.(settings := settings);
      assert !StateChangeIgnored(configured, Opened);
      var s := SetState(configured, Opened);
      assert s.trace == if async.GetOr(true) then [ReadyStateChange] else [];
      Step(s.xhr, a.trace + s.trace, None, None)
  }

  /** `setDisableHeaderCheck(state)`. */
  function SetDisableHeaderCheck(x: Xhr, state: bool): (r: Xhr)
    ensures r.disableHeaderCheck == state && r.(disableHeaderCheck := x.disableHeaderCheck) == x
  {
    x.(disableHeaderCheck := state)
  }

  const NotOpenForHeader: string := "INVALID_STATE_ERR: setRequestHeader can only be called when state is OPEN"
  const SendFlagSet: string := "INVALID_STATE_ERR: send flag is true"

  /** `setRequestHeader(header, value)`: the second component is the return
      value (false as well when the call throws). */
  function SetRequestHeader(x: Xhr, header: string, value: string): (r: (Step, bool))
    ensures r.0.trace == [] && r.0.issued.None?
    ensures r.1 ==> r.0.xhr == x.(headers := Requests.Put(x.headers, header, Requests.Text(value)))
    ensures !r.1 ==> r.0.xhr == x
    ensures r.0.thrown == Some(NotOpenForHeader) <==> x.readyState != Opened
    ensures r.1 <==> x.readyState == Opened && Validators.IsAllowedHttpHeader(x.disableHeaderCheck, header) && !x.sendFlag
    ensures r.0.thrown.None? && !r.1 <==> x.readyState == Opened && !Validators.IsAllowedHttpHeader(x.disableHeaderCheck, header)
  {
    if x.readyState != Opened then (Step(x, [], Some(NotOpenForHeader), None), false)
    else if !Validators.IsAllowedHttpHeader(x.disableHeaderCheck, header) then (Step(x, [], None, None), false)
    else if x.sendFlag then (Step(x, [], Some(SendFlagSet), None), false)
    else (Step(x.(headers := Requests.Put(x.headers, header, Requests.Text(value))), [], None, None), true)
  }

  const NotOpenForSend: string := "INVALID_STATE_ERR: connection must be opened before send() is called"
  const AlreadySent: string := "INVALID_STATE_ERR: send has already been called"
  const ProtocolNotSupported: string := "Protocol not supported."
  const InvalidDataUri: string := "Invalid data URI"
  const OnlyGet: string := "XMLHttpRequest: Only GET method is supported"

  /** `e.errno || -1`. */
  function ErrnoStatus(errno: int): (s: int)
    ensures s != 0
    ensures errno != 0 ==> s == errno
  {
    if errno != 0 then errno else -1
  }

  /** A send of `x` that ended in `handleError(message, status)`: the status
      and message are recorded, the text cleared, the error flag set, DONE
      entered (unless an abort left the object UNSENT), nothing issued, and
      the message thrown exactly when the request is synchronous. */
  predicate FailedWith(r: Step, x: Xhr, message: string, status: int)
  {
    && r.xhr.status == Some(status) && r.xhr.statusText == Some(message)
    && r.xhr.errorFlag && r.xhr.responseText == "" && r.issued.None?
    && (r.thrown.Some? <==> !x.settings.async) && (r.thrown.Some? ==> r.thrown.value == message)
    && (!(x.readyState == Unsent && x.abortedFlag) ==> r.xhr.readyState == Done)
  }

  /** The `data:` branch of `send`: decode, assemble, enter DONE; any failure
      becomes the error `Invalid data URI`. */
  function SendDataUri(x: Xhr, u: Urls.Url, rt: Runtime): (r: Step)
    ensures r.issued.None?
    ensures match DataUri.BufferFromDataUri(u.href, rt.decodeUriComponent, rt.base64Decode)
      case Err(_) => FailedWith(r, x, InvalidDataUri, 0)
      case Ok(bytes) =>
        match Assembly.CreateFileOrSyncResponse(x.responseType, bytes, rt.utf8Text, rt.jsonError, rt.blobAvailable)
        case Err(_) => FailedWith(r, x, InvalidDataUri, 0)
        case Ok(a) =>
          && r.xhr.status == Some(200) && r.xhr.responseURL == x.settings.url && r.xhr.errorFlag == x.errorFlag
          && r.xhr.responseText == a.responseText && r.xhr.response == a.response && r.thrown.None?
          && (!StateChangeIgnored(x, Done) ==> r.xhr.readyState == Done)
  {
    var loaded := x.(status := Some(200), responseURL := x.settings.url);
    match DataUri.BufferFromDataUri(u.href, rt.decodeUriComponent, rt.base64Decode)
    case Err(_) => HandleErrorAsWritten(loaded, InvalidDataUri, 0)
    case Ok(bytes) =>
      match Assembly.CreateFileOrSyncResponse(x.responseType, bytes, rt.utf8Text, rt.jsonError, rt.blobAvailable)
      case Err(_) => HandleErrorAsWritten(loaded, InvalidDataUri, 0)
      case Ok(a) => SetState(loaded.(responseText := a.responseText, response := a.response), Done)
  }

  /** The `file:` branch of `send`. An asynchronous read is started and its
      result arrives through `OnFileRead`; a synchronous one completes here. */
  function SendFile(x: Xhr, u: Urls.Url, rt: Runtime): (r: Step)
    ensures !x.config.allowFileSystemResources ==>
      r.xhr.statusText == Some("Not allowed to load local resource: " + u.href) && r.issued.None?
    ensures x.config.allowFileSystemResources && x.settings.httpMethod != "GET" ==> r == Step(x, [], Some(OnlyGet), None)
    ensures x.config.allowFileSystemResources && x.settings.httpMethod == "GET" && x.settings.async ==>
      r == Step(x, [], None, Some(FileRead(rt.unescape(u.pathname))))
    ensures x.config.allowFileSystemResources && x.settings.httpMethod == "GET" && !x.settings.async ==>
      match rt.readFileSync(rt.unescape(u.pathname))
      case FileError(errno, message) => FailedWith(r, x, message, ErrnoStatus(errno))
      case FileData(bytes) =>
        match Assembly.CreateFileOrSyncResponse(x.responseType, bytes, rt.utf8Text, rt.jsonError, rt.blobAvailable)
        case Err(message) => FailedWith(r, x, message, -1)
        case Ok(a) =>
          && r.xhr.status == Some(200) && r.xhr.responseURL == x.settings.url
          && r.xhr.responseText == a.responseText && r.xhr.response == a.response
          && r.thrown.None? && r.issued.None?
          && (!StateChangeIgnored(x, Done) ==> r.xhr.readyState == Done)
  {
    if !x.config.allowFileSystemResources then HandleErrorAsWritten(x, "Not allowed to load local resource: " + u.href, 0)
    else if x.settings.httpMethod != "GET" then Step(x, [], Some(OnlyGet), None)
    else
      var path := rt.unescape(u.pathname);
      if x.settings.async then Step(x, [], None, Some(FileRead(path)))
      else
        var started := x.(status := Some(200));
        match rt.readFileSync(path)
        case FileError(errno, message) => HandleErrorAsWritten(started, message, ErrnoStatus(errno))
        case FileData(bytes) =>
          var read := started.(responseURL := x.settings.url);
          match Assembly.CreateFileOrSyncResponse(x.responseType, bytes, rt.utf8Text, rt.jsonError, rt.blobAvailable)
          case Err(message) => HandleErrorAsWritten(read, message, -1)
          case Ok(a) => SetState(read.(responseText := a.responseText, response := a.response), Done)
  }

  /** The completion callback of an asynchronous file read. A JSON failure
      escapes the callback after `responseText` was cleared. */
  function OnFileRead(x: Xhr, outcome: FileOutcome, rt: Runtime): (r: Step)
    ensures r.issued.None?
    ensures outcome.FileError? ==>
      && r.xhr.status == Some(ErrnoStatus(outcome.errno)) && r.xhr.statusText == Some(outcome.message) && r.xhr.errorFlag
      && (r.thrown.None? <==> x.settings.async)
      && (!(x.readyState == Unsent && x.abortedFlag) ==> r.xhr.readyState == Done)
    ensures outcome.FileData? ==> r.xhr.status == Some(200) && r.xhr.responseURL == x.settings.url
    ensures outcome.FileData? ==>
      match Assembly.CreateFileOrSyncResponse(x.responseType, outcome.bytes, rt.utf8Text, rt.jsonError, rt.blobAvailable)
      case Err(message) => r.thrown == Some(message) && r.xhr.responseText == ""
      case Ok(a) => r.thrown.None? && r.xhr.responseText == a.responseText && r.xhr.response == a.response
                    && (!StateChangeIgnored(x, Done) ==> r.xhr.readyState == Done && |r.trace| >= 2 && r.trace[|r.trace| - 2..] == [Outcome(x), LoadEnd])
  {
    match outcome
    case FileError(errno, message) => HandleErrorAsWritten(x, message, ErrnoStatus(errno))
    case FileData(bytes) =>
      var read := x.(status := Some(200), responseURL := x.settings.url);
      match Assembly.CreateFileOrSyncResponse(x.responseType, bytes, rt.utf8Text, rt.jsonError, rt.blobAvailable)
      case Err(message) => Step(read.(responseText := ""), [], Some(message), None)
      case Ok(a) => SetState(read.(responseText := a.responseText, response := a.response), Done)
  }

  /** The synchronous `http:`/`https:` branch: the worker's text becomes
      `responseText` and is classified. Envelope bodies come back through
      `stringToBuffer`. */
  function SendSync(x: Xhr, request: WorkerRequest, rt: Runtime): (r: Step)
    requires !x.settings.async && !x.sendFlag
    ensures r.issued == Some(Spawned(request)) && !r.xhr.sendFlag
    ensures var text := rt.syncWorker(request);
      match Bridge.Classify(text)
      case RedirectFailure(message) => r.xhr.statusText == Some(message) && r.xhr.status == Some(0) && r.thrown == Some(message)
      case WorkerFailure(json) =>
        (match rt.errorObject(json)
         case Err(syntax) => r.thrown == Some(syntax) && r.xhr == x.(responseText := text)
         case Ok(message) => r.xhr.status == Some(503) && r.xhr.statusText == Some(message) && r.thrown == Some(message))
      case Envelope(json) =>
        match rt.parseEnvelope(json)
        case Err(syntax) => r.thrown == Some(syntax) && r.xhr == x.(responseText := text)
        case Ok(env) =>
          && r.xhr.status == Some(env.statusCode) && r.xhr.statusText == Some(env.statusText)
          && r.xhr.responseURL == env.url
          && match Assembly.CreateFileOrSyncResponse(x.responseType, StringToBuffer(env.data), rt.utf8Text, rt.jsonError, rt.blobAvailable)
             case Err(syntax) =>
               r.thrown == Some(syntax) && r.xhr.responseText == "" && r.xhr.response == Assembly.BufferValue(StringToBuffer(env.data))
             case Ok(a) =>
               && r.thrown.None? && r.xhr.responseText == a.responseText && r.xhr.response == a.response
               && r.xhr.serverResponse == Some(ServerResponse(env.statusCode, None, env.headers))
               && (!StateChangeIgnored(x, Done) ==> r.xhr.readyState == Done)
  {
    var text := rt.syncWorker(request);
    var read := x.(responseText := text);
    var s := match Bridge.Classify(text)
      case RedirectFailure(message) => HandleErrorAsWritten(read, message, 0)
      case WorkerFailure(json) =>
        (match rt.errorObject(json)
         case Err(syntax) => Step(read, [], Some(syntax), None)
         case Ok(message) => HandleErrorAsWritten(read, message, 503))
      case Envelope(json) =>
        (match rt.parseEnvelope(json)
         case Err(syntax) => Step(read, [], Some(syntax), None)
         case Ok(env) =>
           var bytes := StringToBuffer(env.data);
           var received := read.(status := Some(env.statusCode), statusText := Some(env.statusText),
                                 responseURL := env.url, response := Assembly.BufferValue(bytes));
           match Assembly.CreateFileOrSyncResponse(x.responseType, bytes, rt.utf8Text, rt.jsonError, rt.blobAvailable)
           case Err(syntax) => Step(received.(responseText := ""), [], Some(syntax), None)
           case Ok(a) =>
             SetState(received.(responseText := a.responseText, response := a.response,
                                serverResponse := Some(ServerResponse(env.statusCode, None, env.headers))), Done));
    s.(issued := Some(Spawned(request)))
  }

  /** The `http:`/`https:` branch (and a scheme-less URL, sent to localhost):
      headers are prepared and the error flag reset; an asynchronous request
      sets the send flag, fires `readystatechange` and `loadstart` and is
      issued. */
  function SendHttp(x: Xhr, u: Urls.Url, isSsl: bool, host: string, body: Requests.Body, rt: Runtime): (r: Step)
    requires !x.sendFlag
    ensures var prepared := Requests.PrepareRequest(x.settings.httpMethod, x.settings.user, x.settings.password,
                                                    u, isSsl, host, x.headers, body);
      x.settings.async ==> r == Step(x.(headers := prepared.0.headers, errorFlag := false, sendFlag := true,
                                         transfer := Some(Transfer(isSsl, prepared.1, prepared.0))),
                                     [ReadyStateChange, LoadStart], None, Some(HttpRequest(isSsl, prepared.0, prepared.1)))
    ensures !x.settings.async ==> r.issued.Some? && r.issued.value.Spawned? && !r.xhr.sendFlag
  {
    var prepared := Requests.PrepareRequest(x.settings.httpMethod, x.settings.user, x.settings.password,
                                            u, isSsl, host, x.headers, body);
    var ready := x.(headers := prepared.0.headers, errorFlag := false);
    if x.settings.async then
      Step(ready.(sendFlag := true, transfer := Some(Transfer(isSsl, prepared.1, prepared.0))),
           [ReadyStateChange, LoadStart], None, Some(HttpRequest(isSsl, prepared.0, prepared.1)))
    else SendSync(ready, WorkerRequest(isSsl, prepared.0, ready.settings.url, prepared.1, x.maxRedirects), rt)
  }

  /** The scheme dispatch of `send`, once the URL is resolved. `https:`
      falls through to `http:`, `data:` is handled before the file-system
      gate, a URL with no scheme is sent to localhost, and an unknown scheme
      throws. */
  function SendTo(x: Xhr, u: Urls.Url, body: Requests.Body, rt: Runtime): (r: Step)
    requires !x.sendFlag
    ensures u.protocol !in {"http:", "https:", "", "data:", "file:"} ==> r == Step(x, [], Some(ProtocolNotSupported), None)
    ensures u.protocol == "data:" ==> r == SendDataUri(x, u, rt)
    ensures u.protocol == "file:" ==> r == SendFile(x, u, rt)
    ensures u.protocol in {"http:", "https:"} ==> r == SendHttp(x, u, u.protocol == "https:", u.hostname, body, rt)
    ensures u.protocol == "" ==> r == SendHttp(x, u, false, "localhost", body, rt)
  {
    if u.protocol == "https:" then SendHttp(x, u, true, u.hostname, body, rt)
    else if u.protocol == "http:" then SendHttp(x, u, false, u.hostname, body, rt)
    else if u.protocol == "data:" then SendDataUri(x, u, rt)
    else if u.protocol == "file:" then SendFile(x, u, rt)
    else if u.protocol == "" then SendHttp(x, u, false, "localhost", body, rt)
    else Step(x, [], Some(ProtocolNotSupported), None)
  }

  /** The base `send` resolves the URL against: the configured origin. */
  function Base(x: Xhr): Option<string>
  {
    if x.settings.origin.Some? then Some(x.settings.origin.value.href) else None
  }

  /** `send(data)`: the state checks, the URL resolved against the origin
      (a parse failure is a request error) and stored, then the dispatch. */
  function Send(x: Xhr, body: Requests.Body, rt: Runtime): (r: Step)
    ensures x.readyState != Opened ==> r == Step(x, [], Some(NotOpenForSend), None)
    ensures x.readyState == Opened && x.sendFlag ==> r == Step(x, [], Some(AlreadySent), None)
    ensures x.readyState == Opened && !x.sendFlag && rt.parseUrl(x.settings.url, Base(x)).Err? ==>
      r == HandleErrorAsWritten(x, rt.parseUrl(x.settings.url, Base(x)).error, 0)
    ensures x.readyState == Opened && !x.sendFlag && rt.parseUrl(x.settings.url, Base(x)).Ok? ==>
      var u := rt.parseUrl(x.settings.url, Base(x)).value;
      r == SendTo(x.(settings := x.settings.(url := u.href)), u, body, rt)
  {
    if x.readyState != Opened then Step(x, [], Some(NotOpenForSend), None)
    else if x.sendFlag then Step(x, [], Some(AlreadySent), None)
    else
      match rt.parseUrl(x.settings.url, Base(x))
      case Err(message) => HandleErrorAsWritten(x, message, 0)
      case Ok(u) => SendTo(x.(settings := x.settings.(url := u.href)), u, body, rt)
  }

  /** The first value of a response header, by its lower-case name. */
  function FieldValue(fields: seq<(string, string)>, name: string): (r: Option<string>)
    ensures r.Some? <==> exists i :: 0 <= i < |fields| && fields[i].0 == name
    ensures r.Some? ==> exists i :: 0 <= i < |fields| && fields[i] == (name, r.value)
  {
    if |fields| == 0 then None
    else if fields[0].0 == name then Some(fields[0].1)
    else
      var rest := FieldValue(fields[1..], name);
      assert forall i :: 1 <= i < |fields| ==> fields[i] == fields[1..][i - 1];
      rest
  }

  /** The response handler of an asynchronous request. A redirect is
      counted and followed, or fails the request; any other response is
      stored, HEADERS_RECEIVED is entered and the status recorded. A
      response with no request in flight is ignored. */
  function OnResponse(x: Xhr, resp: Incoming, rt: Runtime): (r: Step)
    ensures x.transfer.None? ==> r == Step(x, [], None, None)
    ensures x.transfer.Some? && Redirects.IsRedirectStatus(resp.statusCode) ==> r.xhr.redirectCount == x.redirectCount + 1
    ensures x.transfer.Some? && !Redirects.IsRedirectStatus(resp.statusCode) ==> r == ReceiveHeaders(x, resp)
    ensures x.transfer.Some? && Redirects.IsRedirectStatus(resp.statusCode)
            && Redirects.Exceeds(x.redirectCount + 1, x.maxRedirects) ==>
      && r.xhr.status == Some(0) && r.xhr.statusText == Some("Too many redirects") && r.xhr.errorFlag
      && r.issued.None?
    ensures var target := rt.parseUrl(FieldValue(resp.headers, "location").GetOr("undefined"), Some(x.settings.url));
      x.transfer.Some? && Redirects.IsRedirectStatus(resp.statusCode) && !Redirects.Exceeds(x.redirectCount + 1, x.maxRedirects)
      && !(target.Ok? && target.value.protocol in {"http:", "https:"}) ==>
        && r.xhr.status == Some(0) && r.xhr.statusText == Some("Unsafe redirect") && r.xhr.errorFlag
        && r.issued.None? && r.xhr.settings == x.settings
    ensures var target := rt.parseUrl(FieldValue(resp.headers, "location").GetOr("undefined"), Some(x.settings.url));
      x.transfer.Some? && Redirects.IsRedirectStatus(resp.statusCode) && !Redirects.Exceeds(x.redirectCount + 1, x.maxRedirects)
      && target.Ok? && target.value.protocol in {"http:", "https:"} ==>
        && r.xhr.settings == x.settings.(url := target.value.href)
        && r.issued.Some? && r.issued.value.HttpRequest? && r.issued.value.body == x.transfer.value.body
        && r.issued.value.isSsl == (target.value.protocol == "https:")
        && r.issued.value.options.host == target.value.hostname
        && r.issued.value.options.httpMethod == (if resp.statusCode == 303 then "GET" else x.settings.httpMethod)
        && r.trace == [] && r.thrown.None?
    ensures x.settings.async ==> r.thrown.None?
    ensures r.xhr.settings.async == x.settings.async && r.xhr.maxRedirects == x.maxRedirects
  {
    match x.transfer
    case None => Step(x, [], None, None)
    case Some(t) =>
      var resolved := Redirects.ResolveRedirect(resp.statusCode, FieldValue(resp.headers, "location"), x.settings.url,
                                                x.settings.httpMethod, x.redirectCount, x.maxRedirects, rt.parseUrl);
      match resolved
      case NotRedirect => ReceiveHeaders(x, resp)
      case TooManyRedirects(n) => FailRedirect(x, n, "Too many redirects")
      case UnsafeRedirect(n) => FailRedirect(x, n, "Unsafe redirect")
      case Follow(n, target, nextMethod) => FollowRedirect(x, t.body, n, target, nextMethod)
  }

  /** A redirect that is not followed: the count is kept and the request
      fails with status 0. The send flag stays as it was. */
  function FailRedirect(x: Xhr, count: nat, message: string): (r: Step)
    ensures r.xhr.redirectCount == count && r.xhr.settings == x.settings && r.xhr.maxRedirects == x.maxRedirects
    ensures r.xhr.status == Some(0) && r.xhr.statusText == Some(message) && r.xhr.errorFlag
    ensures r.xhr.sendFlag == x.sendFlag && r.issued.None?
    ensures r.thrown.None? <==> x.settings.async
  {
    HandleErrorAsWritten(x.(redirectCount := count), message, 0)
  }

  /** A response that is not a redirect: it is kept for the header
      accessors, HEADERS_RECEIVED is entered and the status recorded. */
  function ReceiveHeaders(x: Xhr, resp: Incoming): (r: Step)
    ensures r.xhr.status == Some(resp.statusCode) && r.xhr.serverResponse == Some(ServerResponse(resp.statusCode, Some(resp.statusMessage), resp.headers))
    ensures r.xhr.buffers == [] && r.xhr.isUtf8 == Assembly.IsUtf8Type(x.responseType)
    ensures r.xhr.(serverResponse := x.serverResponse, isUtf8 := x.isUtf8, buffers := x.buffers,
                   status := x.status, readyState := x.readyState) == x
    ensures !StateChangeIgnored(x, HeadersReceived) ==> r.xhr.readyState == HeadersReceived
    ensures r.thrown.None? && r.issued.None?
  {
    var received := x.(serverResponse := Some(ServerResponse(resp.statusCode, Some(resp.statusMessage), resp.headers)),
                       isUtf8 := Assembly.IsUtf8Type(x.responseType), buffers := []);
    var s := SetState(received, HeadersReceived);
    Step(s.xhr.(status := Some(resp.statusCode)), s.trace, None, None)
  }

  /** Following a redirect: the `Host` header is rewritten for the target,
      the URL becomes the target's, and the same body is sent there with the
      method the resolver chose. */
  function FollowRedirect(x: Xhr, body: Requests.Body, count: nat, target: Urls.Url, nextMethod: string): (r: Step)
    ensures r.xhr.redirectCount == count && r.xhr.settings == x.settings.(url := target.href)
    ensures r.xhr.maxRedirects == x.maxRedirects && r.xhr.readyState == x.readyState && r.xhr.errorFlag == x.errorFlag
    ensures r.xhr.transfer.Some? && r.trace == [] && r.thrown.None?
    ensures r.issued.Some? && r.issued.value.HttpRequest? && r.issued.value.body == body
    ensures r.issued.value.isSsl == (target.protocol == "https:")
    ensures r.issued.value.options.httpMethod == nextMethod && r.issued.value.options.host == target.hostname
    ensures r.issued.value.options.headers == r.xhr.headers
    ensures Requests.UniqueNames(x.headers) ==>
      Requests.Lookup(r.xhr.headers, "Host") == Some(Requests.Text(Urls.Host(target)))
  {
    var isSsl := target.protocol == "https:";
    var hostValue := Requests.Text(Urls.HostHeader(target.hostname, target, isSsl));
    var headers := Requests.Put(x.headers, "Host", hostValue);
    HostRewritten(x.headers, target, isSsl);
    var options := Requests.RequestOptions(target.hostname, Urls.EffectivePort(target, isSsl),
                                           target.pathname + target.search, nextMethod, headers);
    Step(x.(redirectCount := count, settings := x.settings.(url := target.href), headers := headers,
            transfer := Some(Transfer(isSsl, body, options))),
         [], None, Some(HttpRequest(isSsl, options, body)))
  }

  /** The `Host` header a redirect writes is the target's host. */
  lemma HostRewritten(h: Requests.Headers, target: Urls.Url, isSsl: bool)
    ensures Requests.UniqueNames(h) ==>
      Requests.Lookup(Requests.Put(h, "Host", Requests.Text(Urls.HostHeader(target.hostname, target, isSsl))), "Host")
        == Some(Requests.Text(Urls.Host(target)))
  {
    Urls.HostHeaderIsUrlHost(target, isSsl);
    if Requests.UniqueNames(h) {
      Requests.PutLookup(h, "Host", Requests.Text(Urls.HostHeader(target.hostname, target, isSsl)), "Host");
    }
  }

  /** A `data` event: text types append the decoded chunk, others collect
      it; LOADING is entered while the send flag is set. Nothing else changes. */
  function OnData(x: Xhr, chunk: seq<byte>, rt: Runtime): (r: Step)
    ensures x.isUtf8 ==> r.xhr.responseText == x.responseText + rt.utf8Text(chunk) && r.xhr.buffers == x.buffers
    ensures !x.isUtf8 ==> r.xhr.buffers == x.buffers + [chunk] && r.xhr.responseText == x.responseText
    ensures r.xhr.(readyState := x.readyState, responseText := x.responseText, buffers := x.buffers) == x
    ensures x.sendFlag && x.readyState != Unsent ==> r.xhr.readyState == Loading
    ensures !x.sendFlag ==> r.trace == [] && r.xhr.readyState == x.readyState
    ensures r.thrown.None? && r.issued.None?
  {
    var collected := if x.isUtf8 then x.(responseText := x.responseText + rt.utf8Text(chunk))
                     else x.(buffers := x.buffers + [chunk]);
    if x.sendFlag then SetState(collected, Loading) else Step(collected, [], None, None)
  }

  /** The `statusMessage` of the stored response. */
  function ResponseStatusMessage(x: Xhr): Option<string>
  {
    if x.serverResponse.Some? then x.serverResponse.value.statusMessage else None
  }

  /** The `end` event of the stored response: only while the send flag is
      set, the flag is cleared, the response assembled, the response's
      status message and the URL recorded and DONE entered. A JSON failure
      escapes the handler. */
  function OnEnd(x: Xhr, rt: Runtime): (r: Step)
    ensures !x.sendFlag ==> r == Step(x, [], None, None)
    ensures x.sendFlag ==> !r.xhr.sendFlag
    ensures r.xhr.status == x.status && r.issued.None?
    ensures x.sendFlag ==>
      match Assembly.CreateResponse(x.responseType, x.responseText, x.buffers, rt.jsonError, rt.blobAvailable)
      case Err(message) => r.thrown == Some(message)
      case Ok(a) => r.xhr.responseText == a.responseText && r.xhr.response == a.response
                    && r.xhr.statusText == ResponseStatusMessage(x) && r.xhr.responseURL == x.settings.url
                    && r.thrown.None?
                    && (!StateChangeIgnored(x, Done) ==> r.xhr.readyState == Done && |r.trace| >= 2 && r.trace[|r.trace| - 2..] == [Outcome(x), LoadEnd])
  {
    if !x.sendFlag then Step(x, [], None, None)
    else
      var ended := x.(sendFlag := false);
      match Assembly.CreateResponse(x.responseType, x.responseText, x.buffers, rt.jsonError, rt.blobAvailable)
      case Err(message) => Step(ended, [], Some(message), None)
      case Ok(a) =>
        SetState(ended.(responseText := a.responseText, response := a.response, statusText := ResponseStatusMessage(x),
                        responseURL := x.settings.url), Done)
  }

  /** An `error` event of the request or the response: the request fails
      with status 0 and the send flag stays as it was. */
  function OnTransportError(x: Xhr, message: string): (r: Step)
    ensures r.xhr.status == Some(0) && r.xhr.statusText == Some(message) && r.xhr.errorFlag
    ensures r.xhr.sendFlag == x.sendFlag && r.xhr.settings == x.settings && r.issued.None?
    ensures !(x.readyState == Unsent && x.abortedFlag) ==> r.xhr.readyState == Done
    ensures r.thrown.None? <==> x.settings.async
  {
    HandleErrorAsWritten(x, message, 0)
  }

  /** `addEventListener(event, callback)`: throws for an inherited name. */
  function AddEventListener(x: Xhr, event: string, callback: ListenerId): (r: Step)
    ensures r.thrown.Some? <==> event !in x.listeners && Objects.Inherited(event)
    ensures r.thrown.None? ==> Registered(r.xhr.listeners, event) == Registered(x.listeners, event) + [callback]
    ensures r.thrown.Some? ==> r.xhr == x
    ensures r.xhr.(listeners := x.listeners) == x && r.trace == [] && r.issued.None?
  {
    match Events.AddEventListener(x.listeners, event, callback)
    case Err(e) => Step(x, [], Some(e), None)
    case Ok(reg) => Step(x.(listeners := reg), [], None, None)
  }

  /** `removeEventListener(event, callback)`: throws for an inherited name
      that has no list. */
  function RemoveEventListener(x: Xhr, event: string, callback: ListenerId): (r: Step)
    ensures r.thrown.Some? <==> event !in x.listeners && Objects.Inherited(event)
    ensures r.thrown.None? ==> callback !in Registered(r.xhr.listeners, event)
    ensures r.thrown.Some? ==> r.xhr == x
    ensures r.xhr.(listeners := x.listeners) == x && r.trace == [] && r.issued.None?
  {
    match Events.RemoveEventListener(x.listeners, event, callback)
    case Err(e) => Step(x, [], Some(e), None)
    case Ok(reg) => Step(x.(listeners := reg), [], None, None)
  }

  /** Assigning a function (or something else) to `on<event>`. */
  function SetOnHandler(x: Xhr, event: string, isFunction: bool): (r: Xhr)
    ensures event in r.handlers <==> isFunction
    ensures forall e :: e != event ==> (e in r.handlers <==> e in x.handlers)
  {
    x.(handlers := if isFunction then x.handlers + {event} else x.handlers - {event})
  }

  /** Assigning `responseType`. */
  function SetResponseType(x: Xhr, responseType: string): (r: Xhr)
    ensures r.responseType == responseType && r.(responseType := x.responseType) == x
  {
    x.(responseType := responseType)
  }

  /** The deliveries of every event in a trace, dispatched in the given state. */
  function Deliveries(x: Xhr, event: EventKind): seq<Delivery>
  {
    Dispatch(x.listeners, x.handlers, event.Name(), x.readyState, x.settings.async)
  }

  /** Whether a response header lookup yields a value JavaScript finds truthy. */
  predicate Present(v: Option<string>)
  {
    v.Some? && v.value != ""
  }

  const MissingResponse: string := "TypeError: Cannot read properties of undefined (reading 'headers')"

  /** `response.headers[name]`: the headers are a plain object, so a name
      received reads its first value, and a name never received reads the
      member `Object.prototype` has under it, if any. `__proto__` always
      reads the inherited accessor, since assigning a string to it stores
      nothing. */
  function ResponseField(fields: seq<(string, string)>, name: string): (r: Option<Requests.HeaderValue>)
    ensures r.Some? && r.value.Text? ==> name != Objects.ProtoKey && FieldValue(fields, name) == Some(r.value.s)
    ensures r.Some? && r.value.Member? ==> r.value.name == name && Objects.Inherited(name)
    ensures r.Some? ==> r.value.Text? || r.value.Member?
    ensures r.None? <==> FieldValue(fields, name).None? && !Objects.Inherited(name)
  {
    var v := FieldValue(fields, name);
    if name != Objects.ProtoKey && v.Some? then Some(Requests.Text(v.value))
    else if Objects.Inherited(name) then Some(Requests.Member(name))
    else None
  }

  /** `getResponseHeader(header)` as written: `response.headers` is read
      before `response` is checked, so once past OPENED with no response
      received (a `data:` or `file:` load, or a request error, on a fresh
      object) the call throws a TypeError instead of returning null. A
      name lower-casing to an `Object.prototype` member that was not
      received (`constructor`, `__proto__`) reads that member. */
  function GetResponseHeaderAsWritten(x: Xhr, header: string): (r: Result<Option<Requests.HeaderValue>>)
    ensures r.Err? <==> x.readyState.Code() > Opened.Code() && x.serverResponse.None?
    ensures r.Ok? && r.value.Some? ==>
      && x.readyState.Code() > Opened.Code() && !x.errorFlag && x.serverResponse.Some?
      && r.value == ResponseField(x.serverResponse.value.headers, Lower(header)) && r.value.value.Truthy()
  {
    if x.readyState.Code() <= Opened.Code() then Ok(None)
    else match x.serverResponse
      case None => Err(MissingResponse)
      case Some(resp) =>
        var v := ResponseField(resp.headers, Lower(header));
        Ok(if v.Some? && v.value.Truthy() && !x.errorFlag then v else None)
  }

  /** `getResponseHeader(header)` with the checks in the intended order:
      the first value received under the lower-cased name, or null before
      HEADERS_RECEIVED, after an error, with no response, or for an absent
      or empty header. Only received headers count, so an inherited member
      reads as null, and `__proto__`, which no response object can hold,
      always does. */
  function GetResponseHeader(x: Xhr, header: string): (r: Option<string>)
    ensures r.Some? <==> x.readyState.Code() > Opened.Code() && !x.errorFlag && x.serverResponse.Some?
                         && Lower(header) != Objects.ProtoKey
                         && Present(FieldValue(x.serverResponse.value.headers, Lower(header)))
    ensures r.Some? ==> r.value != "" && (Lower(header), r.value) in x.serverResponse.value.headers
  {
    if x.readyState.Code() > Opened.Code() && !x.errorFlag && x.serverResponse.Some? then
      match ResponseField(x.serverResponse.value.headers, Lower(header))
      case Some(v) => if v.Text? && v.s != "" then Some(v.s) else None
      case None => None
    else None
  }

  /** Where the code as written returns a received value, it is the
      corrected answer, and every corrected answer is returned so.
      Otherwise the code as written throws, reads
      an inherited member the corrected accessor reports as null, or
      returns null as the corrected one does. */
  lemma GetResponseHeaderAgrees(x: Xhr, header: string)
    ensures var w := GetResponseHeaderAsWritten(x, header);
      w.Ok? && w.value.Some? && w.value.value.Text? ==> GetResponseHeader(x, header) == Some(w.value.value.s)
    ensures var w := GetResponseHeaderAsWritten(x, header);
      w.Ok? && w.value.Some? && w.value.value.Member? ==>
        && GetResponseHeader(x, header).None? && w.value.value.name == Lower(header)
        && Objects.Inherited(Lower(header))
        && (Lower(header) == Objects.ProtoKey || FieldValue(x.serverResponse.value.headers, Lower(header)).None?)
    ensures GetResponseHeaderAsWritten(x, header) == Ok(None) ==> GetResponseHeader(x, header).None?
    ensures GetResponseHeaderAsWritten(x, header).Err? ==> GetResponseHeader(x, header).None?
    ensures GetResponseHeader(x, header).Some? ==>
      GetResponseHeaderAsWritten(x, header) == Ok(Some(Requests.Text(GetResponseHeader(x, header).value)))
  {
  }

  /** A name lower-casing to an `Object.prototype` member the response did
      not carry, such as `Constructor`, reads that member as written, while
      the corrected accessor reports null. */
  lemma InheritedResponseHeader(x: Xhr, header: string)
    requires x.readyState.Code() > Opened.Code() && !x.errorFlag && x.serverResponse.Some?
    requires Objects.Inherited(Lower(header))
    requires Lower(header) == Objects.ProtoKey || FieldValue(x.serverResponse.value.headers, Lower(header)).None?
    ensures GetResponseHeaderAsWritten(x, header) == Ok(Some(Requests.Member(Lower(header))))
    ensures GetResponseHeader(x, header).None?
  {
  }

  /** The cookie headers `getAllResponseHeaders` leaves out. */
  predicate IsCookieHeader(name: string)
  {
    name == "set-cookie" || name == "set-cookie2"
  }

  /** A received header the loop of `getAllResponseHeaders` writes: `for…in`
      never yields `__proto__`, which the plain object does not store, and
      the cookie headers are skipped. */
  predicate Listed(name: string)
  {
    !IsCookieHeader(name) && name != Objects.ProtoKey
  }

  /** The `name: value` lines of the listed headers, in order. */
  function HeaderLines(fields: seq<(string, string)>): (lines: seq<string>)
    ensures |lines| <= |fields|
    ensures forall line :: line in lines <==>
      exists i :: 0 <= i < |fields| && Listed(fields[i].0) && line == fields[i].0 + ": " + fields[i].1
  {
    if |fields| == 0 then []
    else
      var rest := HeaderLines(fields[1..]);
      assert forall i :: 1 <= i < |fields| ==> fields[i] == fields[1..][i - 1];
      assert forall i :: 0 <= i < |fields[1..]| ==> fields[1..][i] == fields[i + 1];
      if !Listed(fields[0].0) then rest else [fields[0].0 + ": " + fields[0].1] + rest
  }

  /** The loop of `getAllResponseHeaders`: every kept header followed by CRLF. */
  function Accumulated(fields: seq<(string, string)>): string
  {
    if |fields| == 0 then ""
    else (if !Listed(fields[0].0) then "" else fields[0].0 + ": " + fields[0].1 + "\r\n")
         + Accumulated(fields[1..])
  }

  /** `result.slice(0, -2)`. */
  function DropLastTwo(s: string): (r: string)
    ensures |s| >= 2 ==> r + s[|s| - 2..] == s
    ensures |s| < 2 ==> r == ""
  {
    if |s| < 2 then "" else s[..|s| - 2]
  }

  /** Lines joined by CRLF. */
  function JoinLines(lines: seq<string>): string
  {
    if |lines| == 0 then ""
    else if |lines| == 1 then lines[0]
    else lines[0] + "\r\n" + JoinLines(lines[1..])
  }

  /** `getAllResponseHeaders()`: empty before HEADERS_RECEIVED, after an
      error or with no response; otherwise the accumulated lines with the
      final CRLF cut off. */
  function GetAllResponseHeaders(x: Xhr): string
  {
    if x.readyState.Code() < HeadersReceived.Code() || x.errorFlag || x.serverResponse.None? then ""
    else DropLastTwo(Accumulated(x.serverResponse.value.headers))
  }

  /** The accumulation is the CRLF-terminated lines. */
  lemma {:induction false} AccumulatedLines(fields: seq<(string, string)>)
    ensures Accumulated(fields) == (if |HeaderLines(fields)| == 0 then "" else JoinLines(HeaderLines(fields)) + "\r\n")
  {
    if |fields| > 0 {
      AccumulatedLines(fields[1..]);
      var rest := HeaderLines(fields[1..]);
      if Listed(fields[0].0) {
        var line := fields[0].0 + ": " + fields[0].1;
        assert HeaderLines(fields) == [line] + rest;
        if |rest| > 0 {
          assert ([line] + rest)[1..] == rest;
          assert JoinLines([line] + rest) == line + "\r\n" + JoinLines(rest);
        }
      }
    }
  }

  /** What `getAllResponseHeaders` promises: the listed headers, one
      `name: value` line each in the order received, separated by CRLF with
      none at the end; the empty string whenever headers are unavailable. */
  lemma AllResponseHeadersAreJoinedLines(x: Xhr)
    ensures x.readyState.Code() < HeadersReceived.Code() || x.errorFlag || x.serverResponse.None? ==>
      GetAllResponseHeaders(x) == ""
    ensures x.readyState.Code() >= HeadersReceived.Code() && !x.errorFlag && x.serverResponse.Some? ==>
      GetAllResponseHeaders(x) == JoinLines(HeaderLines(x.serverResponse.value.headers))
  {
    if x.serverResponse.Some? {
      var fields := x.serverResponse.value.headers;
      AccumulatedLines(fields);
      var s := Accumulated(fields);
      if |HeaderLines(fields)| > 0 {
        assert s[..|s| - 2] == JoinLines(HeaderLines(fields));
      }
    }
  }

  /** `getRequestHeader(name)`: what `headers[name]` finds when it is
      truthy, otherwise the empty string. A name never stored reads the
      inherited member, if there is one. */
  function GetRequestHeader(x: Xhr, name: string): (r: Requests.HeaderValue)
    ensures r.Truthy() ==> Requests.Get(x.headers, name) == Some(r)
    ensures !r.Truthy() ==> r == Requests.Text("")
    ensures name !in Requests.Names(x.headers) ==> (r.Truthy() <==> Objects.Inherited(name))
    ensures Requests.UniqueNames(x.headers) ==>
      ((exists i :: 0 <= i < |x.headers| && x.headers[i].0 == name && x.headers[i].1.Truthy()) ==> r.Truthy())
  {
    match Requests.Get(x.headers, name)
    case Some(v) => if v.Truthy() then v else Requests.Text("")
    case None => Requests.Text("")
  }
}
